=== FILE: README.md ===
# PrepBankerHub: a Dafny model of its page logic

PrepBankerHub is a React front end for banking-exam preparation. Students browse
PDFs and monthly current-affairs magazines, follow an exam calendar, read blog
posts and send requests. Administrators manage the catalogue, the calendar,
the blog, the users and the requests. All storage and authentication sit
behind a hosted backend client.

This project models the rules that the pages carry themselves. Every backend
answer is an input: a query result, a success flag, or an `Option` for
"error or rows". It models:

- the blog slug generator and the tag list conversion (`BlogAdmin`), and the
  public blog list (`BlogsList`);
- the exam calendar:
  - the date-list editor and its validator (`ExamCalendarForm`);
  - the public countdown badges and quick statistics (`Calendar`);
  - the admin list's colours, counts and formatters (`ExamCalendarAdmin`);
  - the event record and search they share (`CalendarEvents`);
- the user-request workflow:
  - the submit form (`RequestForm`);
  - the review page (`RequestReview`): its buttons form a small state machine
    `review -> approved -> completed` plus `review -> completed`, and every
    status change the page's own buttons make is one of those moves;
- user administration:
  - search, block toggle, counts and the CSV export (`UserAdmin`);
  - the sign-in modal with its bounded user-id search (`Auth`, over the generic
    form map `FormFields`);
- the catalogue:
  - the magazine admin list, editor and public page (`MagazineAdmin`,
    `MagazineForm`, `MagazinePage`);
  - the PDF admin list, editor and public library (`PdfAdmin`, `PdfForm`,
    `PdfsPage`);
- the navigation sidebar (`Sidebar`).

Two modules hold shared helpers:

- `Text` models the JavaScript string operations the pages use:
  - `trim`, using the JavaScript white-space set;
  - ASCII `toLowerCase` and `toUpperCase`;
  - `includes`;
  - `replace` with a string pattern, which replaces only the first occurrence;
  - `split` and `join`;
  - `parseInt` on a leading digit run;
  - `value.trim() || null`;
  - `x || default`.
- `Seqs` holds filter, map, count and sum over sequences, with their
  properties: order preservation and subsequences, counts of disjoint and
  complementary conditions.

Where the source changes state, the model is a class with the page's state
fields:

- the blog editor, the request page and the review page;
- the user admin page and the sign-in modal;
- the magazine and PDF pages and the magazine editor;
- the date-list editor and the sidebar.

Each such method states the whole new state in terms of the functions about
which the properties are proved. The magazine page's pairing loop is a method
with a `while` loop and its invariants.

## Model

| member | source | states |
|---|---|---|
| BlogAdmin.KeepSlugChars | src/pages/admin/AdminBlogManagement.jsx:51 | after dropping every character outside `[a-z0-9 -]`, only those characters remain |
| BlogAdmin.ReplaceRuns | src/pages/admin/AdminBlogManagement.jsx:52-53 | a run replacement keeps emptiness; the first character becomes `-` exactly when it starts a run; every output character is `-` or an input character outside the run class |
| BlogAdmin.ReplaceRunsKeepsOthers | src/pages/admin/AdminBlogManagement.jsx:52-53 | leaving out every `-`, the output is the input's characters outside the run class and other than `-`, in their order |
| BlogAdmin.RunBecomesOneDash | src/pages/admin/AdminBlogManagement.jsx:52-53 | a whole non-empty run becomes exactly one `-` |
| BlogAdmin.OtherCharKept | src/pages/admin/AdminBlogManagement.jsx:52-53 | a character outside the run class is kept as it is |
| BlogAdmin.ReplaceRunsAppend | src/pages/admin/AdminBlogManagement.jsx:52-53 | two texts that do not split a run are replaced piece by piece, so each maximal run gives one `-` and everything else is kept in order |
| BlogAdmin.RunsKeepLettersAndDigits | src/pages/admin/AdminBlogManagement.jsx:52-53 | a replacement whose run class holds no letter or digit keeps the letters and digits of the text, in order |
| BlogAdmin.ReplaceDashRunsNoDouble | src/pages/admin/AdminBlogManagement.jsx:53 | after collapsing `-+` into `-`, no two `-` are adjacent |
| BlogAdmin.ReplaceDashRunsIdentity | src/pages/admin/AdminBlogManagement.jsx:53 | collapsing `-` runs changes nothing in a text with no `--` |
| BlogAdmin.GenerateSlugShape | src/pages/admin/AdminBlogManagement.jsx:48-55 | every generated slug uses only `a`-`z`, `0`-`9` and `-` and never has two adjacent `-` |
| BlogAdmin.SlugUnchanged | src/pages/admin/AdminBlogManagement.jsx:48-55 | a text that already has slug shape is its own slug |
| BlogAdmin.SlugFixedPoint | src/pages/admin/AdminBlogManagement.jsx:48-55 | `generateSlug` leaves a text unchanged if and only if the text has slug shape |
| BlogAdmin.SlugKeepsLettersAndDigits | src/pages/admin/AdminBlogManagement.jsx:48-55 | the slug holds exactly the letters `a`-`z` and digits of the lower-cased title, in their order |
| BlogAdmin.SpaceBetweenWords | src/pages/admin/AdminBlogManagement.jsx:52 | one space between two words of letters and digits becomes one `-` |
| BlogAdmin.JoinedWordsAreSlug | src/pages/admin/AdminBlogManagement.jsx:48-55 | two words of letters and digits joined by one `-` have slug shape |
| BlogAdmin.TwoWordSlug | src/pages/admin/AdminBlogManagement.jsx:48-55 | a title that lower-cases to two non-empty words of letters and digits separated by one space gives those words joined by `-` |
| BlogAdmin.HelloWorldSlug | src/pages/admin/AdminBlogManagement.jsx:48-55 | `Hello World` gives `hello-world` |
| BlogAdmin.GenerateSlugIdempotent | src/pages/admin/AdminBlogManagement.jsx:48-55 | generating a slug from a slug gives the same slug |
| BlogAdmin.DashesAtEndsSurvive | src/pages/admin/AdminBlogManagement.jsx:54 | `.trim('-')` trims white space only, so `-IBPS-` gives `-ibps-` |
| BlogAdmin.SplitTags | src/pages/admin/AdminBlogManagement.jsx:64 | an empty tag text saves as no tags; otherwise there is one tag per comma plus one, each trimmed and without a comma |
| BlogAdmin.JoinTagsAsCommaJoin | src/pages/admin/AdminBlogManagement.jsx:99 | joining with `", "` equals joining with `,` after putting a space before every tag except the first |
| BlogAdmin.TagsEditSaveRoundTrip | src/pages/admin/AdminBlogManagement.jsx:95-102 | edit-then-save gives back a stored tag array when no tag has a comma or surrounding white space and the array is not `[""]` |
| BlogAdmin.EmptyTagIsLost | src/pages/admin/AdminBlogManagement.jsx:64 | the array `[""]` does not survive edit-then-save; it is saved as no tags |
| BlogAdmin.BlogData | src/pages/admin/AdminBlogManagement.jsx:61-66 | the saved slug is the typed slug when one was typed, otherwise the title's slug; the tags are the split tag text; the time stamp is the clock reading; every other form field (title, content, excerpt, cover, meta title and description, publish flag, read time) is copied |
| BlogAdmin.SavedSlugShape | src/pages/admin/AdminBlogManagement.jsx:63 | a blank slug field is saved as a slug of slug shape; a typed slug is saved as typed |
| BlogAdmin.FormFromBlog | src/pages/admin/AdminBlogManagement.jsx:95-102 | editing fills the form from the blog, with an array of tags shown as their `", "` join |
| BlogAdmin.BlogEditor.constructor | src/pages/admin/AdminBlogManagement.jsx:13-24 | the editor opens closed, not editing, with the reset form |
| BlogAdmin.BlogEditor.NewBlog | src/pages/admin/AdminBlogManagement.jsx:143-147 | "New Blog" shows the reset form and forgets the edited blog |
| BlogAdmin.BlogEditor.ChangeTitle | src/pages/admin/AdminBlogManagement.jsx:169-174 | typing a title overwrites the slug with the new title's slug, which has slug shape; other fields are kept |
| BlogAdmin.BlogEditor.ChangeSlug | src/pages/admin/AdminBlogManagement.jsx:186 | typing a slug stores it as typed |
| BlogAdmin.BlogEditor.Edit | src/pages/admin/AdminBlogManagement.jsx:95-102 | remembers the blog, fills the form from it and shows the form |
| BlogAdmin.BlogEditor.Submit | src/pages/admin/AdminBlogManagement.jsx:57-93 | writes the built row as an update of the edited blog or as an insert; after a successful write the form is reset and closed; after a failed one nothing changes |
| BlogsList.LoadedBlogs | src/pages/BlogsList.jsx:16-32 | the loaded list is exactly the published rows of the answer, in order; it is empty after an error |
| BlogsList.FilteredBlogs | src/pages/BlogsList.jsx:34-37 | the shown posts are exactly the posts whose title, or present excerpt, contains the term ignoring case, in loaded order |
| BlogsList.EmptySearchShowsAll | src/pages/BlogsList.jsx:34-37 | an empty search keeps every post |
| BlogsList.PostPath | src/pages/BlogsList.jsx:77 | a card links to the blog directory followed by the slug |
| BlogsList.PostPathsDistinct | src/pages/BlogsList.jsx:77 | different slugs give different links |
| BlogsList.ShownTags | src/pages/BlogsList.jsx:108-110 | a non-empty tag array shows its first three tags at most, or all of them when it has fewer; no tags shows no row; tags stored as text fail to render |
| CalendarEvents.Search | src/pages/Calendar.jsx:94-99 | an empty term keeps every event; otherwise the result is exactly the events whose name, or present description, contains the term ignoring case, in order |
| Calendar.DaysRemaining | src/pages/Calendar.jsx:34-53 | each whole-day count gets exactly one badge: Expired if negative, Today for 0, Tomorrow for 1, otherwise "N days"; the colour is red for expired or 2-7 days, orange for today or 8-30, yellow for tomorrow and green above 30, and the background colour follows the same ranges |
| Calendar.DaysTextStats | src/pages/Calendar.jsx:305-317 | an "N days" text is never expired; it is urgent if and only if N is at most 7, and coming soon if and only if N is above 7 |
| Calendar.QuickStatRanges | src/pages/Calendar.jsx:298-320 | the Expired count takes negative day counts, Urgent takes 2-7 and Coming Soon takes more than 7; Today and Tomorrow fall in none |
| Calendar.QuickStatsBounded | src/pages/Calendar.jsx:298-320 | the three quick-stat counts add up to at most the number of events |
| Calendar.FirstDate | src/pages/Calendar.jsx:80-92 | the first date is element 0 of the array or of the parsed array; a parsed string gives its first character (none when empty); null, other types, parse failures and other parsed values give none |
| Calendar.ExamBadge | src/pages/Calendar.jsx:142-146 | a missing or empty first date shows N/A; any other first date shows its countdown badge |
| Calendar.FormatMultipleDates | src/pages/Calendar.jsx:65-77 | a column that denotes an array renders its formatted dates joined with `", "`; anything else renders N/A |
| Calendar.FirstDateListedFirst | src/pages/Calendar.jsx:65-92 | the countdown date is the first date the list rendering shows |
| ExamCalendarAdmin.StatusColor | src/pages/admin/ExamCalendarManagement.jsx:138-149 | an inactive event is grey whatever its date; an active event is red if and only if its deadline is a valid date before now; otherwise it is green |
| ExamCalendarAdmin.UpcomingIffGreen | src/pages/admin/ExamCalendarManagement.jsx:222-226 | every upcoming event is green, and a green event with a valid date is upcoming |
| ExamCalendarAdmin.UpcomingAtMostActive | src/pages/admin/ExamCalendarManagement.jsx:210-226 | the upcoming count is at most the active count, which is at most the total |
| ExamCalendarAdmin.ToggleStatus | src/pages/admin/ExamCalendarManagement.jsx:90-106 | the toggle writes the negation of `is_active`, a missing flag counting as false, to the event's id |
| ExamCalendarAdmin.ApplyStatus | src/pages/admin/ExamCalendarManagement.jsx:94 | the status write changes only the rows with that id |
| ExamCalendarAdmin.ToggleFlips | src/pages/admin/ExamCalendarManagement.jsx:90-106 | a toggle flips its event, leaves rows with other ids unchanged, and a second toggle restores the status |
| ExamCalendarAdmin.FormatDate | src/pages/admin/ExamCalendarManagement.jsx:108-115 | an empty date renders N/A; any other date goes through the locale formatter |
| ExamCalendarAdmin.FormatMultipleDates | src/pages/admin/ExamCalendarManagement.jsx:117-136 | a missing value, another type, an empty text, a failed parse and a non-array parse all render N/A |
| ExamCalendarAdmin.SameRenderingAsCalendar | src/pages/admin/ExamCalendarManagement.jsx:117-136 | except for an empty text, the admin rendering is the public calendar's rendering with `formatDate` as the formatter |
| ExamCalendarForm.WithDates | src/pages/admin/ExamCalendarFormModal.jsx:65-114 | replacing one date list keeps every other field |
| ExamCalendarForm.RemoveAt | src/pages/admin/ExamCalendarFormModal.jsx:74-76 | removing entry i drops exactly that entry and keeps the order of the rest |
| ExamCalendarForm.UpdateAt | src/pages/admin/ExamCalendarFormModal.jsx:83-85 | editing entry i replaces only that entry, and the length is kept |
| ExamCalendarForm.Added | src/pages/admin/ExamCalendarFormModal.jsx:65-70 | "add date" appends exactly one empty entry and keeps the existing ones; a non-empty form stays non-empty |
| ExamCalendarForm.Removed | src/pages/admin/ExamCalendarFormModal.jsx:72-79 | removal does nothing on a one-entry list, so the date lists are never emptied |
| ExamCalendarForm.Updated | src/pages/admin/ExamCalendarFormModal.jsx:81-88 | an edit keeps both lists non-empty |
| ExamCalendarForm.AddThenRemoveLast | src/pages/admin/ExamCalendarFormModal.jsx:65-79 | adding an entry and then removing it restores the form |
| ExamCalendarForm.LoadDates | src/pages/admin/ExamCalendarFormModal.jsx:22-43 | a stored array is used as it is; an absent or empty value gives `['']`; a text gives its parsed array, or a one-entry list of the raw text when the parse fails |
| ExamCalendarForm.StoredEmptyListLoadsEmpty | src/pages/admin/ExamCalendarFormModal.jsx:25-33 | a stored empty array is truthy and loads as an empty list, so the never-empty property holds only for lists that start non-empty |
| ExamCalendarForm.NonBlankDates | src/pages/admin/ExamCalendarFormModal.jsx:135-136 | the saved dates are exactly the non-blank entries, in order and with repeats kept, as one filter of the list |
| ExamCalendarForm.Validate | src/pages/admin/ExamCalendarFormModal.jsx:122-159 | the form is rejected, in order, for a blank name, an empty deadline, no non-blank Prelims date and no non-blank Mains date; a saved row has a trimmed name, non-empty lists of non-blank dates, and blank description and URL as null |
| ExamCalendarForm.SubmitWrite | src/pages/admin/ExamCalendarFormModal.jsx:161-175 | a valid form is saved as an update of the edited event or as an insert; an invalid one writes nothing |
| ExamCalendarForm.ReloadStoredRow | src/pages/admin/ExamCalendarFormModal.jsx:19-55 | reopening a saved row fills the form with that row's values |
| ExamCalendarForm.RevalidateRow | src/pages/admin/ExamCalendarFormModal.jsx:122-159 | the validator accepts the reloaded form of a row it produced and gives that row again |
| ExamCalendarForm.SaveReloadSave | src/pages/admin/ExamCalendarFormModal.jsx:19-159 | save, reopen and save again stores the same row, and the reopened form has non-empty date lists |
| ExamCalendarForm.EventFormModal.constructor | src/pages/admin/ExamCalendarFormModal.jsx:7-15 | a fresh form has one empty entry in each date list |
| ExamCalendarForm.EventFormModal.Load | src/pages/admin/ExamCalendarFormModal.jsx:19-55 | opening an event fills the form from it |
| ExamCalendarForm.EventFormModal.AddDate | src/pages/admin/ExamCalendarFormModal.jsx:65-70 | the state becomes the added form, and non-empty lists stay non-empty |
| ExamCalendarForm.EventFormModal.RemoveDate | src/pages/admin/ExamCalendarFormModal.jsx:72-79 | the state becomes the removed form, and non-empty lists stay non-empty |
| ExamCalendarForm.EventFormModal.UpdateDate | src/pages/admin/ExamCalendarFormModal.jsx:81-88 | the state becomes the updated form, and non-empty lists stay non-empty |
| RequestReview.Actions | src/pages/admin/RequestReview.jsx:176-205 | `review` offers Approve and Reply & Complete, `approved` offers Send Response, and every other status offers nothing |
| RequestReview.Transitions | src/pages/admin/RequestReview.jsx:176-205 | the status moves are exactly review to approved, review to completed and approved to completed |
| RequestReview.TransitionsMoveForward | src/pages/admin/RequestReview.jsx:176-205 | every move goes forward in review < approved < completed, and completed is terminal |
| RequestReview.FilterByStatus | src/pages/admin/RequestReview.jsx:25-27 | `all` lists every request; any other value lists exactly the requests with that status, in order, as one filter of the list |
| RequestReview.StatusStyleOf | src/pages/admin/RequestReview.jsx:76-100 | each known status has its colour and icon; unknown statuses get grey and the clock |
| RequestReview.StatusLabel | src/pages/admin/RequestReview.jsx:143 | the label upper-cases only the first character of the status |
| RequestReview.StatusLabels | src/pages/admin/RequestReview.jsx:143 | `review` shows as `Review` and `pending` as `Pending` |
| RequestReview.RequestTypeLabel | src/pages/admin/RequestReview.jsx:151 | the type label keeps the length; a type without `_` is only upper-cased; otherwise the first `_` becomes a space, later ones stay, and the whole is upper-cased |
| RequestReview.LabelOfCode | src/pages/admin/RequestReview.jsx:151 | a type `a_b` whose first part has no `_` is shown as `a b` upper-cased, whatever `b` holds |
| RequestReview.PdfRequestLabel | src/pages/admin/RequestReview.jsx:151 | `pdf_request` is shown as `PDF REQUEST` |
| RequestReview.UpdateData | src/pages/admin/RequestReview.jsx:41-46 | the update carries the status, and carries the response if and only if a non-empty one was given |
| RequestReview.Applied | src/pages/admin/RequestReview.jsx:41-46 | an update replaces the status; it replaces the stored response only when it carries one; every other field is kept |
| RequestReview.ApproveKeepsResponse | src/pages/admin/RequestReview.jsx:180 | approving changes only the status and keeps an existing response |
| RequestReview.ReviewPage.constructor | src/pages/admin/RequestReview.jsx:7-11 | the page starts with the stored requests, no request selected and an empty reply, which keeps `Valid` (an open reply form holds the stored row of its id, whose buttons lead to `completed`) |
| RequestReview.ReviewPage.UpdateStatus | src/pages/admin/RequestReview.jsx:41-63 | a successful update applies to the row with that id and closes the reply form; a failed one changes nothing; `Valid` is kept |
| RequestReview.ReviewPage.Approve | src/pages/admin/RequestReview.jsx:177-180 | offered only where a move to `approved` exists; on success the request's status becomes `approved`, nothing else changes in the row, and the change is one of the `Transitions` |
| RequestReview.ReviewPage.Select | src/pages/admin/RequestReview.jsx:186-198 | the reply buttons, offered only where a move to `completed` exists, open the form for that listed request |
| RequestReview.ReviewPage.TypeResponse | src/pages/admin/RequestReview.jsx:228-229 | typing sets the reply text |
| RequestReview.ReviewPage.Cancel | src/pages/admin/RequestReview.jsx:245-248 | cancel closes the form and clears the reply |
| RequestReview.ReviewPage.HandleResponse | src/pages/admin/RequestReview.jsx:65-74 | a blank reply issues nothing and changes nothing; otherwise the request is completed with the reply stored untrimmed, a change that is one of the `Transitions` |
| RequestForm.InitialForm | src/pages/Request.jsx:7-14 | the form starts, and after a successful submit starts again, with the user's name and email, empty subject and message, `pdf_request` and `SBI PO` |
| RequestForm.WithField | src/pages/Request.jsx:30-36 | a change sets the named field and keeps the others |
| RequestForm.NewRecord | src/pages/Request.jsx:41-59 | a record is sent if and only if name, email, subject and message are non-empty; it carries the user id or null, every form field including the exam type, and status `pending` |
| RequestForm.NewRequestsAreStuck | src/pages/Request.jsx:58 | `pending` offers no review action, so a new request can never move |
| RequestForm.BlankFieldsAccepted | src/pages/Request.jsx:41-44 | fields of white space alone pass the check, since nothing is trimmed |
| RequestForm.ExamTypeSentWhenHidden | src/pages/Request.jsx:57 | the exam type is sent even when the form hides its selector |
| RequestForm.RequestPage.constructor | src/pages/Request.jsx:7-14 | the page opens with the user's initial form |
| RequestForm.RequestPage.Change | src/pages/Request.jsx:30-36 | an input change updates its field |
| RequestForm.RequestPage.Submit | src/pages/Request.jsx:40-73 | sends the record the form gives; after a successful insert the form is reset from the user; otherwise it is kept |
| UserAdmin.SearchUsers | src/pages/admin/UserManagement.jsx:60-65 | the result is exactly the users with a present name, email or exam containing the term ignoring case, or a mobile number containing it as typed, in order |
| UserAdmin.EmptySearch | src/pages/admin/UserManagement.jsx:60-65 | an empty search keeps a user if and only if one of the four fields is present |
| UserAdmin.FilterStatus | src/pages/admin/UserManagement.jsx:40-44 | `blocked` keeps exactly the blocked users, `active` exactly the others, and any other value keeps all, in order |
| UserAdmin.ActivePlusBlockedIsTotal | src/pages/admin/UserManagement.jsx:265-297 | the Active and Blocked counts add up to the total |
| UserAdmin.Matches | src/pages/admin/UserManagement.jsx:77-81 | the lookup finds only rows whose email equals the key exactly |
| UserAdmin.SetBlocked | src/pages/admin/UserManagement.jsx:91-94 | the update sets the flag on exactly the rows with that email |
| UserAdmin.Toggle | src/pages/admin/UserManagement.jsx:77-99 | not found if and only if the lookup fails or does not find exactly one row; with one row found, the update fails exactly when the backend refuses it and otherwise writes the negation of that row's flag; a failure changes nothing |
| UserAdmin.MatchesAfterSet | src/pages/admin/UserManagement.jsx:91-94 | after the update the same rows match, with the new flag |
| UserAdmin.SetBlockedTwice | src/pages/admin/UserManagement.jsx:91-94 | the second of two updates wins |
| UserAdmin.SetBlockedUnchanged | src/pages/admin/UserManagement.jsx:91-94 | writing the flag a row already has changes nothing |
| UserAdmin.ToggleTwiceRestores | src/pages/admin/UserManagement.jsx:68-107 | toggling the same email twice gives the opposite outcome and restores the store exactly |
| UserAdmin.UserAdminPage.constructor | src/pages/admin/UserManagement.jsx:36-49 | the page starts with the stored users and an empty email box |
| UserAdmin.UserAdminPage.BlockUser | src/pages/admin/UserManagement.jsx:68-107 | a blank box is refused before any lookup; otherwise the toggle runs on the lower-cased, untrimmed text, and a success clears the box |
| UserAdmin.UserAdminPage.BlockUserWithEmail | src/pages/admin/UserManagement.jsx:110-146 | an empty email is refused; otherwise the toggle runs on the lower-cased email; the box is left alone |
| UserAdmin.CsvRow | src/pages/admin/UserManagement.jsx:172-182 | a row has the nine header fields: missing texts are empty; the status is Blocked or Active; verification is Yes or No; a missing last sign-in is Never |
| UserAdmin.Quote | src/pages/admin/UserManagement.jsx:186 | a field is wrapped in double quotes, and its contents are kept as they are |
| UserAdmin.CsvLines | src/pages/admin/UserManagement.jsx:185-187 | the export is the header line followed by one line per user, in order |
| UserAdmin.CsvLineFields | src/pages/admin/UserManagement.jsx:186 | when no field has a comma, splitting a line at its commas gives back the quoted fields, as many as the row has |
| UserAdmin.CsvLineDecodes | src/pages/admin/UserManagement.jsx:186 | when no field has a comma, unquoting the pieces of a line gives back the row |
| UserAdmin.CsvSplitsIntoLines | src/pages/admin/UserManagement.jsx:185-187 | when no field has a line break, splitting the export at line breaks gives back its lines |
| UserAdmin.QuotesNotEscaped | src/pages/admin/UserManagement.jsx:186 | embedded quotes are not doubled, so the one field `a","b` and the two fields `a` and `b` give the same line |
| FormFields.HandleChange | src/components/AuthModal.jsx:26-32 | a checkbox stores its checked state and any other input its text under its name; every other entry is kept |
| FormFields.ChangeOverwrites | src/components/AuthModal.jsx:26-32 | of two changes to the same input, only the later one counts |
| FormFields.ChangesCommute | src/components/AuthModal.jsx:26-32 | changes to different inputs can happen in either order |
| FormFields.TruthyAfterChange | src/components/AuthModal.jsx:26-32 | the changed input is truthy exactly when it is checked or its text is non-empty; other inputs keep their truthiness |
| Auth.InitialForm | src/components/AuthModal.jsx:15-23 | the modal opens with empty texts, the default exam and the terms unchecked |
| Auth.Candidate | src/components/AuthModal.jsx:41-44 | each candidate id is nine decimal digits |
| Auth.FirstFreeSpec | src/components/AuthModal.jsx:35-60 | the chosen id is the candidate of the first of at most ten attempts whose lookup reports `PGRST116`; there is none exactly when no attempt reports it |
| Auth.GenerateUserId | src/components/AuthModal.jsx:35-60 | the loop issues one to ten lookups and returns the first free candidate; after ten failures it throws |
| Auth.BlockStatus | src/components/AuthModal.jsx:84-88 | a status is read exactly when the backend answers and exactly one profile row has that email, and it is that row's flag |
| Auth.MatchingRowsIncreasing | src/components/AuthModal.jsx:84-88 | the rows found come in increasing order, so none is found twice |
| Auth.MatchingRowsSingle | src/components/AuthModal.jsx:84-88 | the lookup finds one row exactly when one profile row has that email |
| Auth.MatchingRows | src/components/AuthModal.jsx:84-88 | the lookup finds exactly the rows with that email |
| Auth.NewProfile | src/components/AuthModal.jsx:155-164 | the saved profile has the form's values and is not blocked |
| Auth.LoginOutcomeOf | src/components/AuthModal.jsx:63-110 | the checks come in order: empty credentials before any call, then an authentication error, then a failed status lookup, then a blocked profile; otherwise the user signs in |
| Auth.SignupCheck | src/components/AuthModal.jsx:118-131 | the checks come in order: the five fields filled, then equal passwords, then the terms accepted |
| Auth.AuthModal.constructor | src/components/AuthModal.jsx:15-23 | the modal opens signed out, with the initial form |
| Auth.AuthModal.Change | src/components/AuthModal.jsx:26-32 | an input change updates the form only; the user, the profiles and the three modal flags are kept |
| Auth.AuthModal.Login | src/components/AuthModal.jsx:63-110 | a sign-in sets the user and closes the modal; a blocked profile opens the block notice without setting the user; any failure changes nothing |
| Auth.AuthModal.Signup | src/components/AuthModal.jsx:113-183 | failed checks, a signup error and a failed id search change nothing; once an id is found the modal closes, and the profile is appended only if the insert succeeded |
| Auth.AuthModal.Forgot | src/components/AuthModal.jsx:186-212 | an empty email is refused before any call; a sent mail closes the reset form and the modal |
| Auth.SignedUpUserCanLogIn | src/components/AuthModal.jsx:155-164 | a profile saved by signup, if it is the only row with its email, lets that email sign in |
| Auth.OnlyLastMatches | src/components/AuthModal.jsx:84-88 | when only the appended row has the email, the lookup finds exactly that row |
| MagazineAdmin.CoverImagePath | src/pages/admin/MagazineManagement.jsx:25-27 | the cover path is the magazine directory, the lower-cased month, the year, the lower-cased language and `.png` |
| MagazineAdmin.CoverIgnoresCase | src/pages/admin/MagazineManagement.jsx:25-27 | the cover path does not depend on the case of month or language |
| MagazineAdmin.CoverPathsDistinct | src/pages/admin/MagazineManagement.jsx:25-27 | for digit-free months and languages and all-digit years, equal paths mean the same month, year and language up to case |
| MagazineAdmin.Search | src/pages/admin/MagazineManagement.jsx:53-65 | an empty term keeps every magazine; otherwise the result is exactly the magazines whose title, month or language contains the term ignoring case, or whose year contains it as typed, in order |
| MagazineAdmin.ToggleStatus | src/pages/admin/MagazineManagement.jsx:91-107 | the toggle writes the negation of `is_active` to the magazine's id |
| MagazineAdmin.ApplyStatus | src/pages/admin/MagazineManagement.jsx:95 | the status write changes only the rows with that id |
| MagazineAdmin.ToggleFlips | src/pages/admin/MagazineManagement.jsx:91-107 | a toggle flips its magazine, keeps rows with other ids, and a second toggle restores the status |
| MagazineAdmin.ActiveCount | src/pages/admin/MagazineManagement.jsx:213 | the active count never exceeds the number of magazines |
| MagazineAdmin.RecordDownload | src/pages/admin/MagazineManagement.jsx:124-130 | a download adds one to the rows with that id, a missing count being 0, and leaves every other row unchanged |
| MagazineAdmin.DownloadRaisesTotal | src/pages/admin/MagazineManagement.jsx:124-130 | a download raises the total by the number of rows with that id and keeps the active count |
| MagazineAdmin.MagazineList.constructor | src/pages/admin/MagazineManagement.jsx:30-50 | the list holds the loaded magazines |
| MagazineAdmin.MagazineList.HandleDownload | src/pages/admin/MagazineManagement.jsx:110-140 | the Drive link always opens; the local counter rises only when tracking succeeded |
| MagazineForm.DefaultForm | src/pages/admin/MagazineFormModal.jsx:7-17 | a new magazine defaults to the current year, English and active, with every other field empty |
| MagazineForm.FormFromMagazine | src/pages/admin/MagazineFormModal.jsx:31-45 | editing copies the present values and fills missing texts with empty ones, a missing language with English, and a missing `is_active` with true |
| MagazineForm.YearOptions | src/pages/admin/MagazineFormModal.jsx:28-29 | the year choices are ten consecutive years from five before the current year |
| MagazineForm.Changed | src/pages/admin/MagazineFormModal.jsx:55-61 | an input change sets its own field only |
| MagazineForm.PreviewImage | src/pages/admin/MagazineFormModal.jsx:47-53 | the preview follows the cover path once month, year and language are all chosen; otherwise it keeps its previous value |
| MagazineForm.Validate | src/pages/admin/MagazineFormModal.jsx:63-102 | rejections come in order: blank title, month, year, language, blank Drive link; a saved row has trimmed texts, null for a blank preview link or file size, and the generated cover path |
| MagazineForm.SavedCoverIsPreview | src/pages/admin/MagazineFormModal.jsx:47-101 | the saved cover is the preview the form showed |
| MagazineForm.SaveEditSave | src/pages/admin/MagazineFormModal.jsx:31-102 | save, reopen and save again stores the same row |
| MagazineForm.SubmitWrite | src/pages/admin/MagazineFormModal.jsx:87-134 | a valid form is saved as an update of the edited magazine or as an insert; an invalid one writes nothing |
| MagazineForm.MagazineFormModal.constructor | src/pages/admin/MagazineFormModal.jsx:7-53 | the modal opens with the defaults or the edited values, and the preview already matches them |
| MagazineForm.MagazineFormModal.Change | src/pages/admin/MagazineFormModal.jsx:47-61 | a change updates the form and recomputes the preview; the preview changes only when month, year or language changed |
| MagazinePage.DistinctInFirstOccurrenceOrder | src/pages/Magazine.jsx:111 | `[...new Set(s)]` lists the values in the order of their first occurrences |
| MagazinePage.AvailableMonths | src/pages/Magazine.jsx:111 | the month choices are each distinct `"month year"` label of the magazines, once, in first-occurrence order |
| MagazinePage.Shown | src/pages/Magazine.jsx:95-103 | a chosen month shows exactly its magazines, in order; no choice shows the first two |
| MagazinePage.FindEdition | src/pages/Magazine.jsx:219-220 | the found edition has the language, month and year asked for; there is none only when no magazine has them |
| MagazinePage.GroupMagazines | src/pages/Magazine.jsx:216-225 | each pair is an English and a Hindi edition of one month and year, proposed from an even position; no month appears twice; every proposed month with both editions gets a pair |
| MagazinePage.MagazineView.constructor | src/pages/Magazine.jsx:6-13 | the page opens with no month chosen and no preview |
| MagazinePage.MagazineView.SelectMonth | src/pages/Magazine.jsx:95-103 | choosing a month shows that month's magazines |
| MagazinePage.MagazineView.HandlePreview | src/pages/Magazine.jsx:124-131 | a guest is refused and nothing changes; a user gets the preview |
| MagazinePage.MagazineView.HandleDownload | src/pages/Magazine.jsx:133-146 | a guest is refused; a user gets the Drive link |
| PdfAdmin.Search | src/pages/admin/PDFManagement.jsx:53-65 | an empty term keeps every PDF; otherwise the result is exactly the PDFs whose title, present description or topic contains the term ignoring case, in order |
| PdfAdmin.ToggleStatus | src/pages/admin/PDFManagement.jsx:91-107 | the toggle writes the negation of `is_active` to the PDF's id |
| PdfAdmin.ApplyStatus | src/pages/admin/PDFManagement.jsx:95 | the status write changes only the rows with that id |
| PdfAdmin.ToggleFlips | src/pages/admin/PDFManagement.jsx:91-107 | a toggle flips its PDF, keeps rows with other ids, and a second toggle restores the status |
| PdfAdmin.ActiveCount | src/pages/admin/PDFManagement.jsx:180 | the active count never exceeds the number of PDFs |
| PdfAdmin.TotalDownloadsNonNegative | src/pages/admin/PDFManagement.jsx:192 | with no negative counter, the total downloads are never negative |
| PdfAdmin.TopicBadge | src/pages/admin/PDFManagement.jsx:278 | the badge replaces only the first `_` with a space |
| PdfAdmin.BadgeOfCode | src/pages/admin/PDFManagement.jsx:278 | a code `a_b` whose first part has no `_` shows as `a b` |
| PdfAdmin.SecondUnderscoreKept | src/pages/admin/PDFManagement.jsx:278 | a second `_` survives: `a_b_c` shows as `a b_c` |
| PdfAdmin.GeneralAwarenessBadge | src/pages/admin/PDFManagement.jsx:25-28 | the one topic code with `_` shows as `general awareness` |
| PdfForm.DefaultForm | src/pages/admin/PDFFormModal.jsx:7-15 | a new PDF defaults to topic `quants` and active, with every other field empty |
| PdfForm.FormFromPdf | src/pages/admin/PDFFormModal.jsx:19-32 | editing copies the present values and fills missing texts with empty ones, a missing topic with `quants`, and a missing `is_active` with true |
| PdfForm.Changed | src/pages/admin/PDFFormModal.jsx:38-44 | an input change sets its own field only |
| PdfForm.OptionLabel | src/pages/admin/PDFFormModal.jsx:181-185 | an option label is the badge text with its first character upper-cased |
| PdfForm.OptionLabelOfCode | src/pages/admin/PDFFormModal.jsx:183 | a code `a_b` is offered as `a b` with the first letter upper-cased |
| PdfForm.GeneralAwarenessLabel | src/pages/admin/PDFFormModal.jsx:183 | `general_awareness` is offered as `General awareness` |
| PdfForm.TopicImagePath | src/pages/admin/PDFFormModal.jsx:192 | the topic picture is the topic code under the topic directory, as a `.png` |
| PdfForm.TopicImagesDistinct | src/pages/admin/PDFFormModal.jsx:192 | different topics show different pictures |
| PdfForm.Validate | src/pages/admin/PDFFormModal.jsx:46-76 | rejections come in order: blank title, empty topic, blank Drive link; a saved row has trimmed texts, a blank description as empty text, and null for a blank preview link or file size |
| PdfForm.SaveEditSave | src/pages/admin/PDFFormModal.jsx:19-76 | a valid form's row, loaded back into the editor as a record of that row's fields, validates to the same row |
| PdfForm.SubmitWrite | src/pages/admin/PDFFormModal.jsx:62-108 | a valid form is saved as an update of the edited PDF or as an insert; an invalid one writes nothing |
| PdfsPage.TopicCode | src/pages/PDFs.jsx:65-77 | a label has a code exactly when the mapping lists it |
| PdfsPage.ButtonsMatchEditorTopics | src/pages/PDFs.jsx:16-28 | `All` has no code, and every other button maps, in order, to the topic codes the editor offers |
| PdfsPage.LoadedPdfs | src/pages/PDFs.jsx:38-58 | the loaded list is exactly the active rows of the answer, in order; it is empty after an error |
| PdfsPage.FilterPdfs | src/pages/PDFs.jsx:60-88 | the shown PDFs are exactly the loaded PDFs that pass both the topic filter and the title-only search; `All` with no term shows all; a label without a code shows none |
| PdfsPage.FilterPdfsIsOneFilter | src/pages/PDFs.jsx:60-88 | the two filters in a row are one filter by both conditions, so the loaded order is kept |
| PdfsPage.RecordDownload | src/pages/PDFs.jsx:124-130 | a download adds one to the rows with that id, a missing count being 0, and leaves every other row unchanged |
| PdfsPage.DownloadRaisesTotal | src/pages/PDFs.jsx:124-130 | a download raises the total by the number of rows with that id |
| PdfsPage.DownloadKeepsSelection | src/pages/PDFs.jsx:124-130 | a download does not change which PDFs are shown |
| PdfsPage.PdfsView.constructor | src/pages/PDFs.jsx:6-58 | the page opens with the loaded PDFs, topic `All` and an empty search, so all loaded PDFs are shown |
| PdfsPage.PdfsView.SelectTopic | src/pages/PDFs.jsx:10 | choosing a topic changes only the topic |
| PdfsPage.PdfsView.SetSearchTerm | src/pages/PDFs.jsx:9 | typing a term changes only the term |
| PdfsPage.PdfsView.HandlePreview | src/pages/PDFs.jsx:95-102 | a guest is refused and nothing changes; a user gets the preview |
| PdfsPage.PdfsView.HandleDownload | src/pages/PDFs.jsx:104-141 | a guest is refused before any tracking; for a user the Drive link opens, and the local counter rises only when tracking succeeded |
| Sidebar.Toggled | src/components/Sidebar.jsx:12-18 | toggling an expanded section removes it and keeps the order of the others; toggling a collapsed one appends it |
| Sidebar.ToggleTwice | src/components/Sidebar.jsx:12-18 | two toggles always restore the same set of sections; from a collapsed section the list comes back exactly, from an expanded one that section moves to the end |
| Sidebar.ToggleKeepsDistinct | src/components/Sidebar.jsx:12-18 | a toggle never lists a section twice |
| Sidebar.InitialDistinct | src/components/Sidebar.jsx:10 | the initial sections are distinct |
| Sidebar.ShownPaths | src/components/Sidebar.jsx:20-55 | the links on screen are exactly the single links and the links of the expanded sections, in sidebar order |
| Sidebar.NavigationPathsDistinct | src/components/Sidebar.jsx:20-55 | no two sidebar links share a path |
| Sidebar.AtMostOneActive | src/components/Sidebar.jsx:57-59 | whichever sections are expanded, at most one link on screen is highlighted |
| Sidebar.CollapsedSectionHidden | src/components/Sidebar.jsx:20-55 | the links of a collapsed section are not on screen |
| Sidebar.SidebarState.constructor | src/components/Sidebar.jsx:10 | the study, exam and support sections start expanded |
| Sidebar.SidebarState.ToggleSection | src/components/Sidebar.jsx:12-18 | the expanded list becomes the toggled form of the previous list |

## Left out

- Backend calls are inputs:
  - every query answer, insert, update, remote procedure call and
    authentication call becomes a value or a success flag;
  - the `order('created_at')` sorting of query answers is taken as given;
  - the `magazine_downloads` and `download_analytics` tracking inserts and
    the counter procedures are represented only by whether they threw.
- The pages read different stores; the model keeps them separate and does
  not relate them:
  - blocking writes `users`, while sign-in reads `admin_users`;
  - the PDF admin list reads `pdfs`, while the PDF editor and the public
    library use `pdf_resources`;
  - `PdfForm.SaveEditSave` states the editor's round trip on a record of the
    saved row's fields, not on a record read back from either table.
- The clock is an input:
  - `new Date()` readings;
  - the millisecond difference and its `Math.ceil` to whole days, since the
    countdown takes a whole-day count;
  - date parsing, given as a function returning an instant or nothing;
  - the "This Month" PDF count and the "This Year" magazine count, which
    depend only on the current date.
- `toLocaleDateString` is a formatter parameter. Case mapping is ASCII only.
- `JSON.parse` is a function parameter (`Parsed`).
- `Math.random` is a stream of digits passed in.
- Calendar.DeadlineText and Calendar.ExamBadge: the day count is always a
  whole number, so an unparsable stored date is not modelled. In the source such
  a date gives a NaN day count, which shows as "NaN days" in green and falls in
  no quick stat.
- MagazineForm.SubmitWrite and PdfForm.SubmitWrite: an insert also carries
  `created_by`, the signed-in user's id, read from the authentication
  service at save time. That field is not part of the modelled write.
- `parseInt` is modelled only on the badge texts the calendar produces, as a
  leading digit run.
- ExamCalendarForm.LoadDates: a stored text that parses to something other
  than an array, or a stored value of another type, is outside the model
  (`None`), because the form would then hold a value that is not a list.
  `EventFormModal.Load` requires a loadable event for the same reason.
- Auth.GenerateUserId: any lookup answer other than the `PGRST116` error,
  including an existing row, counts as "taken". The source does the same but
  also logs the other errors.
- The block-status read (`.single()`) distinguishes no error kinds: the
  backend's own errors and a row count other than one give the same failure.
- The magazine page's built-in sample list is not modelled. The page is
  modelled over whatever list it is given.
- The topic image's `onError` fallback to `other.png` is a browser event and
  is not modelled.
- Sidebar: `handleLinkClick` closes the sidebar on narrow windows, and the
  `isOpen`/`onClose` props control its visibility. Both depend on the browser
  window and are not modelled.
- View-only state is not modelled: loading spinners, the debug panel, the
  login/signup switch of the sign-in modal, and the modal visibility flags of
  the admin pages.
- Browser effects are not modelled: `window.open`, `window.confirm`, the
  Blob/anchor CSV download, toasts and console logging. Methods return the
  link that would be opened instead.
- Deletion handlers are not modelled: magazines, PDFs, blogs and events. Each
  is one confirmed backend delete followed by a reload.
- Rich-text editing of blog content is not modelled: a third-party editor.
- Asynchronous ordering and React re-render timing are not modelled. Each
  handler runs to completion in sequence.
- ExamCalendarAdmin.FormatMultipleDates: its own contract states only the N/A
  cases. The array case is stated by `SameRenderingAsCalendar`, which equates
  it with the public calendar's rendering.
- MagazineAdmin.ActiveCount and PdfAdmin.ActiveCount state only the bound by
  the list length. Their meaning, the number of active rows, is how the
  download lemmas use them.
- UserAdmin.Matches states only that the found rows have the key. That the
  lookup finds every such row is used through `Toggle`'s outcome.

=== FILE: admin_blog_management.dfy ===
/** The blog editor of the admin console: slug generation, the conversion of the
    tag list between the stored array and the comma-separated text box, and the
    editor's form state (new blog, edit, title change, save). */
module BlogAdmin {
  import opened Text
  import Seqs

  // ---------------------------------------------------------------------------
  // Slugs
  // ---------------------------------------------------------------------------

  /** The characters a generated slug is made of. */
  predicate SlugChar(c: char) {
    ('a' <= c <= 'z') || ('0' <= c <= '9') || c == '-'
  }

  /** The characters the class `[a-z0-9 -]` keeps. */
  predicate KeptChar(c: char) {
    SlugChar(c) || c == ' '
  }

  predicate IsDash(c: char) {
    c == '-'
  }

  /** No two adjacent characters of `s` are both `-`. */
  predicate NoDoubleDash(s: string) {
    forall i :: 1 <= i < |s| ==> !(s[i - 1] == '-' && s[i] == '-')
  }

  /** `s` has the shape of a generated slug. */
  predicate IsSlug(s: string) {
    (forall i :: 0 <= i < |s| ==> SlugChar(s[i])) && NoDoubleDash(s)
  }

  /** `s.replace(/[^a-z0-9 -]/g, '')`. */
  function KeepSlugChars(s: string): (r: string)
    ensures forall i :: 0 <= i < |r| ==> KeptChar(r[i])
  {
    Seqs.Filter(s, KeptChar)
  }

  /** The suffix of `s` after its leading run of `inRun` characters. */
  function DropRun(s: string, inRun: char -> bool): (r: string)
    ensures |r| <= |s| && r == s[|s| - |r|..]
    ensures r == [] || !inRun(r[0])
    ensures s != [] && inRun(s[0]) ==> |r| < |s|
  {
    if s != [] && inRun(s[0]) then DropRun(s[1..], inRun) else s
  }

  predicate NotDash(c: char) {
    c != '-'
  }

  /** The characters a run replacement keeps that are not `-` themselves. */
  function OutsideRun(inRun: char -> bool): char -> bool {
    (c: char) => !inRun(c) && c != '-'
  }

  /** `s.replace(/X+/g, '-')` where the class `X` is `inRun`: every maximal run of
      `inRun` characters becomes a single `-`; every other character is kept, in
      order. `RunBecomesOneDash`, `OtherCharKept` and `ReplaceRunsAppend` pin the
      replacement down completely; `ReplaceRunsKeepsOthers` states what it keeps. */
  function ReplaceRuns(s: string, inRun: char -> bool): (r: string)
    ensures r == [] <==> s == []
    ensures s != [] && !inRun(s[0]) ==> r[0] == s[0]
    ensures s != [] && inRun(s[0]) ==> r[0] == '-'
    ensures forall i :: 0 <= i < |r| ==> r[i] == '-' || (r[i] in s && !inRun(r[i]))
    decreases |s|
  {
    if s == [] then []
    else if inRun(s[0]) then "-" + ReplaceRuns(DropRun(s, inRun), inRun)
    else [s[0]] + ReplaceRuns(s[1..], inRun)
  }

  /** Apart from `-`, the replacement keeps exactly the characters outside the run
      class, in their order. */
  lemma {:induction false} ReplaceRunsKeepsOthers(s: string, inRun: char -> bool)
    ensures Seqs.Filter(ReplaceRuns(s, inRun), NotDash) == Seqs.Filter(s, OutsideRun(inRun))
    decreases |s|
  {
    if s != [] {
      if inRun(s[0]) {
        var t := ReplaceRuns(DropRun(s, inRun), inRun);
        RunHead(s, inRun);
        ReplaceRunsKeepsOthers(DropRun(s, inRun), inRun);
        DropRunFilter(s, inRun);
        assert ("-" + t)[0] == '-' && ("-" + t)[1..] == t;
      } else {
        var t := ReplaceRuns(s[1..], inRun);
        OtherHead(s, inRun);
        ReplaceRunsKeepsOthers(s[1..], inRun);
        assert ([s[0]] + t)[0] == s[0] && ([s[0]] + t)[1..] == t;
      }
    }
  }

  /** Dropping a leading run loses no character the replacement keeps. */
  lemma {:induction false} DropRunFilter(s: string, inRun: char -> bool)
    ensures Seqs.Filter(DropRun(s, inRun), OutsideRun(inRun)) == Seqs.Filter(s, OutsideRun(inRun))
    decreases |s|
  {
    if s != [] && inRun(s[0]) {
      DropRunFilter(s[1..], inRun);
    }
  }

  /** Every character of `s` is in the run class. */
  predicate AllInRun(s: string, inRun: char -> bool) {
    forall i :: 0 <= i < |s| ==> inRun(s[i])
  }

  lemma {:induction false} DropRunAll(s: string, inRun: char -> bool)
    requires AllInRun(s, inRun)
    ensures DropRun(s, inRun) == []
    decreases |s|
  {
    if s != [] {
      DropRunAll(s[1..], inRun);
    }
  }

  /** Only a string that is all run has nothing left after its leading run. */
  lemma {:induction false} DropRunEmptyAll(s: string, inRun: char -> bool)
    requires DropRun(s, inRun) == []
    ensures AllInRun(s, inRun)
    decreases |s|
  {
    if s != [] {
      DropRunEmptyAll(s[1..], inRun);
      assert forall i :: 1 <= i < |s| ==> s[i] == s[1..][i - 1];
    }
  }

  /** A maximal run, however long, becomes exactly one `-`. */
  lemma RunBecomesOneDash(s: string, inRun: char -> bool)
    requires s != [] && AllInRun(s, inRun)
    ensures ReplaceRuns(s, inRun) == "-"
  {
    DropRunAll(s, inRun);
  }

  /** A character outside the run class is kept as it is. */
  lemma OtherCharKept(c: char, inRun: char -> bool)
    requires !inRun(c)
    ensures ReplaceRuns([c], inRun) == [c]
  {
    assert [c][1..] == [];
  }

  /** The head and tail of a concatenation whose first part is not empty. */
  lemma AppendHeadTail(x: string, y: string)
    requires x != []
    ensures (x + y)[0] == x[0] && (x + y)[1..] == x[1..] + y
  {
  }

  /** Dropping the leading run of `x + y` when that run ends inside `x`. */
  lemma {:induction false} DropRunAppend(x: string, y: string, inRun: char -> bool)
    requires DropRun(x, inRun) != []
    ensures DropRun(x + y, inRun) == DropRun(x, inRun) + y
    decreases |x|
  {
    assert x != [];
    if inRun(x[0]) {
      DropRunAppend(x[1..], y, inRun);
      AppendHeadTail(x, y);
    } else {
      AppendHeadTail(x, y);
    }
  }

  /** Dropping the leading run of `x + y` when `x` is all run. */
  lemma {:induction false} DropRunAppendAll(x: string, y: string, inRun: char -> bool)
    requires DropRun(x, inRun) == []
    ensures DropRun(x + y, inRun) == DropRun(y, inRun)
    decreases |x|
  {
    if x == [] {
      assert x + y == y;
    } else {
      assert inRun(x[0]);
      DropRunAppendAll(x[1..], y, inRun);
      AppendHeadTail(x, y);
    }
  }

  /** One step of the replacement at a run. */
  lemma RunHead(s: string, inRun: char -> bool)
    requires s != [] && inRun(s[0])
    ensures ReplaceRuns(s, inRun) == "-" + ReplaceRuns(DropRun(s, inRun), inRun)
  {
  }

  /** One step of the replacement at a character outside the run class. */
  lemma OtherHead(s: string, inRun: char -> bool)
    requires s != [] && !inRun(s[0])
    ensures ReplaceRuns(s, inRun) == [s[0]] + ReplaceRuns(s[1..], inRun)
  {
  }

  /** The replacement works piece by piece wherever the cut does not split a run. */
  lemma {:induction false} ReplaceRunsAppend(x: string, y: string, inRun: char -> bool)
    requires x == [] || y == [] || !inRun(x[|x| - 1]) || !inRun(y[0])
    ensures ReplaceRuns(x + y, inRun) == ReplaceRuns(x, inRun) + ReplaceRuns(y, inRun)
    decreases |x|, 2
  {
    if x == [] {
      assert x + y == y;
    } else if y == [] {
      assert x + y == x;
    } else {
      AppendHeadTail(x, y);
      if inRun(x[0]) {
        RunAppend(x, y, inRun);
      } else {
        OtherHead(x, inRun);
        OtherHead(x + y, inRun);
        ReplaceRunsAppend(x[1..], y, inRun);
        AppendAssoc([x[0]], ReplaceRuns(x[1..], inRun), ReplaceRuns(y, inRun));
      }
    }
  }

  /** The case of `ReplaceRunsAppend` where `x` starts with a run. */
  lemma {:induction false} RunAppend(x: string, y: string, inRun: char -> bool)
    requires x != [] && y != [] && inRun(x[0]) && (!inRun(x[|x| - 1]) || !inRun(y[0]))
    ensures ReplaceRuns(x + y, inRun) == ReplaceRuns(x, inRun) + ReplaceRuns(y, inRun)
    decreases |x|, 1
  {
    if DropRun(x, inRun) == [] {
      WholeRunAppend(x, y, inRun);
    } else {
      PartRunAppend(x, y, inRun);
    }
  }

  /** `x` is one whole run, and `y` starts outside the run class. */
  lemma {:induction false} WholeRunAppend(x: string, y: string, inRun: char -> bool)
    requires x != [] && y != [] && inRun(x[0]) && (!inRun(x[|x| - 1]) || !inRun(y[0]))
    requires DropRun(x, inRun) == []
    ensures ReplaceRuns(x + y, inRun) == ReplaceRuns(x, inRun) + ReplaceRuns(y, inRun)
  {
    assert !inRun(y[0]) by {
      DropRunEmptyAll(x, inRun);
    }
    assert ReplaceRuns(x, inRun) == "-" by {
      RunHead(x, inRun);
    }
    assert ReplaceRuns(x + y, inRun) == "-" + ReplaceRuns(y, inRun) by {
      AppendHeadTail(x, y);
      RunHead(x + y, inRun);
      DropRunAppendAll(x, y, inRun);
    }
  }

  /** `x` starts with a run and goes on after it. */
  lemma {:induction false} PartRunAppend(x: string, y: string, inRun: char -> bool)
    requires x != [] && y != [] && inRun(x[0]) && (!inRun(x[|x| - 1]) || !inRun(y[0]))
    requires DropRun(x, inRun) != []
    ensures ReplaceRuns(x + y, inRun) == ReplaceRuns(x, inRun) + ReplaceRuns(y, inRun)
    decreases |x|, 0
  {
    var d := DropRun(x, inRun);
    AppendHeadTail(x, y);
    RunHead(x, inRun);
    RunHead(x + y, inRun);
    DropRunAppend(x, y, inRun);
    assert d[|d| - 1] == x[|x| - 1];
    ReplaceRunsAppend(d, y, inRun);
    AppendAssoc("-", ReplaceRuns(d, inRun), ReplaceRuns(y, inRun));
  }

  lemma AppendAssoc(a: string, b: string, c: string)
    ensures a + (b + c) == (a + b) + c
  {
  }

  /** `generateSlug(title)`: lower-case, drop everything outside `[a-z0-9 -]`, turn
      white-space runs into `-`, collapse `-` runs, and finally `.trim('-')`, which
      in JavaScript ignores its argument and trims white space only. */
  function GenerateSlug(title: string): string
  {
    Trim(ReplaceRuns(ReplaceRuns(KeepSlugChars(Lower(title)), IsSpace), IsDash))
  }

  /** After collapsing `-` runs no two `-` are adjacent. */
  lemma {:induction false} ReplaceDashRunsNoDouble(s: string)
    ensures NoDoubleDash(ReplaceRuns(s, IsDash))
    decreases |s|
  {
    if s != [] {
      if IsDash(s[0]) {
        var t := DropRun(s, IsDash);
        ReplaceDashRunsNoDouble(t);
        ConsNoDoubleDash('-', ReplaceRuns(t, IsDash));
      } else {
        ReplaceDashRunsNoDouble(s[1..]);
        ConsNoDoubleDash(s[0], ReplaceRuns(s[1..], IsDash));
      }
    }
  }

  /** Putting a character in front keeps `--` out unless both it and the old first
      character are `-`. */
  lemma ConsNoDoubleDash(c: char, t: string)
    requires NoDoubleDash(t)
    requires c == '-' && t != [] ==> t[0] != '-'
    ensures NoDoubleDash([c] + t)
  {
    var r := [c] + t;
    assert forall i :: 1 <= i < |r| ==> r[i] == t[i - 1];
  }

  /** Replacing runs of a class that does not occur changes nothing. */
  lemma {:induction false} ReplaceRunsAbsent(s: string, inRun: char -> bool)
    requires forall i :: 0 <= i < |s| ==> !inRun(s[i])
    ensures ReplaceRuns(s, inRun) == s
  {
    if s != [] {
      ReplaceRunsAbsent(s[1..], inRun);
      assert s == [s[0]] + s[1..];
    }
  }

  lemma NoDoubleDashTail(s: string)
    requires s != [] && NoDoubleDash(s)
    ensures NoDoubleDash(s[1..])
  {
    forall i | 1 <= i < |s| - 1
      ensures !(s[1..][i - 1] == '-' && s[1..][i] == '-')
    {
      assert s[1..][i - 1] == s[i] && s[1..][i] == s[i + 1];
    }
  }

  /** In a string without `--`, a leading `-` is a run of one. */
  lemma DropSingleDash(s: string)
    requires s != [] && IsDash(s[0]) && NoDoubleDash(s)
    ensures DropRun(s, IsDash) == s[1..]
  {
    assert |s| > 1 ==> s[1] != '-';
  }

  /** Collapsing `-` runs in a string without `--` changes nothing. */
  lemma {:induction false} ReplaceDashRunsIdentity(s: string)
    requires NoDoubleDash(s)
    ensures ReplaceRuns(s, IsDash) == s
  {
    if s != [] {
      NoDoubleDashTail(s);
      ReplaceDashRunsIdentity(s[1..]);
      if IsDash(s[0]) {
        DropSingleDash(s);
      }
      assert s == [s[0]] + s[1..];
    }
  }

  /** Every generated slug is made of `a`-`z`, `0`-`9` and `-` only and never holds
      two adjacent `-`. */
  lemma GenerateSlugShape(title: string)
    ensures IsSlug(GenerateSlug(title))
  {
    var a := ReplaceRuns(KeepSlugChars(Lower(title)), IsSpace);
    SpaceRunsGiveSlugChars(KeepSlugChars(Lower(title)));
    DashRunsKeepSlugChars(a);
    ReplaceDashRunsNoDouble(a);
    SlugCharsNoSpace(ReplaceRuns(a, IsDash));
    TrimNoSpace(ReplaceRuns(a, IsDash));
  }

  /** Turning the white-space runs of kept characters into `-` leaves slug characters. */
  lemma SpaceRunsGiveSlugChars(k: string)
    requires forall i :: 0 <= i < |k| ==> KeptChar(k[i])
    ensures forall i :: 0 <= i < |ReplaceRuns(k, IsSpace)| ==> SlugChar(ReplaceRuns(k, IsSpace)[i])
  {
    var a := ReplaceRuns(k, IsSpace);
    forall i | 0 <= i < |a| ensures SlugChar(a[i]) {
      if a[i] != '-' {
        var j :| 0 <= j < |k| && k[j] == a[i];
      }
    }
  }

  /** Collapsing `-` runs of slug characters leaves slug characters. */
  lemma DashRunsKeepSlugChars(a: string)
    requires forall i :: 0 <= i < |a| ==> SlugChar(a[i])
    ensures forall i :: 0 <= i < |ReplaceRuns(a, IsDash)| ==> SlugChar(ReplaceRuns(a, IsDash)[i])
  {
    var b := ReplaceRuns(a, IsDash);
    forall i | 0 <= i < |b| ensures SlugChar(b[i]) {
      if b[i] != '-' {
        var j :| 0 <= j < |a| && a[j] == b[i];
      }
    }
  }

  lemma SlugCharsNoSpace(s: string)
    requires forall i :: 0 <= i < |s| ==> SlugChar(s[i])
    ensures NoSpace(s)
  {
    forall i | 0 <= i < |s| ensures !IsSpace(s[i]) {
      assert SlugChar(s[i]);
    }
  }

  lemma SlugCharsLower(s: string)
    requires forall i :: 0 <= i < |s| ==> SlugChar(s[i])
    ensures Lower(s) == s
  {
    forall i | 0 <= i < |s| ensures Lower(s)[i] == s[i] {
      assert SlugChar(s[i]);
    }
  }

  /** A string that already has the shape of a slug is its own slug. */
  lemma SlugUnchanged(s: string)
    requires IsSlug(s)
    ensures GenerateSlug(s) == s
  {
    SlugCharsLower(s);
    Seqs.FilterAll(s, KeptChar);
    assert KeepSlugChars(Lower(s)) == s;
    SlugCharsNoSpace(s);
    ReplaceRunsAbsent(s, IsSpace);
    ReplaceDashRunsIdentity(s);
    TrimNoSpace(s);
  }

  /** A string is left unchanged by `GenerateSlug` exactly when it already has the
      shape of a slug; in particular `GenerateSlug` is idempotent. */
  lemma SlugFixedPoint(s: string)
    ensures GenerateSlug(s) == s <==> IsSlug(s)
  {
    if IsSlug(s) {
      SlugUnchanged(s);
    } else {
      GenerateSlugShape(s);
    }
  }

  lemma GenerateSlugIdempotent(title: string)
    ensures GenerateSlug(GenerateSlug(title)) == GenerateSlug(title)
  {
    GenerateSlugShape(title);
    SlugUnchanged(GenerateSlug(title));
  }

  /** The letters and digits a slug is built from. */
  predicate LetterOrDigit(c: char) {
    ('a' <= c <= 'z') || ('0' <= c <= '9')
  }

  /** A run replacement whose class holds no letter or digit keeps the letters and
      digits of its input, in order. */
  lemma RunsKeepLettersAndDigits(s: string, inRun: char -> bool)
    requires forall c :: LetterOrDigit(c) ==> !inRun(c)
    ensures Seqs.Filter(ReplaceRuns(s, inRun), LetterOrDigit) == Seqs.Filter(s, LetterOrDigit)
  {
    ReplaceRunsKeepsOthers(s, inRun);
    Seqs.FilterFilter(ReplaceRuns(s, inRun), NotDash, LetterOrDigit, LetterOrDigit);
    Seqs.FilterFilter(s, OutsideRun(inRun), LetterOrDigit, LetterOrDigit);
  }

  /** The slug keeps every letter and digit of the lower-cased title, in order: only
      white space, `-` and other characters are dropped or merged. */
  lemma SlugKeepsLettersAndDigits(title: string)
    ensures Seqs.Filter(GenerateSlug(title), LetterOrDigit) == Seqs.Filter(Lower(title), LetterOrDigit)
  {
    var k := KeepSlugChars(Lower(title));
    Seqs.FilterFilter(Lower(title), KeptChar, LetterOrDigit, LetterOrDigit);
    var a := ReplaceRuns(k, IsSpace);
    RunsKeepLettersAndDigits(k, IsSpace);
    var b := ReplaceRuns(a, IsDash);
    RunsKeepLettersAndDigits(a, IsDash);
    SpaceRunsGiveSlugChars(k);
    DashRunsKeepSlugChars(a);
    SlugCharsNoSpace(b);
    TrimNoSpace(b);
  }

  predicate AllLettersOrDigits(w: string) {
    forall i :: 0 <= i < |w| ==> LetterOrDigit(w[i])
  }

  /** Replacing the single space between two words by `-`. */
  lemma {:induction false} SpaceBetweenWords(a: string, b: string)
    requires a != [] && b != [] && AllLettersOrDigits(a) && AllLettersOrDigits(b)
    ensures ReplaceRuns(a + " " + b, IsSpace) == a + "-" + b
  {
    assert ReplaceRuns(" " + b, IsSpace) == "-" + b by {
      ReplaceRunsAbsent(b, IsSpace);
      RunBecomesOneDash(" ", IsSpace);
      ReplaceRunsAppend(" ", b, IsSpace);
    }
    assert ReplaceRuns(a + (" " + b), IsSpace) == a + ("-" + b) by {
      ReplaceRunsAbsent(a, IsSpace);
      ReplaceRunsAppend(a, " " + b, IsSpace);
    }
    AppendAssoc(a, " ", b);
    AppendAssoc(a, "-", b);
  }

  /** Two words joined by one `-` have slug shape. */
  lemma {:induction false} JoinedWordsAreSlug(a: string, b: string)
    requires AllLettersOrDigits(a) && AllLettersOrDigits(b)
    ensures IsSlug(a + "-" + b)
  {
    var s := a + "-" + b;
    forall i | 0 <= i < |s| ensures SlugChar(s[i]) && (s[i] == '-' ==> i == |a|) {
      if i < |a| {
        assert s[i] == a[i];
      } else if i > |a| {
        assert s[i] == b[i - |a| - 1];
      }
    }
  }

  /** Two words of letters and digits separated by one space, in whatever case,
      become the two lower-cased words joined by one `-`. */
  lemma {:induction false} TwoWordSlug(title: string, a: string, b: string)
    requires a != [] && b != [] && AllLettersOrDigits(a) && AllLettersOrDigits(b)
    requires Lower(title) == a + " " + b
    ensures GenerateSlug(title) == a + "-" + b
  {
    var t := a + " " + b;
    assert forall i :: 0 <= i < |t| ==> KeptChar(t[i]) by {
      forall i | 0 <= i < |t| ensures KeptChar(t[i]) {
        if i < |a| {
          assert t[i] == a[i];
        } else if i > |a| {
          assert t[i] == b[i - |a| - 1];
        }
      }
    }
    Seqs.FilterAll(t, KeptChar);
    SpaceBetweenWords(a, b);
    JoinedWordsAreSlug(a, b);
    ReplaceDashRunsIdentity(a + "-" + b);
    SlugCharsNoSpace(a + "-" + b);
    TrimNoSpace(a + "-" + b);
  }

  lemma HelloWorldWords(title: string, a: string, b: string)
    requires title == "Hello World" && a == "hello" && b == "world"
    ensures AllLettersOrDigits(a) && AllLettersOrDigits(b)
    ensures Lower(title) == a + " " + b
    ensures a + "-" + b == "hello-world"
  {
  }

  /** `Hello World` gives `hello-world`. */
  lemma HelloWorldSlug(title: string)
    requires title == "Hello World"
    ensures GenerateSlug(title) == "hello-world"
  {
    var a, b := "hello", "world";
    HelloWorldWords(title, a, b);
    TwoWordSlug(title, a, b);
  }

  /** Leading and trailing `-` survive: `trim('-')` trims white space only. */
  lemma DashesAtEndsSurvive()
    ensures GenerateSlug("-IBPS-") == "-ibps-"
  {
    assert Lower("-IBPS-") == "-ibps-";
    assert IsSlug("-ibps-");
    SlugCharsLower("-ibps-");
    SlugUnchanged("-ibps-");
  }

  // ---------------------------------------------------------------------------
  // Tags
  // ---------------------------------------------------------------------------

  /** The `tags` column as the editor may find it: an array, a text, or missing. */
  datatype StoredTags = TagList(items: seq<string>) | TagText(text: string) | NoTags

  /** `formData.tags ? formData.tags.split(',').map(tag => tag.trim()) : []`. */
  function SplitTags(tags: string): (r: seq<string>)
    ensures tags == "" ==> r == []
    ensures tags != "" ==> |r| == Occurrences(tags, ',') + 1
    ensures forall i :: 0 <= i < |r| ==> ',' !in r[i] && Trim(r[i]) == r[i]
  {
    if tags == "" then []
    else
      var pieces := Split(tags, ',');
      var r := Seqs.Map(pieces, Trim);
      assert forall i :: 0 <= i < |r| ==> ',' !in r[i] && Trim(r[i]) == r[i] by {
        forall i | 0 <= i < |r| ensures ',' !in r[i] && Trim(r[i]) == r[i] {
          TrimIdempotent(pieces[i]);
          TrimKeepsAbsent(pieces[i], ',');
        }
      }
      r
  }

  /** The text box contents `handleEdit` derives from the stored tags:
      `Array.isArray(tags) ? tags.join(', ') : tags || ''`. */
  function TagsText(tags: StoredTags): string
  {
    match tags
    case TagList(items) => Join(items, ", ")
    case TagText(text) => text
    case NoTags => ""
  }

  /** `xs` with a space put before every element. */
  function Spaced(xs: seq<string>): (r: seq<string>)
    ensures |r| == |xs| && forall i :: 0 <= i < |xs| ==> r[i] == " " + xs[i]
  {
    Seqs.Map(xs, (x: string) => " " + x)
  }

  lemma {:induction false} JoinCommaSpace(ys: seq<string>)
    requires ys != []
    ensures " " + Join(ys, ", ") == Join(Spaced(ys), ",")
  {
    if |ys| > 1 {
      JoinCommaSpace(ys[1..]);
      assert Spaced(ys)[1..] == Spaced(ys[1..]);
      assert " " + Join(ys, ", ") == (" " + ys[0]) + "," + (" " + Join(ys[1..], ", "));
    }
  }

  /** Whether a tag array survives edit-then-save: no tag contains a comma or
      surrounding white space, and the array is not the single empty tag. */
  predicate TagsRoundTrip(xs: seq<string>) {
    && xs != [""]
    && forall i :: 0 <= i < |xs| ==> ',' !in xs[i] && Trim(xs[i]) == xs[i]
  }

  /** `xs.join(', ')` is the comma join of the tags with a space put before all
      but the first. */
  lemma JoinTagsAsCommaJoin(xs: seq<string>)
    requires xs != []
    ensures Join(xs, ", ") == Join([xs[0]] + Spaced(xs[1..]), ",")
  {
    if |xs| > 1 {
      var j := Join(xs[1..], ", ");
      JoinCommaSpace(xs[1..]);
      JoinSpacedTail(xs[0], Spaced(xs[1..]));
      CommaSpace(xs[0], j);
    } else {
      assert [xs[0]] + Spaced(xs[1..]) == [xs[0]];
    }
  }

  lemma JoinSpacedTail(x: string, zs: seq<string>)
    requires zs != []
    ensures Join([x] + zs, ",") == x + "," + Join(zs, ",")
  {
    assert ([x] + zs)[1..] == zs;
  }

  lemma CommaSpace(x: string, j: string)
    ensures x + "," + (" " + j) == x + ", " + j
  {
  }

  lemma JoinTagsNonEmpty(xs: seq<string>)
    requires xs != [] && xs != [""]
    ensures Join(xs, ", ") != ""
  {
    if |xs| > 1 {
      assert Join(xs, ", ") == xs[0] + ", " + Join(xs[1..], ", ");
    } else {
      assert xs == [xs[0]];
    }
  }

  /** Trimming the pieces removes exactly the spaces `Spaced` put in. */
  lemma TrimSpacedPieces(xs: seq<string>)
    requires TagsRoundTrip(xs) && xs != []
    ensures Seqs.Map([xs[0]] + Spaced(xs[1..]), Trim) == xs
  {
    var ys := [xs[0]] + Spaced(xs[1..]);
    var r := Seqs.Map(ys, Trim);
    forall i | 0 <= i < |xs| ensures r[i] == xs[i] {
      if i > 0 {
        assert ys[i] == [' '] + xs[i];
        TrimAfterSpace(' ', xs[i]);
      }
    }
  }

  lemma SpacedNoComma(xs: seq<string>)
    requires xs != [] && forall i :: 0 <= i < |xs| ==> ',' !in xs[i]
    ensures forall i :: 0 <= i < |xs| ==> ',' !in ([xs[0]] + Spaced(xs[1..]))[i]
  {
    var ys := [xs[0]] + Spaced(xs[1..]);
    forall i | 0 <= i < |xs| ensures ',' !in ys[i] {
      if i > 0 {
        var y := ys[i];
        assert y == [' '] + xs[i];
        assert y[0] != ',' && y[1..] == xs[i];
      }
    }
  }

  /** Edit followed by save gives back the stored tag array when no tag contains a
      comma or surrounding white space and the array is not `[""]`. */
  lemma TagsEditSaveRoundTrip(xs: seq<string>)
    requires TagsRoundTrip(xs)
    ensures SplitTags(TagsText(TagList(xs))) == xs
  {
    if xs != [] {
      var ys := [xs[0]] + Spaced(xs[1..]);
      var text := Join(xs, ", ");
      JoinTagsAsCommaJoin(xs);
      SpacedNoComma(xs);
      SplitJoin(ys, ',');
      JoinTagsNonEmpty(xs);
      assert SplitTags(text) == Seqs.Map(Split(text, ','), Trim);
      TrimSpacedPieces(xs);
    }
  }

  /** The single empty tag does not survive: it is saved as no tags at all. */
  lemma EmptyTagIsLost()
    ensures SplitTags(TagsText(TagList([""]))) == []
  {
  }

  // ---------------------------------------------------------------------------
  // The editor's form state
  // ---------------------------------------------------------------------------

  /** A stored blog post (the columns the editor reads). */
  datatype Blog = Blog(
    id: int, title: string, slug: string, content: string, excerpt: string,
    coverImageUrl: string, tags: StoredTags, metaTitle: string, metaDescription: string,
    isPublished: bool, readTime: int)

  /** The editor's `formData`. */
  datatype BlogForm = BlogForm(
    title: string, slug: string, content: string, excerpt: string,
    coverImageUrl: string, tags: string, metaTitle: string, metaDescription: string,
    isPublished: bool, readTime: int)

  /** The row written by `handleSubmit`. */
  datatype BlogRow = BlogRow(
    title: string, slug: string, content: string, excerpt: string,
    coverImageUrl: string, tags: seq<string>, metaTitle: string, metaDescription: string,
    isPublished: bool, readTime: int, updatedAt: string)

  /** The write `handleSubmit` issues: an update of the edited blog or an insert. */
  datatype BlogWrite = Insert(row: BlogRow) | Update(id: int, row: BlogRow)

  /** The form after `resetForm`. */
  const EmptyForm := BlogForm("", "", "", "", "", "", "", "", false, 5)

  /** The row `handleSubmit` builds from the form; `now` is the clock reading. */
  function BlogData(f: BlogForm, now: string): (r: BlogRow)
    ensures r.slug == (if f.slug != "" then f.slug else GenerateSlug(f.title))
    ensures r.tags == SplitTags(f.tags) && r.updatedAt == now
    ensures r.title == f.title && r.content == f.content && r.excerpt == f.excerpt
    ensures r.coverImageUrl == f.coverImageUrl && r.metaTitle == f.metaTitle && r.metaDescription == f.metaDescription
    ensures r.isPublished == f.isPublished && r.readTime == f.readTime
  {
    BlogRow(f.title, if f.slug != "" then f.slug else GenerateSlug(f.title), f.content, f.excerpt,
            f.coverImageUrl, SplitTags(f.tags), f.metaTitle, f.metaDescription,
            f.isPublished, f.readTime, now)
  }

  /** A blank slug field is filled with a slug generated from the title, so a saved
      slug is either the one typed or has the shape of a generated slug. */
  lemma SavedSlugShape(f: BlogForm, now: string)
    ensures f.slug == "" ==> IsSlug(BlogData(f, now).slug)
    ensures f.slug != "" ==> BlogData(f, now).slug == f.slug
  {
    GenerateSlugShape(f.title);
  }

  /** The form `handleEdit` fills from a stored blog. */
  function FormFromBlog(b: Blog): (f: BlogForm)
    ensures f.tags == TagsText(b.tags) && f.title == b.title && f.slug == b.slug
  {
    BlogForm(b.title, b.slug, b.content, b.excerpt, b.coverImageUrl, TagsText(b.tags),
             b.metaTitle, b.metaDescription, b.isPublished, b.readTime)
  }

  /** The editor: its form, the blog being edited (if any) and whether the form is shown. */
  class BlogEditor {
    var form: BlogForm
    var editing: Option<Blog>
    var showForm: bool

    constructor ()
      ensures form == EmptyForm && editing == None && !showForm
    {
      form := EmptyForm;
      editing := None;
      showForm := false;
    }

    /** The "New Blog" button. */
    method NewBlog()
      modifies this
      ensures form == EmptyForm && editing == None && showForm
    {
      showForm := true;
      editing := None;
      form := EmptyForm;
    }

    /** Typing in the title box overwrites the slug with the slug of the new title. */
    method ChangeTitle(v: string)
      modifies this`form
      ensures form == old(form).(title := v, slug := GenerateSlug(v))
      ensures IsSlug(form.slug)
    {
      form := form.(title := v, slug := GenerateSlug(v));
      GenerateSlugShape(v);
    }

    /** Typing in the slug box stores the text as typed. */
    method ChangeSlug(v: string)
      modifies this`form
      ensures form == old(form).(slug := v)
    {
      form := form.(slug := v);
    }

    /** `handleEdit`: remember the blog and fill the form from it. */
    method Edit(b: Blog)
      modifies this
      ensures editing == Some(b) && form == FormFromBlog(b) && showForm
    {
      editing := Some(b);
      form := FormFromBlog(b);
      showForm := true;
    }

    /** `handleSubmit`: builds the write from the form; `saved` is whether the backend
        accepted it. On success the form is reset and closed; on failure nothing changes. */
    method Submit(now: string, saved: bool) returns (w: BlogWrite)
      modifies this
      ensures w.row == BlogData(old(form), now)
      ensures old(editing).Some? ==> w == Update(old(editing).value.id, w.row)
      ensures old(editing).None? ==> w.Insert?
      ensures saved ==> form == EmptyForm && editing == None && !showForm
      ensures !saved ==> form == old(form) && editing == old(editing) && showForm == old(showForm)
    {
      var row := BlogData(form, now);
      if editing.Some? {
        w := Update(editing.value.id, row);
      } else {
        w := Insert(row);
      }
      if saved {
        showForm := false;
        editing := None;
        form := EmptyForm;
      }
    }
  }
}

=== FILE: auth_modal.dfy ===
/** The sign-in modal: the input guard of each form, the bounded search for a free
    nine-digit user id, and the outcomes of login, signup and password reset on the
    modal flags, the signed-in user and the `admin_users` profile table. Backend
    answers (authentication, lookups, inserts) and `Math.random` are inputs. */
module Auth {
  import opened Text
  import opened FormFields

  /** The form the modal opens with. */
  function InitialForm(): (f: Form)
    ensures f.Keys == {"email", "password", "fullName", "mobileNumber", "examType", "confirmPassword", "agreeToTerms"}
    ensures f["examType"] == Text("PO (SBI, IBPS, RRB)") && f["agreeToTerms"] == Flag(false)
    ensures forall k :: k in f && k != "examType" ==> !Truthy(f, k)
  {
    map["email" := Text(""), "password" := Text(""), "fullName" := Text(""), "mobileNumber" := Text(""),
        "examType" := Text("PO (SBI, IBPS, RRB)"), "confirmPassword" := Text(""), "agreeToTerms" := Flag(false)]
  }

  /** The entry `formData[k]` reads; every key of the initial form stays present, since
      changes only add or overwrite entries. */
  function Field(f: Form, k: string): Value
  {
    if k in f then f[k] else Text("")
  }

  // ---------------------------------------------------------------- user ids

  /** One result of `Math.floor(Math.random() * 10)`. */
  type Digit = d: int | 0 <= d < 10

  /** Attempt `k`'s candidate: nine digits, the 9k-th to (9k+8)-th draws of the random
      stream, joined. */
  function Candidate(random: nat -> Digit, k: nat): (id: string)
    ensures |id| == 9 && forall j :: 0 <= j < 9 ==> IsDigit(id[j])
  {
    var id := seq(9, j requires 0 <= j < 9 => DigitChar(random(9 * k + j)));
    assert forall j :: 0 <= j < 9 ==> id[j] == DigitChar(random(9 * k + j));
    id
  }

  /** The answer of `select('user_id').eq('user_id', id).single()`: a single row, the
      `PGRST116` "no single row" error, or any other error. */
  datatype IdLookup = IdTaken | NoSingleRow | OtherError

  /** The id `generateUserId` settles on, searching from attempt `k`: the first candidate
      among attempts `k` to 9 whose lookup reports `PGRST116`; `None` when it throws. */
  function FirstFree(random: nat -> Digit, lookup: string -> IdLookup, k: nat): Option<string>
    decreases 10 - k
  {
    if k >= 10 then None
    else if lookup(Candidate(random, k)) == NoSingleRow then Some(Candidate(random, k))
    else FirstFree(random, lookup, k + 1)
  }

  /** What the search promises: an id is the candidate of some attempt below 10 whose
      lookup reported `PGRST116`, every earlier attempt having reported otherwise; there
      is no id exactly when none of the ten attempts reported `PGRST116`. */
  lemma {:induction false} FirstFreeSpec(random: nat -> Digit, lookup: string -> IdLookup, k: nat)
    requires k <= 10
    ensures FirstFree(random, lookup, k).None? <==>
              forall a :: k <= a < 10 ==> lookup(Candidate(random, a)) != NoSingleRow
    ensures FirstFree(random, lookup, k).Some? ==>
              exists a :: k <= a < 10 && FirstFree(random, lookup, k).value == Candidate(random, a)
                        && lookup(Candidate(random, a)) == NoSingleRow
                        && forall b :: k <= b < a ==> lookup(Candidate(random, b)) != NoSingleRow
    decreases 10 - k
  {
    if k < 10 && lookup(Candidate(random, k)) != NoSingleRow {
      FirstFreeSpec(random, lookup, k + 1);
      var r := FirstFree(random, lookup, k);
      if r.Some? {
        var a :| k + 1 <= a < 10 && r.value == Candidate(random, a)
                 && lookup(Candidate(random, a)) == NoSingleRow
                 && forall b :: k + 1 <= b < a ==> lookup(Candidate(random, b)) != NoSingleRow;
        assert forall b :: k <= b < a ==> lookup(Candidate(random, b)) != NoSingleRow;
      }
    }
  }

  /** `generateUserId`: at most ten attempts, each drawing a nine-digit candidate and
      looking it up; the first one reported as `PGRST116` is returned; after ten
      failures it throws (`None`). `lookups` counts the lookups issued. */
  method GenerateUserId(random: nat -> Digit, lookup: string -> IdLookup) returns (userId: Option<string>, lookups: nat)
    ensures userId == FirstFree(random, lookup, 0)
    ensures 1 <= lookups <= 10
    ensures userId.Some? ==> userId.value == Candidate(random, lookups - 1) && lookup(userId.value) == NoSingleRow
    ensures userId.None? ==> lookups == 10
  {
    var attempts := 0;
    while attempts < 10
      invariant 0 <= attempts <= 10
      invariant FirstFree(random, lookup, attempts) == FirstFree(random, lookup, 0)
    {
      var candidate := Candidate(random, attempts);
      if lookup(candidate) == NoSingleRow {
        return Some(candidate), attempts + 1;
      }
      attempts := attempts + 1;
    }
    return None, 10;
  }

  // ---------------------------------------------------------------- profiles

  /** A row of `admin_users`. */
  datatype Profile = Profile(userId: string, fullName: Value, email: Value, mobileNumber: Value,
                             examPreparingFor: Value, isBlocked: bool)

  /** The answer of `select('is_blocked').eq('email', email).single()` over the profile
      table: an error when the backend fails or the email does not name exactly one
      row, otherwise that row's flag. */
  function BlockStatus(profiles: seq<Profile>, email: Value, fails: bool): (r: Option<bool>)
    ensures r.Some? <==> !fails && OnlyRow(profiles, email)
    ensures r.Some? ==> forall i :: 0 <= i < |profiles| && profiles[i].email == email ==> profiles[i].isBlocked == r.value
    ensures r.Some? ==> exists i :: 0 <= i < |profiles| && profiles[i].email == email && profiles[i].isBlocked == r.value
  {
    var matching := MatchingRows(profiles, email, 0);
    MatchingRowsIncreasing(profiles, email, 0);
    MatchingRowsSingle(profiles, email);
    if fails || |matching| != 1 then None else Some(profiles[matching[0]].isBlocked)
  }

  /** Exactly one row of `profiles` carries `email`. */
  predicate OnlyRow(profiles: seq<Profile>, email: Value) {
    exists i :: 0 <= i < |profiles| && profiles[i].email == email &&
      forall j :: 0 <= j < |profiles| && profiles[j].email == email ==> j == i
  }

  /** The matching indices come in strictly increasing order, so none repeats. */
  lemma {:induction false} MatchingRowsIncreasing(profiles: seq<Profile>, email: Value, from: nat)
    requires from <= |profiles|
    ensures forall j, k :: 0 <= j < k < |MatchingRows(profiles, email, from)| ==>
              MatchingRows(profiles, email, from)[j] < MatchingRows(profiles, email, from)[k]
    decreases |profiles| - from
  {
    if from < |profiles| {
      var rest := MatchingRows(profiles, email, from + 1);
      MatchingRowsIncreasing(profiles, email, from + 1);
      if profiles[from].email == email {
        var r := [from] + rest;
        forall j, k | 0 <= j < k < |r| ensures r[j] < r[k] {
          assert r[k] == rest[k - 1];
          if j > 0 {
            assert r[j] == rest[j - 1];
          }
        }
      }
    }
  }

  /** One matching index exactly when one row carries the email. */
  lemma MatchingRowsSingle(profiles: seq<Profile>, email: Value)
    ensures |MatchingRows(profiles, email, 0)| == 1 <==> OnlyRow(profiles, email)
  {
    var m := MatchingRows(profiles, email, 0);
    MatchingRowsIncreasing(profiles, email, 0);
    if |m| == 1 {
      assert profiles[m[0]].email == email;
      forall j | 0 <= j < |profiles| && profiles[j].email == email ensures j == m[0] {
        assert j in m;
      }
    }
    if OnlyRow(profiles, email) {
      var i :| 0 <= i < |profiles| && profiles[i].email == email &&
        forall j :: 0 <= j < |profiles| && profiles[j].email == email ==> j == i;
      assert i in m;
      assert forall k :: 0 <= k < |m| ==> m[k] == i;
      IncreasingSpread(m);
    }
  }

  /** In a strictly increasing sequence of indices the last lies at least `|m| - 1`
      past the first. */
  lemma {:induction false} IncreasingSpread(m: seq<nat>)
    requires forall j, k :: 0 <= j < k < |m| ==> m[j] < m[k]
    ensures |m| > 0 ==> m[|m| - 1] >= m[0] + |m| - 1
  {
    if |m| > 1 {
      IncreasingSpread(m[1..]);
      assert m[1..][|m| - 2] == m[|m| - 1];
      assert m[0] < m[1];
    }
  }

  /** The indices from `from` on of the rows whose email equals `email`. */
  function MatchingRows(profiles: seq<Profile>, email: Value, from: nat): (r: seq<nat>)
    requires from <= |profiles|
    ensures forall j :: 0 <= j < |r| ==> from <= r[j] < |profiles| && profiles[r[j]].email == email
    ensures forall i :: from <= i < |profiles| && profiles[i].email == email ==> i in r
    decreases |profiles| - from
  {
    if from == |profiles| then []
    else if profiles[from].email == email then [from] + MatchingRows(profiles, email, from + 1)
    else MatchingRows(profiles, email, from + 1)
  }

  /** The profile `handleSignup` inserts: the form's values and `is_blocked` false. */
  function NewProfile(userId: string, f: Form): (p: Profile)
    ensures !p.isBlocked && p.userId == userId
    ensures p.email == Field(f, "email") && p.fullName == Field(f, "fullName")
    ensures p.mobileNumber == Field(f, "mobileNumber") && p.examPreparingFor == Field(f, "examType")
  {
    Profile(userId, Field(f, "fullName"), Field(f, "email"), Field(f, "mobileNumber"), Field(f, "examType"), false)
  }

  // ---------------------------------------------------------------- outcomes

  datatype LoginOutcome = MissingCredentials | AuthFailed | StatusCheckFailed | BlockedUser | LoggedIn

  /** `handleLogin`: empty credentials are refused before any call; then an
      authentication error, then a failed block-status lookup, fails; a blocked profile
      is turned away; anything else signs in. */
  function LoginOutcomeOf(f: Form, authOk: bool, status: Option<bool>): (o: LoginOutcome)
    ensures o == MissingCredentials <==> !Truthy(f, "email") || !Truthy(f, "password")
    ensures o == AuthFailed <==> Truthy(f, "email") && Truthy(f, "password") && !authOk
    ensures o == StatusCheckFailed <==> Truthy(f, "email") && Truthy(f, "password") && authOk && status.None?
    ensures o == BlockedUser <==> Truthy(f, "email") && Truthy(f, "password") && authOk && status == Some(true)
    ensures o == LoggedIn <==> Truthy(f, "email") && Truthy(f, "password") && authOk && status == Some(false)
  {
    if !Truthy(f, "email") || !Truthy(f, "password") then MissingCredentials
    else if !authOk then AuthFailed
    else if status.None? then StatusCheckFailed
    else if status.value then BlockedUser
    else LoggedIn
  }

  datatype SignupError = MissingFields | PasswordMismatch | TermsNotAccepted

  /** The checks of `handleSignup`, in order: the five text fields filled, then the
      two passwords equal, then the terms accepted. */
  function SignupCheck(f: Form): (r: Option<SignupError>)
    ensures r == Some(MissingFields) <==>
      !(Truthy(f, "fullName") && Truthy(f, "email") && Truthy(f, "mobileNumber") && Truthy(f, "password") && Truthy(f, "confirmPassword"))
    ensures r == Some(PasswordMismatch) <==> r != Some(MissingFields) && Field(f, "password") != Field(f, "confirmPassword")
    ensures r == Some(TermsNotAccepted) <==>
      r != Some(MissingFields) && Field(f, "password") == Field(f, "confirmPassword") && !Truthy(f, "agreeToTerms")
    ensures r.None? ==> Truthy(f, "email") && Truthy(f, "password") && Truthy(f, "agreeToTerms")
  {
    if !(Truthy(f, "fullName") && Truthy(f, "email") && Truthy(f, "mobileNumber") && Truthy(f, "password") && Truthy(f, "confirmPassword"))
    then Some(MissingFields)
    else if Field(f, "password") != Field(f, "confirmPassword") then Some(PasswordMismatch)
    else if !Truthy(f, "agreeToTerms") then Some(TermsNotAccepted)
    else None
  }

  datatype SignupOutcome = Rejected(reason: SignupError) | SignupFailed | NoFreeId | Registered(userId: string, profileSaved: bool)

  /** The modal and the parts of the application state it sets: the signed-in user,
      the modal flags, the form, and the profile table it reads and writes. */
  class AuthModal {
    var form: Form
    var user: Option<string>
    var showAuthModal: bool
    var showBlockModal: bool
    var showForgot: bool
    var profiles: seq<Profile>

    constructor (stored: seq<Profile>)
      ensures form == InitialForm() && user == None && profiles == stored
      ensures showAuthModal && !showBlockModal && !showForgot
    {
      form := InitialForm();
      user := None;
      showAuthModal := true;
      showBlockModal := false;
      showForgot := false;
      profiles := stored;
    }

    method Change(name: string, inputType: string, value: string, checked: bool)
      modifies this
      ensures form == HandleChange(old(form), name, inputType, value, checked)
      ensures user == old(user) && profiles == old(profiles)
      ensures showAuthModal == old(showAuthModal) && showBlockModal == old(showBlockModal)
      ensures showForgot == old(showForgot)
    {
      form := HandleChange(form, name, inputType, value, checked);
    }

    /** `handleLogin`; `authUser` is the user the authentication returns (`None` for an
      authentication error) and `lookupFails` a failure of the status lookup. Only a
      successful login sets the user; a blocked profile closes this modal and opens
      the block notice; every failure leaves all state as it was. */
    method Login(authUser: Option<string>, lookupFails: bool) returns (o: LoginOutcome)
      modifies this
      ensures o == LoginOutcomeOf(old(form), authUser.Some?, BlockStatus(old(profiles), Field(old(form), "email"), lookupFails))
      ensures o == LoggedIn ==> user == authUser && !showAuthModal && showBlockModal == old(showBlockModal)
      ensures o == BlockedUser ==> user == old(user) && !showAuthModal && showBlockModal
      ensures o != LoggedIn && o != BlockedUser ==>
        user == old(user) && showAuthModal == old(showAuthModal) && showBlockModal == old(showBlockModal)
      ensures form == old(form) && profiles == old(profiles) && showForgot == old(showForgot)
    {
      var status := BlockStatus(profiles, Field(form, "email"), lookupFails);
      o := LoginOutcomeOf(form, authUser.Some?, status);
      if o == BlockedUser {
        showAuthModal := false;
        showBlockModal := true;
      } else if o == LoggedIn {
        user := authUser;
        showAuthModal := false;
      }
    }

    /** `handleSignup`; `authOk` is whether the account was created and `insertOk`
      whether the profile insert succeeded. A failed check, a signup error and a
      failed id search leave everything as it was; once an id is found the modal
      closes whether or not the profile could be saved. */
    method Signup(authOk: bool, random: nat -> Digit, lookup: string -> IdLookup, insertOk: bool) returns (o: SignupOutcome)
      modifies this
      ensures SignupCheck(old(form)).Some? ==> o == Rejected(SignupCheck(old(form)).value)
      ensures SignupCheck(old(form)).None? && !authOk ==> o == SignupFailed
      ensures SignupCheck(old(form)).None? && authOk ==>
        match FirstFree(random, lookup, 0)
        case None => o == NoFreeId
        case Some(id) => o == Registered(id, insertOk)
      ensures o.Registered? ==> !showAuthModal
      ensures o.Registered? && insertOk ==> profiles == old(profiles) + [NewProfile(o.userId, old(form))]
      ensures !(o.Registered? && insertOk) ==> profiles == old(profiles)
      ensures !o.Registered? ==> showAuthModal == old(showAuthModal)
      ensures form == old(form) && user == old(user) && showBlockModal == old(showBlockModal)
    {
      var check := SignupCheck(form);
      if check.Some? {
        return Rejected(check.value);
      }
      if !authOk {
        return SignupFailed;
      }
      var id, _ := GenerateUserId(random, lookup);
      if id.None? {
        return NoFreeId;
      }
      if insertOk {
        profiles := profiles + [NewProfile(id.value, form)];
      }
      showAuthModal := false;
      o := Registered(id.value, insertOk);
    }

    /** `handleForgotPassword`; `ok` is whether the reset mail was sent. An empty email
      is refused before any call; a sent mail closes the reset form and the modal. */
    method Forgot(ok: bool) returns (requested: bool)
      modifies this
      ensures requested <==> Truthy(old(form), "email")
      ensures requested && ok ==> !showForgot && !showAuthModal
      ensures !(requested && ok) ==> showForgot == old(showForgot) && showAuthModal == old(showAuthModal)
      ensures form == old(form) && user == old(user) && profiles == old(profiles) && showBlockModal == old(showBlockModal)
    {
      requested := Truthy(form, "email");
      if requested && ok {
        showForgot := false;
        showAuthModal := false;
      }
    }
  }

  /** A profile saved by signup is never blocked, so once it is the only row with its
      email, signing in with that email (and a working backend) succeeds. */
  lemma SignedUpUserCanLogIn(others: seq<Profile>, id: string, f: Form, authOk: bool)
    requires SignupCheck(f).None? && authOk
    requires forall i :: 0 <= i < |others| ==> others[i].email != Field(f, "email")
    ensures LoginOutcomeOf(f, authOk, BlockStatus(others + [NewProfile(id, f)], Field(f, "email"), false)) == LoggedIn
  {
    OnlyLastMatches(others, NewProfile(id, f), Field(f, "email"), 0);
  }

  /** When only the appended row has the email, the lookup finds exactly that row. */
  lemma {:induction false} OnlyLastMatches(others: seq<Profile>, p: Profile, email: Value, from: nat)
    requires from <= |others| && p.email == email
    requires forall i :: from <= i < |others| ==> others[i].email != email
    ensures MatchingRows(others + [p], email, from) == [|others|]
    decreases |others| - from
  {
    var ps := others + [p];
    if from < |others| {
      assert ps[from] == others[from];
      OnlyLastMatches(others, p, email, from + 1);
    } else {
      assert ps[from] == p;
    }
  }
}

=== FILE: blogs_list.dfy ===
/** The public blog list: the published posts it loads, the search box over title and
    excerpt, the link to each post, and the first three tags of a card. */
module BlogsList {
  import opened Text
  import Seqs
  import opened BlogAdmin

  /** A row of `blogs` as the list reads it; the excerpt may be null. */
  datatype ListedBlog = ListedBlog(
    id: int,
    title: string,
    slug: string,
    excerpt: Option<string>,
    tags: StoredTags,
    isPublished: bool)

  predicate Published(b: ListedBlog) {
    b.isPublished
  }

  /** `fetchBlogs`: the published rows the backend returned, none after an error or
      an empty answer. */
  function LoadedBlogs(answer: Option<seq<ListedBlog>>): (r: seq<ListedBlog>)
    ensures answer.None? ==> r == []
    ensures answer.Some? ==> Seqs.IsSubsequence(r, answer.value)
    ensures forall i :: 0 <= i < |r| ==> r[i].isPublished
    ensures answer.Some? ==> forall i :: 0 <= i < |answer.value| && answer.value[i].isPublished ==> answer.value[i] in r
    ensures answer.Some? ==> r == Seqs.Filter(answer.value, Published)
  {
    match answer
    case None => []
    case Some(rows) =>
      Seqs.FilterIsSubsequence(rows, Published);
      Seqs.Filter(rows, Published)
  }

  /** The search condition: the title, or the excerpt when there is one, contains the
      term, ignoring case. */
  predicate BlogMatches(b: ListedBlog, term: string) {
    ContainsIgnoreCase(b.title, term) || (b.excerpt.Some? && ContainsIgnoreCase(b.excerpt.value, term))
  }

  function MatchTest(term: string): ListedBlog -> bool {
    (b: ListedBlog) => BlogMatches(b, term)
  }

  /** `filteredBlogs`: the matching posts in the loaded order. */
  function FilteredBlogs(blogs: seq<ListedBlog>, term: string): (r: seq<ListedBlog>)
    ensures Seqs.IsSubsequence(r, blogs)
    ensures forall i :: 0 <= i < |r| ==> BlogMatches(r[i], term)
    ensures forall i :: 0 <= i < |blogs| && BlogMatches(blogs[i], term) ==> blogs[i] in r
    ensures r == Seqs.Filter(blogs, MatchTest(term))
  {
    Seqs.FilterIsSubsequence(blogs, MatchTest(term));
    Seqs.Filter(blogs, MatchTest(term))
  }

  /** An empty search shows every loaded post, since every title contains the empty
      text. */
  lemma EmptySearchShowsAll(blogs: seq<ListedBlog>)
    ensures FilteredBlogs(blogs, "") == blogs
  {
    forall i | 0 <= i < |blogs| ensures MatchTest("")(blogs[i]) {
      ContainsEmpty(blogs[i].title);
    }
    Seqs.FilterAll(blogs, MatchTest(""));
  }

  const PostDirectory := "/blogs/"

  /** The card's link: the post's slug under the blog directory. */
  function PostPath(slug: string): (p: string)
    ensures |p| == |PostDirectory| + |slug|
    ensures p[..|PostDirectory|] == PostDirectory && p[|PostDirectory|..] == slug
  {
    PostDirectory + slug
  }

  /** Different slugs link to different posts. */
  lemma PostPathsDistinct(s1: string, s2: string)
    requires PostPath(s1) == PostPath(s2)
    ensures s1 == s2
  {
    assert s1 == PostPath(s1)[|PostDirectory|..];
  }

  /** What a card shows under its title: no tag row, up to three tag chips, or the
      failure of `slice(0, 3).map` on tags stored as text. */
  datatype TagsView = NoTagRow | TagChips(chips: seq<string>) | RenderFailure

  /** `blog.tags && blog.tags.length > 0 && blog.tags.slice(0, 3).map(...)`. */
  function ShownTags(tags: StoredTags): (v: TagsView)
    ensures v.TagChips? <==> tags.TagList? && tags.items != []
    ensures v.RenderFailure? <==> tags.TagText? && tags.text != ""
    ensures v.TagChips? ==> 1 <= |v.chips| <= 3 && v.chips <= tags.items
    ensures v.TagChips? && |tags.items| >= 3 ==> |v.chips| == 3
    ensures v.TagChips? && |tags.items| < 3 ==> v.chips == tags.items
  {
    match tags
    case TagList(items) =>
      if items == [] then NoTagRow
      else if |items| <= 3 then TagChips(items)
      else TagChips(items[..3])
    case TagText(text) => if text == "" then NoTagRow else RenderFailure
    case NoTags => NoTagRow
  }
}

=== FILE: calendar.dfy ===
/** The public exam calendar: the countdown badge for a whole-day difference, the
    first date of a date column, the date-list rendering and the quick-stat counts. */
module Calendar {
  import opened Text
  import Seqs
  import opened CalendarEvents

  /** The `{ text, color, bgColor }` object `getDaysRemaining` returns. */
  datatype Badge = Badge(text: string, color: string, bgColor: string)

  /** The badge for a difference of `diffDays` whole days between the date and today
      (the rounding up of the millisecond difference is done by the caller). */
  function DaysRemaining(diffDays: int): (b: Badge)
    ensures b.text == "Expired" <==> diffDays < 0
    ensures b.text == "Today" <==> diffDays == 0
    ensures b.text == "Tomorrow" <==> diffDays == 1
    ensures diffDays >= 2 ==> b.text == NatToString(diffDays) + " days"
    ensures b.text != "N/A"
    ensures b.color == "text-red-600" <==> diffDays < 0 || 2 <= diffDays <= 7
    ensures b.color == "text-orange-600" <==> diffDays == 0 || 8 <= diffDays <= 30
    ensures b.color == "text-yellow-600" <==> diffDays == 1
    ensures b.color == "text-green-600" <==> diffDays > 30
    ensures b.bgColor == "bg-red-100" <==> diffDays < 0 || 2 <= diffDays <= 7
    ensures b.bgColor == "bg-orange-100" <==> diffDays == 0 || 8 <= diffDays <= 30
    ensures b.bgColor == "bg-yellow-100" <==> diffDays == 1
    ensures b.bgColor == "bg-green-100" <==> diffDays > 30
  {
    if diffDays < 0 then Badge("Expired", "text-red-600", "bg-red-100")
    else if diffDays == 0 then Badge("Today", "text-orange-600", "bg-orange-100")
    else if diffDays == 1 then Badge("Tomorrow", "text-yellow-600", "bg-yellow-100")
    else
      var text := NatToString(diffDays) + " days";
      assert text[0] == NatToString(diffDays)[0] && IsDigit(text[0]);
      if diffDays <= 7 then Badge(text, "text-red-600", "bg-red-100")
      else if diffDays <= 30 then Badge(text, "text-orange-600", "bg-orange-100")
      else Badge(text, "text-green-600", "bg-green-100")
  }

  /** `parseInt(text) <= 7`: a text without leading digits parses to NaN, which no
      comparison holds for. */
  predicate ParsesAtMost(text: string, bound: nat) {
    match ParseLeadingNat(text)
    case Some(n) => n <= bound
    case None => false
  }

  predicate ParsesAbove(text: string, bound: nat) {
    match ParseLeadingNat(text)
    case Some(n) => n > bound
    case None => false
  }

  /** The three quick-stat tests on a badge text. */
  predicate IsExpired(text: string) {
    Contains(text, "Expired")
  }

  predicate IsUrgent(text: string) {
    Contains(text, "days") && ParsesAtMost(text, 7)
  }

  predicate IsComingSoon(text: string) {
    Contains(text, "days") && ParsesAbove(text, 7)
  }

  lemma DaysTextContainsDays(d: nat)
    ensures Contains(NatToString(d) + " days", "days")
  {
    var s := NatToString(d) + " days";
    assert OccursAt(s, "days", |NatToString(d)| + 1) by {
      assert s[|NatToString(d)| + 1..|s|] == "days";
    }
    ContainsIffOccurs(s, "days");
  }

  /** A string missing one of the characters of `t` does not contain `t`. */
  lemma MissingCharNotContained(s: string, t: string, j: int)
    requires 0 <= j < |t| && t[j] !in s
    ensures !Contains(s, t)
  {
    if Contains(s, t) {
      ContainsCharsOf(s, t, j);
    }
  }

  lemma DaysTextNotExpired(d: nat)
    ensures !Contains(NatToString(d) + " days", "Expired")
  {
    var s := NatToString(d) + " days";
    assert 'E' !in s by {
      forall k | 0 <= k < |s| ensures s[k] != 'E' {
        if k < |NatToString(d)| {
          assert IsDigit(NatToString(d)[k]);
        }
      }
    }
    MissingCharNotContained(s, "Expired", 0);
  }

  lemma ExpiredTextStats()
    ensures IsExpired("Expired") && !IsUrgent("Expired") && !IsComingSoon("Expired")
  {
    assert "Expired" <= "Expired";
    MissingCharNotContained("Expired", "days", 1);
  }

  lemma TodayTextStats()
    ensures !IsExpired("Today") && !IsUrgent("Today") && !IsComingSoon("Today")
  {
    MissingCharNotContained("Today", "Expired", 0);
    MissingCharNotContained("Today", "days", 3);
  }

  lemma TomorrowTextStats()
    ensures !IsExpired("Tomorrow") && !IsUrgent("Tomorrow") && !IsComingSoon("Tomorrow")
  {
    MissingCharNotContained("Tomorrow", "Expired", 0);
    MissingCharNotContained("Tomorrow", "days", 0);
  }

  lemma DaysTextStats(d: nat)
    requires d >= 2
    ensures !IsExpired(NatToString(d) + " days")
    ensures IsUrgent(NatToString(d) + " days") <==> d <= 7
    ensures IsComingSoon(NatToString(d) + " days") <==> d > 7
  {
    DaysTextContainsDays(d);
    DaysTextNotExpired(d);
    ParseNatToString(d, " days");
  }

  /** What each quick-stat test selects, as a range of day counts: Expired is a
      negative count, Urgent is 2 to 7 and Coming Soon is more than 7. Today and
      Tomorrow fall in none of them. */
  lemma QuickStatRanges(d: int)
    ensures IsExpired(DaysRemaining(d).text) <==> d < 0
    ensures IsUrgent(DaysRemaining(d).text) <==> 2 <= d <= 7
    ensures IsComingSoon(DaysRemaining(d).text) <==> d > 7
  {
    if d < 0 {
      ExpiredTextStats();
    } else if d == 0 {
      TodayTextStats();
    } else if d == 1 {
      TomorrowTextStats();
    } else {
      DaysTextStats(d);
    }
  }

  /** The badge text of an event's form deadline; `daysUntil` gives the whole-day
      difference between a date and today. */
  function DeadlineText(e: Event, daysUntil: string -> int): string
  {
    DaysRemaining(daysUntil(e.formFillLastDate)).text
  }

  /** The three quick-stat conditions on an event. */
  function ExpiredTest(daysUntil: string -> int): Event -> bool
  {
    e => IsExpired(DeadlineText(e, daysUntil))
  }

  function UrgentTest(daysUntil: string -> int): Event -> bool
  {
    e => IsUrgent(DeadlineText(e, daysUntil))
  }

  function ComingSoonTest(daysUntil: string -> int): Event -> bool
  {
    e => IsComingSoon(DeadlineText(e, daysUntil))
  }

  /** No event is counted twice, so the Expired, Urgent and Coming Soon counts
      together never exceed the number of events. */
  lemma QuickStatsBounded(events: seq<Event>, daysUntil: string -> int)
    ensures Seqs.Count(events, ExpiredTest(daysUntil)) + Seqs.Count(events, UrgentTest(daysUntil))
            + Seqs.Count(events, ComingSoonTest(daysUntil)) <= |events|
  {
    var p, q, u := ExpiredTest(daysUntil), UrgentTest(daysUntil), ComingSoonTest(daysUntil);
    forall e: Event ensures !(p(e) && q(e)) && !(p(e) && u(e)) && !(q(e) && u(e)) {
      QuickStatRanges(daysUntil(e.formFillLastDate));
    }
    Seqs.CountDisjoint3(events, p, q, u);
  }

  /** The array a date column denotes, when there is one: the stored array, or the
      array a stored text parses to. */
  function DatesOf(col: DateColumn, parse: string -> Parsed): Option<seq<string>>
  {
    match col
    case DateList(xs) => Some(xs)
    case DateText(t) => (match parse(t) case ParsedList(xs) => Some(xs) case _ => None)
    case _ => None
  }

  /** `getFirstDate`: element 0 of the array or of the parsed text; `None` stands for
      both `null` and `undefined`. Indexing a parsed string gives its first character. */
  function FirstDate(col: DateColumn, parse: string -> Parsed): (r: Option<string>)
    ensures DatesOf(col, parse).Some? ==>
              r == (if DatesOf(col, parse).value == [] then None else Some(DatesOf(col, parse).value[0]))
    ensures col.NoDate? || col.OtherValue? ==> r == None
    ensures col.DateText? && (parse(col.text).ParseError? || parse(col.text).ParsedOther?) ==> r == None
    ensures col.DateText? && parse(col.text).ParsedText? ==>
              r == (if parse(col.text).s == "" then None else Some([parse(col.text).s[0]]))
  {
    match col
    case DateList(xs) => if xs == [] then None else Some(xs[0])
    case DateText(t) =>
      (match parse(t)
       case ParsedList(xs) => if xs == [] then None else Some(xs[0])
       case ParsedText(s) => if s == "" then None else Some([s[0]])
       case ParsedOther => None
       case ParseError => None)
    case NoDate => None
    case OtherValue => None
  }

  const NoDateBadge := Badge("N/A", "text-gray-500", "bg-gray-100")

  /** The countdown shown for an exam date column: a missing or empty first date is
      shown as N/A. */
  function ExamBadge(col: DateColumn, parse: string -> Parsed, daysUntil: string -> int): (b: Badge)
    ensures b.text == "N/A" <==> FirstDate(col, parse).None? || FirstDate(col, parse).value == ""
    ensures b.text != "N/A" ==> b == DaysRemaining(daysUntil(FirstDate(col, parse).value))
  {
    var first := FirstDate(col, parse);
    if first.Some? && first.value != "" then DaysRemaining(daysUntil(first.value)) else NoDateBadge
  }

  /** `formatMultipleDates`: each date formatted by `format` (the locale formatter)
      and joined with `", "`; anything that is not an array, including a text whose
      parse fails or gives a non-array, renders as N/A. */
  function FormatMultipleDates(col: DateColumn, parse: string -> Parsed, format: string -> string): (r: string)
    ensures DatesOf(col, parse).None? ==> r == "N/A"
    ensures DatesOf(col, parse).Some? ==> r == Join(Seqs.Map(DatesOf(col, parse).value, format), ", ")
  {
    match DatesOf(col, parse)
    case Some(xs) => Join(Seqs.Map(xs, format), ", ")
    case None => "N/A"
  }

  /** The rendering of a joined list starts with its first element. */
  lemma JoinStartsWithFirst(xs: seq<string>, sep: string)
    requires xs != []
    ensures xs[0] <= Join(xs, sep)
  {
  }

  /** The countdown date is the first of the listed dates: whenever a column has a
      first date and denotes an array, its rendering starts with that date. */
  lemma FirstDateListedFirst(col: DateColumn, parse: string -> Parsed, format: string -> string)
    requires DatesOf(col, parse).Some? && FirstDate(col, parse).Some?
    ensures format(FirstDate(col, parse).value) <= FormatMultipleDates(col, parse, format)
  {
    var xs := DatesOf(col, parse).value;
    JoinStartsWithFirst(Seqs.Map(xs, format), ", ");
  }
}

=== FILE: calendar_events.dfy ===
/** The `calendar_events` record shared by the public exam calendar and its admin
    pages, the shapes a stored date column can take, and the exam-name/description
    search both pages apply. */
module CalendarEvents {
  import opened Text
  import Seqs

  /** A stored date column: an array of date strings, a text (JSON written as a
      string), null, or a value of some other type. */
  datatype DateColumn = DateList(dates: seq<string>) | DateText(text: string) | NoDate | OtherValue

  /** What `JSON.parse` makes of a text: an array of strings, a string, any other
      value, or an exception. `JSON.parse` itself is a parameter of the model. */
  datatype Parsed = ParsedList(items: seq<string>) | ParsedText(s: string) | ParsedOther | ParseError

  /** A row of `calendar_events`; absent optional columns are `None`. */
  datatype Event = Event(
    id: int,
    examName: string,
    description: Option<string>,
    formFillLastDate: string,
    prelims: DateColumn,
    mains: DateColumn,
    notificationUrl: Option<string>,
    isActive: Option<bool>)

  /** JavaScript truthiness of an optional text column. */
  predicate Present(s: Option<string>) {
    s.Some? && s.value != ""
  }

  /** `event.is_active` used as a condition: null and false are both falsy. */
  predicate Active(e: Event) {
    e.isActive == Some(true)
  }

  /** The search predicate: the exam name, or the description when there is one,
      contains the term ignoring ASCII case. */
  predicate EventMatches(e: Event, term: string) {
    || ContainsIgnoreCase(e.examName, term)
    || (Present(e.description) && ContainsIgnoreCase(e.description.value, term))
  }

  /** `searchTerm ? events.filter(matches) : events`. */
  function Search(events: seq<Event>, term: string): (r: seq<Event>)
    ensures term == "" ==> r == events
    ensures Seqs.IsSubsequence(r, events)
    ensures forall i :: 0 <= i < |r| ==> EventMatches(r[i], term)
    ensures forall i :: 0 <= i < |events| && EventMatches(events[i], term) ==> events[i] in r
    ensures term != "" ==> r == Seqs.Filter(events, e => EventMatches(e, term))
  {
    if term == "" then
      Seqs.SubsequenceRefl(events);
      assert forall i :: 0 <= i < |events| ==> EventMatches(events[i], term) by {
        forall i | 0 <= i < |events| ensures EventMatches(events[i], term) {
          ContainsEmpty(events[i].examName);
        }
      }
      events
    else
      var r := Seqs.Filter(events, e => EventMatches(e, term));
      Seqs.FilterIsSubsequence(events, e => EventMatches(e, term));
      r
  }
}

=== FILE: exam_calendar_admin.dfy ===
/** The admin list of exam events: the row colour, the dashboard counts, the status
    toggle and the date formatters with their N/A fallbacks. Dates are compared as
    instants given by `time`, which is `None` for an unparsable date (JavaScript's
    Invalid Date, for which every comparison is false). */
module ExamCalendarAdmin {
  import opened Text
  import Seqs
  import opened CalendarEvents
  import Calendar

  const Gray := "text-gray-500"
  const Red := "text-red-600"
  const Green := "text-green-600"

  /** `getStatusColor`: inactive rows are grey whatever their date; active rows whose
      form deadline has passed are red; all other rows are green. */
  function StatusColor(e: Event, time: string -> Option<int>, now: int): (c: string)
    ensures !Active(e) ==> c == Gray
    ensures Active(e) ==> (c == Red <==> time(e.formFillLastDate).Some? && time(e.formFillLastDate).value < now)
    ensures c == Gray || c == Red || c == Green
  {
    if !Active(e) then Gray
    else
      var t := time(e.formFillLastDate);
      if t.Some? && t.value < now then Red else Green
  }

  /** The "Upcoming Exams" condition: the deadline is now or later and the event is active. */
  predicate Upcoming(e: Event, time: string -> Option<int>, now: int) {
    var t := time(e.formFillLastDate);
    t.Some? && t.value >= now && Active(e)
  }

  function UpcomingTest(time: string -> Option<int>, now: int): Event -> bool
  {
    (e: Event) => Upcoming(e, time, now)
  }

  function ActiveTest(): Event -> bool
  {
    (e: Event) => Active(e)
  }

  /** Every upcoming event is shown green, and a green event with a valid date is upcoming. */
  lemma UpcomingIffGreen(e: Event, time: string -> Option<int>, now: int)
    ensures Upcoming(e, time, now) ==> StatusColor(e, time, now) == Green
    ensures StatusColor(e, time, now) == Green && time(e.formFillLastDate).Some? ==> Upcoming(e, time, now)
  {
  }

  /** The upcoming count never exceeds the active count, which never exceeds the total. */
  lemma UpcomingAtMostActive(events: seq<Event>, time: string -> Option<int>, now: int)
    ensures Seqs.Count(events, UpcomingTest(time, now)) <= Seqs.Count(events, ActiveTest()) <= |events|
  {
    Seqs.CountMonotone(events, ActiveTest(), UpcomingTest(time, now));
  }

  /** The write `toggleStatus` issues: `is_active` of the row with that id. */
  datatype StatusWrite = StatusWrite(id: int, isActive: bool)

  /** `toggleStatus(event)`: writes the negation of the event's `is_active`, where a
      missing value counts as false. */
  function ToggleStatus(e: Event): (w: StatusWrite)
    ensures w.id == e.id && w.isActive == !Active(e)
  {
    StatusWrite(e.id, !Active(e))
  }

  /** The stored list after a status write (`update(...).eq('id', id)`). */
  function ApplyStatus(events: seq<Event>, w: StatusWrite): (r: seq<Event>)
    ensures |r| == |events|
    ensures forall i :: 0 <= i < |r| ==>
              r[i] == (if events[i].id == w.id then events[i].(isActive := Some(w.isActive)) else events[i])
  {
    Seqs.Map(events, (e: Event) => if e.id == w.id then e.(isActive := Some(w.isActive)) else e)
  }

  /** A toggle flips the event it was issued for and leaves every other row as it was;
      toggling the updated row again restores the original status. */
  lemma ToggleFlips(events: seq<Event>, i: int)
    requires 0 <= i < |events|
    ensures var r := ApplyStatus(events, ToggleStatus(events[i]));
      && Active(r[i]) == !Active(events[i])
      && (forall j :: 0 <= j < |events| && events[j].id != events[i].id ==> r[j] == events[j])
      && Active(ApplyStatus(r, ToggleStatus(r[i]))[i]) == Active(events[i])
  {
  }

  /** `formatDate`: an empty date renders N/A, any other goes to the locale formatter. */
  function FormatDate(s: string, format: string -> string): (r: string)
    ensures s == "" ==> r == "N/A"
    ensures s != "" ==> r == format(s)
  {
    if s == "" then "N/A" else format(s)
  }

  /** `formatMultipleDates` of the admin list: a missing or empty value, a value of
      another type, a failed parse and a parse that is not an array all render N/A;
      an array renders its dates, each through `formatDate`, joined with `", "`. */
  function FormatMultipleDates(col: DateColumn, parse: string -> Parsed, format: string -> string): (r: string)
    ensures col.NoDate? || col.OtherValue? || col == DateText("") ==> r == "N/A"
    ensures col.DateText? && col.text != "" && !parse(col.text).ParsedList? ==> r == "N/A"
  {
    match col
    case NoDate => "N/A"
    case OtherValue => "N/A"
    case DateList(xs) => Join(Seqs.Map(xs, s => FormatDate(s, format)), ", ")
    case DateText(t) =>
      if t == "" then "N/A"
      else (match parse(t)
            case ParsedList(xs) => Join(Seqs.Map(xs, s => FormatDate(s, format)), ", ")
            case _ => "N/A")
  }

  /** Apart from an empty text, which the admin list rejects before parsing, the
      admin rendering is the public calendar's rendering with `formatDate` as the
      formatter. */
  lemma SameRenderingAsCalendar(col: DateColumn, parse: string -> Parsed, format: string -> string)
    requires col != DateText("")
    ensures FormatMultipleDates(col, parse, format)
         == Calendar.FormatMultipleDates(col, parse, s => FormatDate(s, format))
  {
  }
}

=== FILE: exam_calendar_form.dfy ===
/** The admin form for an exam event: the two editable lists of Prelims and Mains
    dates, the loading of a stored event into the form, and the submit validator
    that builds the saved row. */
module ExamCalendarForm {
  import opened Text
  import Seqs
  import opened CalendarEvents

  /** The form's `formData`. */
  datatype EventForm = EventForm(
    examName: string,
    description: string,
    formFillLastDate: string,
    prelims: seq<string>,
    mains: seq<string>,
    notificationUrl: string,
    isActive: bool)

  /** A fresh form: one empty entry in each date list, active. */
  const InitialForm := EventForm("", "", "", [""], [""], "", true)

  /** Which of the two date lists an edit applies to. */
  datatype DateKind = Prelims | Mains

  function DatesIn(f: EventForm, k: DateKind): seq<string>
  {
    if k == Prelims then f.prelims else f.mains
  }

  /** `f` with the list `k` replaced by `ds` and every other field kept. */
  function WithDates(f: EventForm, k: DateKind, ds: seq<string>): (g: EventForm)
    ensures DatesIn(g, k) == ds
    ensures k == Prelims ==> g == f.(prelims := ds)
    ensures k == Mains ==> g == f.(mains := ds)
  {
    if k == Prelims then f.(prelims := ds) else f.(mains := ds)
  }

  /** Both date lists have at least one entry. */
  predicate ListsNonEmpty(f: EventForm) {
    |f.prelims| >= 1 && |f.mains| >= 1
  }

  /** `ds.filter((_, j) => j !== i)`: the list without position `i`, the rest in order. */
  function RemoveAt(ds: seq<string>, i: int): (r: seq<string>)
    ensures 0 <= i < |ds| ==> |r| == |ds| - 1
    ensures 0 <= i < |ds| ==> forall j :: 0 <= j < i ==> r[j] == ds[j]
    ensures 0 <= i < |ds| ==> forall j :: i <= j < |r| ==> r[j] == ds[j + 1]
    ensures !(0 <= i < |ds|) ==> r == ds
  {
    if 0 <= i < |ds| then ds[..i] + ds[i + 1..] else ds
  }

  /** `ds.map((d, j) => j === i ? v : d)`: position `i` replaced, the length kept. */
  function UpdateAt(ds: seq<string>, i: int, v: string): (r: seq<string>)
    ensures |r| == |ds|
    ensures forall j :: 0 <= j < |r| ==> r[j] == (if j == i then v else ds[j])
  {
    if 0 <= i < |ds| then ds[i := v] else ds
  }

  /** The form after the "add date" button: one `''` appended to list `k`. */
  function Added(f: EventForm, k: DateKind): (g: EventForm)
    ensures |DatesIn(g, k)| == |DatesIn(f, k)| + 1
    ensures DatesIn(g, k)[..|DatesIn(f, k)|] == DatesIn(f, k) && DatesIn(g, k)[|DatesIn(f, k)|] == ""
    ensures DatesIn(g, k) != [] && (ListsNonEmpty(f) ==> ListsNonEmpty(g))
  {
    WithDates(f, k, DatesIn(f, k) + [""])
  }

  /** The form after the remove button of entry `i` of list `k`: nothing happens
      unless the list has more than one entry. */
  function Removed(f: EventForm, k: DateKind, i: int): (g: EventForm)
    ensures |DatesIn(f, k)| <= 1 ==> g == f
    ensures |DatesIn(f, k)| > 1 ==> g == WithDates(f, k, RemoveAt(DatesIn(f, k), i))
    ensures ListsNonEmpty(f) ==> ListsNonEmpty(g)
  {
    if |DatesIn(f, k)| > 1 then WithDates(f, k, RemoveAt(DatesIn(f, k), i)) else f
  }

  /** The form after entry `i` of list `k` is edited to `v`. */
  function Updated(f: EventForm, k: DateKind, i: int, v: string): (g: EventForm)
    ensures g == WithDates(f, k, UpdateAt(DatesIn(f, k), i, v))
    ensures ListsNonEmpty(f) ==> ListsNonEmpty(g)
  {
    WithDates(f, k, UpdateAt(DatesIn(f, k), i, v))
  }

  /** Adding an entry, then removing that same entry, restores a non-empty list. */
  lemma AddThenRemoveLast(f: EventForm, k: DateKind)
    requires |DatesIn(f, k)| >= 1
    ensures Removed(Added(f, k), k, |DatesIn(f, k)|) == f
  {
    var ds := DatesIn(f, k);
    assert RemoveAt(ds + [""], |ds|) == ds;
  }

  // ---------------------------------------------------------------------------
  // Loading a stored event
  // ---------------------------------------------------------------------------

  /** The date list the form takes from a stored column: an array as it is, an
      absent or empty value as `['']`, a text as its JSON array, or as the one-entry
      list of the raw text when the parse fails. A text that parses to something
      other than an array, or a value of another type, is outside the model (`None`). */
  function LoadDates(col: DateColumn, parse: string -> Parsed): (r: Option<seq<string>>)
    ensures col.DateList? ==> r == Some(col.dates)
    ensures col.NoDate? || col == DateText("") ==> r == Some([""])
    ensures col.DateText? && col.text != "" && parse(col.text).ParseError? ==> r == Some([col.text])
    ensures col.DateText? && col.text != "" && parse(col.text).ParsedList? ==> r == Some(parse(col.text).items)
  {
    match col
    case DateList(xs) => Some(xs)
    case NoDate => Some([""])
    case DateText(t) =>
      if t == "" then Some([""])
      else (match parse(t)
            case ParsedList(xs) => Some(xs)
            case ParseError => Some([t])
            case _ => None)
    case OtherValue => None
  }

  /** The form the modal fills from a stored event. */
  function FormFromEvent(e: Event, parse: string -> Parsed): Option<EventForm>
  {
    var p := LoadDates(e.prelims, parse);
    var m := LoadDates(e.mains, parse);
    if p.None? || m.None? then None
    else Some(EventForm(e.examName, e.description.GetOr(""), e.formFillLastDate, p.value, m.value,
                        e.notificationUrl.GetOr(""), e.isActive.GetOr(true)))
  }

  /** A stored empty array is truthy and is loaded as it is: the form then holds an
      empty date list, so the lists are non-empty only when they start so. */
  lemma StoredEmptyListLoadsEmpty(e: Event, parse: string -> Parsed)
    requires e.prelims == DateList([]) && LoadDates(e.mains, parse).Some?
    ensures FormFromEvent(e, parse).Some? && FormFromEvent(e, parse).value.prelims == []
    ensures !ListsNonEmpty(FormFromEvent(e, parse).value)
  {
  }

  // ---------------------------------------------------------------------------
  // Submitting
  // ---------------------------------------------------------------------------

  /** The validation failures, in the order they are checked. */
  datatype FormError = ExamNameRequired | LastDateRequired | PrelimsDateRequired | MainsDateRequired

  /** The `dataToSave` row. */
  datatype EventRow = EventRow(
    examName: string,
    description: Option<string>,
    formFillLastDate: string,
    prelims: seq<string>,
    mains: seq<string>,
    notificationUrl: Option<string>,
    isActive: bool)

  predicate NotBlank(s: string) {
    !IsBlank(s)
  }

  /** `ds.filter(date => date.trim() !== '')`. */
  function NonBlankDates(ds: seq<string>): (r: seq<string>)
    ensures Seqs.IsSubsequence(r, ds)
    ensures forall i :: 0 <= i < |r| ==> !IsBlank(r[i])
    ensures forall i :: 0 <= i < |ds| && !IsBlank(ds[i]) ==> ds[i] in r
    ensures r == Seqs.Filter(ds, NotBlank)
  {
    Seqs.FilterIsSubsequence(ds, NotBlank);
    Seqs.Filter(ds, NotBlank)
  }

  /** `handleSubmit`'s checks, in order, then the row it saves. */
  function Validate(f: EventForm): (r: Result<EventRow, FormError>)
    ensures r == Err(ExamNameRequired) <==> IsBlank(f.examName)
    ensures r == Err(LastDateRequired) <==> !IsBlank(f.examName) && f.formFillLastDate == ""
    ensures r == Err(PrelimsDateRequired) <==>
              !IsBlank(f.examName) && f.formFillLastDate != "" && NonBlankDates(f.prelims) == []
    ensures r == Err(MainsDateRequired) <==>
              && !IsBlank(f.examName) && f.formFillLastDate != "" && NonBlankDates(f.prelims) != []
              && NonBlankDates(f.mains) == []
    ensures r.Ok? ==> r.value.prelims == NonBlankDates(f.prelims) && r.value.prelims != []
    ensures r.Ok? ==> r.value.mains == NonBlankDates(f.mains) && r.value.mains != []
    ensures r.Ok? ==> r.value.examName == Trim(f.examName) && r.value.examName != ""
    ensures r.Ok? ==> r.value.description == BlankToNull(f.description)
    ensures r.Ok? ==> r.value.notificationUrl == BlankToNull(f.notificationUrl)
    ensures r.Ok? ==> r.value.formFillLastDate == f.formFillLastDate && r.value.isActive == f.isActive
  {
    if IsBlank(f.examName) then Err(ExamNameRequired)
    else if f.formFillLastDate == "" then Err(LastDateRequired)
    else
      var prelims := NonBlankDates(f.prelims);
      var mains := NonBlankDates(f.mains);
      if prelims == [] then Err(PrelimsDateRequired)
      else if mains == [] then Err(MainsDateRequired)
      else Ok(EventRow(Trim(f.examName), BlankToNull(f.description), f.formFillLastDate,
                       prelims, mains, BlankToNull(f.notificationUrl), f.isActive))
  }

  /** The write the modal issues: an update of the edited event or an insert. */
  datatype EventWrite = InsertEvent(row: EventRow) | UpdateEvent(id: int, row: EventRow)

  function SubmitWrite(editing: Option<Event>, f: EventForm): (r: Result<EventWrite, FormError>)
    ensures Validate(f).Err? <==> r.Err?
    ensures r.Err? ==> r.error == Validate(f).error
    ensures r.Ok? ==> r.value.row == Validate(f).value
    ensures r.Ok? ==> (r.value.UpdateEvent? <==> editing.Some?)
    ensures r.Ok? && editing.Some? ==> r.value.id == editing.value.id
  {
    match Validate(f)
    case Err(e) => Err(e)
    case Ok(row) => if editing.Some? then Ok(UpdateEvent(editing.value.id, row)) else Ok(InsertEvent(row))
  }

  /** The stored event a saved row becomes. */
  function StoredEvent(id: int, row: EventRow): Event
  {
    Event(id, row.examName, row.description, row.formFillLastDate, DateList(row.prelims),
          DateList(row.mains), row.notificationUrl, Some(row.isActive))
  }

  lemma NonBlankDatesAgain(ds: seq<string>)
    ensures NonBlankDates(NonBlankDates(ds)) == NonBlankDates(ds)
  {
    Seqs.FilterAll(NonBlankDates(ds), NotBlank);
  }

  /** The form a saved row loads back into: the row's fields, with absent texts
      as empty ones. */
  function ReloadedForm(row: EventRow): EventForm
  {
    EventForm(row.examName, row.description.GetOr(""), row.formFillLastDate, row.prelims, row.mains,
              row.notificationUrl.GetOr(""), row.isActive)
  }

  /** Reopening a stored row fills the form with the row itself: the stored date
      lists are arrays and are loaded as they are. */
  lemma ReloadStoredRow(row: EventRow, id: int, parse: string -> Parsed)
    ensures FormFromEvent(StoredEvent(id, row), parse) == Some(ReloadedForm(row))
  {
  }

  /** Saving, reopening the saved event and saving again stores the same row: the
      loaded form has non-empty date lists and the validator is idempotent on what
      it produced. */
  lemma SaveReloadSave(f: EventForm, id: int, parse: string -> Parsed)
    requires Validate(f).Ok?
    ensures FormFromEvent(StoredEvent(id, Validate(f).value), parse).Some?
    ensures ListsNonEmpty(FormFromEvent(StoredEvent(id, Validate(f).value), parse).value)
    ensures Validate(FormFromEvent(StoredEvent(id, Validate(f).value), parse).value) == Validate(f)
  {
    var row := Validate(f).value;
    ReloadStoredRow(row, id, parse);
    RevalidateRow(f);
  }

  /** The validator accepts the reloaded form of a row it produced and gives that row again. */
  lemma RevalidateRow(f: EventForm)
    requires Validate(f).Ok?
    ensures ListsNonEmpty(ReloadedForm(Validate(f).value))
    ensures Validate(ReloadedForm(Validate(f).value)) == Validate(f)
  {
    TrimNotBlank(f.examName);
    BlankToNullAgain(f.description);
    BlankToNullAgain(f.notificationUrl);
    NonBlankDatesAgain(f.prelims);
    NonBlankDatesAgain(f.mains);
  }

  /** The modal's form state. */
  class EventFormModal {
    var form: EventForm

    /** A fresh form: one empty entry in each list. */
    constructor ()
      ensures form == InitialForm && ListsNonEmpty(form)
    {
      form := InitialForm;
    }

    /** The effect that fills the form from the event being edited. */
    method Load(e: Event, parse: string -> Parsed)
      requires FormFromEvent(e, parse).Some?
      modifies this
      ensures form == FormFromEvent(e, parse).value
    {
      form := FormFromEvent(e, parse).value;
    }

    method AddDate(k: DateKind)
      modifies this
      ensures form == Added(old(form), k)
      ensures old(ListsNonEmpty(form)) ==> ListsNonEmpty(form)
    {
      form := WithDates(form, k, DatesIn(form, k) + [""]);
    }

    method RemoveDate(k: DateKind, i: int)
      modifies this
      ensures form == Removed(old(form), k, i)
      ensures old(ListsNonEmpty(form)) ==> ListsNonEmpty(form)
    {
      if |DatesIn(form, k)| > 1 {
        form := WithDates(form, k, RemoveAt(DatesIn(form, k), i));
      }
    }

    method UpdateDate(k: DateKind, i: int, v: string)
      modifies this
      ensures form == Updated(old(form), k, i, v)
      ensures old(ListsNonEmpty(form)) ==> ListsNonEmpty(form)
    {
      form := WithDates(form, k, UpdateAt(DatesIn(form, k), i, v));
    }
  }
}

=== FILE: form_fields.dfy ===
/** The untyped form state of the sign-in modal: an object from input names to the
    values the inputs last reported, and its `handleChange`. */
module FormFields {

  /** What an input stores: the text of a text input, the `checked` state of a checkbox. */
  datatype Value = Text(s: string) | Flag(b: bool)

  type Form = map<string, Value>

  /** `{...prev, [name]: type === 'checkbox' ? checked : value}`: a checkbox stores its
      checked state, any other input its text, under its own name; every other entry is kept. */
  function HandleChange(f: Form, name: string, inputType: string, value: string, checked: bool): (g: Form)
    ensures g.Keys == f.Keys + {name}
    ensures inputType == "checkbox" ==> g[name] == Flag(checked)
    ensures inputType != "checkbox" ==> g[name] == Text(value)
    ensures forall k :: k in f && k != name ==> g[k] == f[k]
  {
    f[name := if inputType == "checkbox" then Flag(checked) else Text(value)]
  }

  /** JavaScript truthiness of `form[name]`: a missing entry is `undefined`, an empty
      text and an unchecked box are falsy. */
  predicate Truthy(f: Form, name: string) {
    name in f && match f[name]
                 case Text(s) => s != ""
                 case Flag(b) => b
  }

  /** Two changes of the same input leave only the later one. */
  lemma ChangeOverwrites(f: Form, name: string, t1: string, v1: string, c1: bool, t2: string, v2: string, c2: bool)
    ensures HandleChange(HandleChange(f, name, t1, v1, c1), name, t2, v2, c2) == HandleChange(f, name, t2, v2, c2)
  {
  }

  /** Changes of different inputs do not interfere: their order does not matter. */
  lemma ChangesCommute(f: Form, n1: string, t1: string, v1: string, c1: bool, n2: string, t2: string, v2: string, c2: bool)
    requires n1 != n2
    ensures HandleChange(HandleChange(f, n1, t1, v1, c1), n2, t2, v2, c2)
         == HandleChange(HandleChange(f, n2, t2, v2, c2), n1, t1, v1, c1)
  {
  }

  /** Truthiness after a change: the changed input is truthy exactly when the box was
      checked or the text is non-empty; every other input keeps its truthiness. */
  lemma TruthyAfterChange(f: Form, name: string, inputType: string, value: string, checked: bool, k: string)
    ensures var g := HandleChange(f, name, inputType, value, checked);
      && (k == name ==> (Truthy(g, k) <==> (if inputType == "checkbox" then checked else value != "")))
      && (k != name ==> (Truthy(g, k) <==> Truthy(f, k)))
  {
  }
}

=== FILE: magazine_form.dfy ===
/** The magazine editor: its defaults, the form filled from an edited magazine, the
    year choices, the cover preview that follows month, year and language, and the
    checks and normalisation of the saved row. */
module MagazineForm {
  import opened Text
  import opened MagazineAdmin

  datatype MagazineFormData = MagazineFormData(
    title: string,
    description: string,
    month: string,
    year: string,
    language: string,
    googleDriveLink: string,
    previewLink: string,
    fileSize: string,
    isActive: bool)

  const Months: seq<string> := ["January", "February", "March", "April", "May", "June",
                                "July", "August", "September", "October", "November", "December"]
  const Languages: seq<string> := ["English", "Hindi"]

  /** A new magazine: the current year, English, active, everything else empty. */
  function DefaultForm(currentYear: nat): (f: MagazineFormData)
    ensures f.year == NatToString(currentYear) && f.language == Languages[0] && f.isActive
    ensures f.title == "" && f.description == "" && f.month == "" && f.googleDriveLink == ""
    ensures f.previewLink == "" && f.fileSize == ""
  {
    MagazineFormData("", "", "", NatToString(currentYear), "English", "", "", "", true)
  }

  /** The form for an edited magazine: missing texts become empty, a missing or empty
      language becomes English, and a missing `is_active` counts as active. */
  function FormFromMagazine(m: Magazine): (f: MagazineFormData)
    ensures f.language != "" && (m.language != "" ==> f.language == m.language)
    ensures m.isActive.None? ==> f.isActive
    ensures m.isActive.Some? ==> f.isActive == m.isActive.value
    ensures m.description.None? ==> f.description == ""
    ensures m.previewLink.None? ==> f.previewLink == ""
    ensures m.fileSize.None? ==> f.fileSize == ""
    ensures f.title == m.title && f.month == m.month && f.year == m.year && f.googleDriveLink == m.googleDriveLink
    ensures m.description.Some? ==> f.description == m.description.value
    ensures m.previewLink.Some? ==> f.previewLink == m.previewLink.value
    ensures m.fileSize.Some? ==> f.fileSize == m.fileSize.value
  {
    MagazineFormData(m.title, m.description.GetOr(""), m.month, m.year,
                     if m.language == "" then "English" else m.language,
                     m.googleDriveLink, m.previewLink.GetOr(""), m.fileSize.GetOr(""), m.isActive.GetOr(true))
  }

  /** The ten year choices, `currentYear - 5 + i` for `i` below 10. */
  function YearOptions(currentYear: int): (ys: seq<int>)
    ensures |ys| == 10 && ys[0] == currentYear - 5 && ys[9] == currentYear + 4
    ensures forall i :: 0 < i < |ys| ==> ys[i] == ys[i - 1] + 1
    ensures ys[5] == currentYear
  {
    seq(10, i requires 0 <= i < 10 => currentYear - 5 + i)
  }

  /** The inputs: the text fields, and the `is_active` checkbox. */
  datatype TextField = Title | Description | Month | Year | Language | DriveLink | PreviewLink | FileSize
  datatype Input = TextInput(field: TextField, value: string) | ActiveBox(checked: bool)

  /** `handleChange`: a text input stores its value in its field, the checkbox its
      checked state; nothing else changes. */
  function Changed(f: MagazineFormData, input: Input): (g: MagazineFormData)
    ensures input.ActiveBox? ==> g == f.(isActive := input.checked)
    ensures input.TextInput? && input.field == Title ==> g == f.(title := input.value)
    ensures input.TextInput? && input.field == Description ==> g == f.(description := input.value)
    ensures input.TextInput? && input.field == Month ==> g == f.(month := input.value)
    ensures input.TextInput? && input.field == Year ==> g == f.(year := input.value)
    ensures input.TextInput? && input.field == Language ==> g == f.(language := input.value)
    ensures input.TextInput? && input.field == DriveLink ==> g == f.(googleDriveLink := input.value)
    ensures input.TextInput? && input.field == PreviewLink ==> g == f.(previewLink := input.value)
    ensures input.TextInput? && input.field == FileSize ==> g == f.(fileSize := input.value)
  {
    match input
    case ActiveBox(c) => f.(isActive := c)
    case TextInput(k, v) =>
      match k
      case Title => f.(title := v)
      case Description => f.(description := v)
      case Month => f.(month := v)
      case Year => f.(year := v)
      case Language => f.(language := v)
      case DriveLink => f.(googleDriveLink := v)
      case PreviewLink => f.(previewLink := v)
      case FileSize => f.(fileSize := v)
  }

  /** Month, year and language are all chosen. */
  predicate PreviewReady(f: MagazineFormData) {
    f.month != "" && f.year != "" && f.language != ""
  }

  /** The preview effect: the cover path of the chosen month, year and language once
      all three are chosen; otherwise the previous preview stays. */
  function PreviewImage(f: MagazineFormData, previous: string): (p: string)
    ensures PreviewReady(f) ==> p == CoverImagePath(f.month, f.year, f.language)
    ensures !PreviewReady(f) ==> p == previous
  {
    if PreviewReady(f) then CoverImagePath(f.month, f.year, f.language) else previous
  }

  datatype MagazineError = TitleRequired | MonthRequired | YearRequired | LanguageRequired | DriveLinkRequired

  /** The `dataToSave` row. */
  datatype MagazineRow = MagazineRow(
    title: string,
    description: string,
    month: string,
    year: string,
    language: string,
    googleDriveLink: string,
    previewLink: Option<string>,
    fileSize: Option<string>,
    isActive: bool,
    coverImage: string)

  /** `validateForm` then `dataToSave`: the checks in order (title after trimming,
      month, year, language, Drive link after trimming), the first failure reported;
      on success the texts trimmed, blank optional texts null, and the cover path. */
  function Validate(f: MagazineFormData): (r: Result<MagazineRow, MagazineError>)
    ensures r == Err(TitleRequired) <==> IsBlank(f.title)
    ensures r == Err(MonthRequired) <==> !IsBlank(f.title) && f.month == ""
    ensures r == Err(YearRequired) <==> !IsBlank(f.title) && f.month != "" && f.year == ""
    ensures r == Err(LanguageRequired) <==> !IsBlank(f.title) && f.month != "" && f.year != "" && f.language == ""
    ensures r == Err(DriveLinkRequired) <==>
              !IsBlank(f.title) && PreviewReady(f) && IsBlank(f.googleDriveLink)
    ensures r.Ok? ==> r.value.title == Trim(f.title) && r.value.title != ""
    ensures r.Ok? ==> r.value.googleDriveLink == Trim(f.googleDriveLink) && r.value.googleDriveLink != ""
    ensures r.Ok? ==> r.value.description == Trim(f.description)
    ensures r.Ok? ==> r.value.previewLink == BlankToNull(f.previewLink) && r.value.fileSize == BlankToNull(f.fileSize)
    ensures r.Ok? ==> r.value.month == f.month && r.value.year == f.year && r.value.language == f.language
    ensures r.Ok? ==> r.value.isActive == f.isActive
    ensures r.Ok? ==> r.value.coverImage == CoverImagePath(f.month, f.year, f.language)
  {
    if IsBlank(f.title) then Err(TitleRequired)
    else if f.month == "" then Err(MonthRequired)
    else if f.year == "" then Err(YearRequired)
    else if f.language == "" then Err(LanguageRequired)
    else if IsBlank(f.googleDriveLink) then Err(DriveLinkRequired)
    else Ok(MagazineRow(Trim(f.title), Trim(f.description), f.month, f.year, f.language,
                        Trim(f.googleDriveLink), BlankToNull(f.previewLink), BlankToNull(f.fileSize),
                        f.isActive, CoverImagePath(f.month, f.year, f.language)))
  }

  /** The saved cover is the preview the form showed. */
  lemma SavedCoverIsPreview(f: MagazineFormData, previous: string)
    requires Validate(f).Ok?
    ensures Validate(f).value.coverImage == PreviewImage(f, previous)
  {
  }

  /** The magazine as stored after a save. */
  function StoredMagazine(id: int, row: MagazineRow, downloads: Option<int>): Magazine
  {
    Magazine(id, row.title, Some(row.description), row.month, row.year, row.language,
             row.googleDriveLink, row.previewLink, row.fileSize, downloads, Some(row.isActive))
  }

  /** Saving, reopening the saved magazine and saving again stores the same row. */
  lemma SaveEditSave(f: MagazineFormData, id: int, downloads: Option<int>)
    requires Validate(f).Ok?
    ensures Validate(FormFromMagazine(StoredMagazine(id, Validate(f).value, downloads))) == Validate(f)
  {
    TrimNotBlank(f.title);
    TrimNotBlank(f.googleDriveLink);
    TrimIdempotent(f.description);
    BlankToNullAgain(f.previewLink);
    BlankToNullAgain(f.fileSize);
  }

  /** The write the modal issues: an update of the edited magazine or an insert. */
  datatype MagazineWrite = InsertMagazine(row: MagazineRow) | UpdateMagazine(id: int, row: MagazineRow)

  function SubmitWrite(editing: Option<Magazine>, f: MagazineFormData): (r: Result<MagazineWrite, MagazineError>)
    ensures r.Err? <==> Validate(f).Err?
    ensures r.Err? ==> r.error == Validate(f).error
    ensures r.Ok? && editing.None? ==> r.value == InsertMagazine(Validate(f).value)
    ensures r.Ok? && editing.Some? ==> r.value == UpdateMagazine(editing.value.id, Validate(f).value)
  {
    match Validate(f)
    case Err(e) => Err(e)
    case Ok(row) => if editing.None? then Ok(InsertMagazine(row)) else Ok(UpdateMagazine(editing.value.id, row))
  }

  /** The modal's state: the form and the cover preview. */
  class MagazineFormModal {
    var form: MagazineFormData
    var previewImage: string

    /** The preview always shows the cover of a fully chosen month, year and language. */
    predicate Valid()
      reads this
    {
      PreviewReady(form) ==> previewImage == CoverImagePath(form.month, form.year, form.language)
    }

    /** Opening the modal: the defaults, or the edited magazine's values; then the
      preview effect runs on the resulting form. */
    constructor (currentYear: nat, editing: Option<Magazine>)
      ensures editing.None? ==> form == DefaultForm(currentYear)
      ensures editing.Some? ==> form == FormFromMagazine(editing.value)
      ensures previewImage == PreviewImage(form, "")
      ensures Valid()
    {
      form := if editing.Some? then FormFromMagazine(editing.value) else DefaultForm(currentYear);
      previewImage := "";
      new;
      previewImage := PreviewImage(form, previewImage);
    }

    /** An input change, followed by the preview effect, which only has work to do when
      month, year or language changed. */
    method Change(input: Input)
      requires Valid()
      modifies this
      ensures form == Changed(old(form), input)
      ensures previewImage == PreviewImage(form, old(previewImage))
      ensures form.month == old(form).month && form.year == old(form).year && form.language == old(form).language
              ==> previewImage == old(previewImage)
      ensures Valid()
    {
      form := Changed(form, input);
      previewImage := PreviewImage(form, previewImage);
    }
  }
}

=== FILE: magazine_management.dfy ===
/** The admin list of magazines: the cover-image path scheme, the search box, the
    status toggle, the local download counter and the dashboard totals. */
module MagazineAdmin {
  import opened Text
  import Seqs

  /** A row of `magazines`; `year` is stored as text. */
  datatype Magazine = Magazine(
    id: int,
    title: string,
    description: Option<string>,
    month: string,
    year: string,
    language: string,
    googleDriveLink: string,
    previewLink: Option<string>,
    fileSize: Option<string>,
    downloadCount: Option<int>,
    isActive: Option<bool>)

  const CoverDirectory := "/assets/magazines/"

  /** `generateCoverImagePath`: the lower-cased month, the year and the lower-cased
      language run together under the magazine directory, as a `.png`. */
  function CoverImagePath(month: string, year: string, language: string): (p: string)
    ensures |p| == |CoverDirectory| + |month| + |year| + |language| + 4
    ensures p[..|CoverDirectory|] == CoverDirectory && p[|p| - 4..] == ".png"
  {
    CoverDirectory + Lower(month) + year + Lower(language) + ".png"
  }

  lemma {:induction false} LowerIdempotent(s: string)
    ensures Lower(Lower(s)) == Lower(s)
  {
    assert forall i :: 0 <= i < |s| ==> LowerChar(LowerChar(s[i])) == LowerChar(s[i]);
  }

  /** The path does not depend on the case of the month or the language. */
  lemma CoverIgnoresCase(month: string, year: string, language: string)
    ensures CoverImagePath(Lower(month), year, Lower(language)) == CoverImagePath(month, year, language)
  {
    LowerIdempotent(month);
    LowerIdempotent(language);
  }

  predicate NoDigits(s: string) {
    forall i :: 0 <= i < |s| ==> !IsDigit(s[i])
  }

  predicate AllDigits(s: string) {
    forall i :: 0 <= i < |s| ==> IsDigit(s[i])
  }

  /** Lower-casing adds no digits. */
  lemma LowerNoDigits(s: string)
    requires NoDigits(s)
    ensures NoDigits(Lower(s))
  {
  }

  /** A text made of digit-free, digit-only and digit-free parts splits back into them. */
  lemma {:induction false} SplitAtDigits(a: string, y: string, b: string, a2: string, y2: string, b2: string)
    requires NoDigits(a) && NoDigits(b) && NoDigits(a2) && NoDigits(b2)
    requires y != "" && y2 != "" && AllDigits(y) && AllDigits(y2)
    requires a + y + b == a2 + y2 + b2
    ensures a == a2 && y == y2 && b == b2
  {
    var s := a + y + b;
    assert forall i :: 0 <= i < |a| ==> !IsDigit(s[i]);
    assert forall i :: 0 <= i < |a2| ==> !IsDigit(s[i]) by {
      assert s == a2 + y2 + b2;
    }
    assert IsDigit(s[|a|]);
    assert IsDigit((a2 + y2 + b2)[|a2|]);
    assert |a| == |a2|;
    assert a == s[..|a|] == a2;
    var t := y + b;
    assert s == a + t;
    assert t == y2 + b2 by {
      assert s[|a|..] == t;
      assert (a2 + (y2 + b2))[|a2|..] == y2 + b2;
    }
    DigitPrefixOfDigits(y, b);
    DigitPrefixOfDigits(y2, b2);
    assert y == t[..|y|] == y2;
    assert b == t[|y|..] == b2;
  }

  /** Texts with the same prefix and suffix around them are equal when the whole is. */
  lemma SameAffixes(d: string, c1: string, c2: string, e: string)
    requires d + c1 + e == d + c2 + e
    ensures c1 == c2
  {
    var w := d + c1 + e;
    assert c1 == w[|d|..|w| - |e|];
    assert c2 == (d + c2 + e)[|d|..|w| - |e|];
  }

  lemma Regroup(d: string, a: string, y: string, b: string, e: string)
    ensures d + a + y + b + e == d + (a + y + b) + e
  {
  }

  /** Equal paths have equal parts between the directory and the extension. */
  lemma SameCoverCore(m1: string, y1: string, l1: string, m2: string, y2: string, l2: string)
    requires CoverImagePath(m1, y1, l1) == CoverImagePath(m2, y2, l2)
    ensures Lower(m1) + y1 + Lower(l1) == Lower(m2) + y2 + Lower(l2)
  {
    Regroup(CoverDirectory, Lower(m1), y1, Lower(l1), ".png");
    Regroup(CoverDirectory, Lower(m2), y2, Lower(l2), ".png");
    SameAffixes(CoverDirectory, Lower(m1) + y1 + Lower(l1), Lower(m2) + y2 + Lower(l2), ".png");
  }

  /** Well-formed covers never collide: for months and languages without digits and
      non-empty all-digit years, equal paths mean the same month and language (up to
      case) and the same year. */
  lemma CoverPathsDistinct(m1: string, y1: string, l1: string, m2: string, y2: string, l2: string)
    requires NoDigits(m1) && NoDigits(l1) && NoDigits(m2) && NoDigits(l2)
    requires y1 != "" && y2 != "" && AllDigits(y1) && AllDigits(y2)
    requires CoverImagePath(m1, y1, l1) == CoverImagePath(m2, y2, l2)
    ensures Lower(m1) == Lower(m2) && y1 == y2 && Lower(l1) == Lower(l2)
  {
    SameCoverCore(m1, y1, l1, m2, y2, l2);
    LowerNoDigits(m1);
    LowerNoDigits(m2);
    LowerNoDigits(l1);
    LowerNoDigits(l2);
    SplitAtDigits(Lower(m1), y1, Lower(l1), Lower(m2), y2, Lower(l2));
  }

  /** The search box: an empty term shows every magazine; otherwise title, month and
      language match ignoring case, and the year matches as typed. */
  predicate MagazineMatches(m: Magazine, term: string) {
    || ContainsIgnoreCase(m.title, term)
    || ContainsIgnoreCase(m.month, term)
    || Contains(m.year, term)
    || ContainsIgnoreCase(m.language, term)
  }

  function Search(magazines: seq<Magazine>, term: string): (r: seq<Magazine>)
    ensures term == "" ==> r == magazines
    ensures Seqs.IsSubsequence(r, magazines)
    ensures forall i :: 0 <= i < |r| ==> MagazineMatches(r[i], term)
    ensures forall i :: 0 <= i < |magazines| && MagazineMatches(magazines[i], term) ==> magazines[i] in r
    ensures term != "" ==> r == Seqs.Filter(magazines, m => MagazineMatches(m, term))
  {
    if term == "" then
      Seqs.SubsequenceRefl(magazines);
      assert forall i :: 0 <= i < |magazines| ==> MagazineMatches(magazines[i], term) by {
        forall i | 0 <= i < |magazines| ensures MagazineMatches(magazines[i], term) {
          ContainsEmpty(magazines[i].year);
        }
      }
      magazines
    else
      Seqs.FilterIsSubsequence(magazines, m => MagazineMatches(m, term));
      Seqs.Filter(magazines, m => MagazineMatches(m, term))
  }

  /** `magazine.is_active` as a condition: a missing flag is false. */
  predicate Active(m: Magazine) {
    m.isActive == Some(true)
  }

  /** The write `toggleStatus` issues. */
  datatype StatusWrite = StatusWrite(id: int, isActive: bool)

  function ToggleStatus(m: Magazine): (w: StatusWrite)
    ensures w.id == m.id && w.isActive == !Active(m)
  {
    StatusWrite(m.id, !Active(m))
  }

  /** The stored list after a status write to the rows with that id. */
  function ApplyStatus(magazines: seq<Magazine>, w: StatusWrite): (r: seq<Magazine>)
    ensures |r| == |magazines|
    ensures forall i :: 0 <= i < |r| ==>
              r[i] == (if magazines[i].id == w.id then magazines[i].(isActive := Some(w.isActive)) else magazines[i])
  {
    Seqs.Map(magazines, (m: Magazine) => if m.id == w.id then m.(isActive := Some(w.isActive)) else m)
  }

  /** A toggle flips the magazine it was issued for, and toggling the updated row
      again restores the original status. */
  lemma ToggleFlips(magazines: seq<Magazine>, i: int)
    requires 0 <= i < |magazines|
    ensures var r := ApplyStatus(magazines, ToggleStatus(magazines[i]));
      && Active(r[i]) == !Active(magazines[i])
      && (forall j :: 0 <= j < |magazines| && magazines[j].id != magazines[i].id ==> r[j] == magazines[j])
      && Active(ApplyStatus(r, ToggleStatus(r[i]))[i]) == Active(magazines[i])
  {
  }

  /** `download_count || 0`. */
  function Downloads(m: Magazine): int {
    m.downloadCount.GetOr(0)
  }

  /** The "Total Downloads" figure. */
  function TotalDownloads(magazines: seq<Magazine>): int {
    Seqs.Sum(magazines, Downloads)
  }

  /** The "Active Magazines" figure. */
  function ActiveCount(magazines: seq<Magazine>): (n: nat)
    ensures n <= |magazines|
  {
    Seqs.Count(magazines, Active)
  }

  function IdTest(id: int): Magazine -> bool {
    (m: Magazine) => m.id == id
  }

  /** The local update after a download: the rows with that id count one more
      download (a missing count being 0); every other row is unchanged. */
  function RecordDownload(magazines: seq<Magazine>, id: int): (r: seq<Magazine>)
    ensures |r| == |magazines|
    ensures forall i :: 0 <= i < |r| && magazines[i].id == id ==>
              r[i] == magazines[i].(downloadCount := Some(Downloads(magazines[i]) + 1))
    ensures forall i :: 0 <= i < |r| && magazines[i].id != id ==> r[i] == magazines[i]
  {
    Seqs.Map(magazines, (m: Magazine) => if m.id == id then m.(downloadCount := Some(Downloads(m) + 1)) else m)
  }

  /** A download raises the total by the number of rows with that id (by one for a
      unique id) and leaves the active count as it was. */
  lemma {:induction false} DownloadRaisesTotal(magazines: seq<Magazine>, id: int)
    ensures TotalDownloads(RecordDownload(magazines, id)) == TotalDownloads(magazines) + Seqs.Count(magazines, IdTest(id))
    ensures ActiveCount(RecordDownload(magazines, id)) == ActiveCount(magazines)
  {
    if magazines != [] {
      var r := RecordDownload(magazines, id);
      assert r[1..] == RecordDownload(magazines[1..], id);
      DownloadRaisesTotal(magazines[1..], id);
      assert Active(r[0]) == Active(magazines[0]);
    }
  }

  /** The list the page keeps. */
  class MagazineList {
    var magazines: seq<Magazine>

    constructor (loaded: seq<Magazine>)
      ensures magazines == loaded
    {
      magazines := loaded;
    }

    /** `handleDownload`: the drive link is opened in every case; the local counter is
      raised only when tracking did not throw (`tracked`). */
    method HandleDownload(m: Magazine, tracked: bool) returns (link: string)
      modifies this
      ensures link == m.googleDriveLink
      ensures tracked ==> magazines == RecordDownload(old(magazines), m.id)
      ensures !tracked ==> magazines == old(magazines)
    {
      if tracked {
        magazines := RecordDownload(magazines, m.id);
      }
      link := m.googleDriveLink;
    }
  }
}

=== FILE: magazine_page.dfy ===
/** The public magazine page: the month choices, the magazines shown for a choice,
    the English/Hindi pairs of the desktop layout, and the sign-in gate on preview
    and download. */
module MagazinePage {
  import opened Text
  import Seqs
  import opened MagazineAdmin

  /** `${month} ${year}`. */
  function MonthLabel(m: Magazine): string {
    m.month + " " + m.year
  }

  /** The position of the first occurrence of `x` in `s`. */
  function FirstIndex(s: seq<string>, x: string): (k: nat)
    requires x in s
    ensures k < |s| && s[k] == x && forall j :: 0 <= j < k ==> s[j] != x
  {
    if s[0] == x then 0 else 1 + FirstIndex(s[1..], x)
  }

  /** A position holding `x` with no `x` before it is the first occurrence. */
  lemma {:induction false} FirstIndexUnique(s: seq<string>, x: string, k: nat)
    requires k < |s| && s[k] == x && forall j :: 0 <= j < k ==> s[j] != x
    ensures FirstIndex(s, x) == k
  {
    if k > 0 {
      FirstIndexUnique(s[1..], x, k - 1);
    }
  }

  /** `[...new Set(s)]`: each value once, kept where it first occurs. */
  function Distinct(s: seq<string>): (r: seq<string>)
    ensures Seqs.NoDuplicates(r)
    ensures forall x :: x in r <==> x in s
  {
    if s == [] then []
    else
      var r := Distinct(s[..|s| - 1]);
      assert forall x :: x in s <==> x in s[..|s| - 1] || x == s[|s| - 1] by {
        assert s == s[..|s| - 1] + [s[|s| - 1]];
      }
      if s[|s| - 1] in r then r else r + [s[|s| - 1]]
  }

  /** The values come in the order of their first occurrences. */
  lemma {:induction false} DistinctInFirstOccurrenceOrder(s: seq<string>)
    ensures forall i, j :: 0 <= i < j < |Distinct(s)| ==> FirstIndex(s, Distinct(s)[i]) < FirstIndex(s, Distinct(s)[j])
  {
    if s != [] {
      var p, x := s[..|s| - 1], s[|s| - 1];
      assert s == p + [x];
      DistinctInFirstOccurrenceOrder(p);
      var r, rp := Distinct(s), Distinct(p);
      forall y | y in p
        ensures FirstIndex(s, y) == FirstIndex(p, y)
      {
        FirstIndexUnique(s, y, FirstIndex(p, y));
      }
      if x !in p {
        FirstIndexUnique(s, x, |p|);
        assert r == rp + [x];
      }
    }
  }

  /** The month choices: the distinct labels of the magazines, in first-occurrence order. */
  function AvailableMonths(magazines: seq<Magazine>): (r: seq<string>)
    ensures Seqs.NoDuplicates(r)
    ensures forall i :: 0 <= i < |magazines| ==> MonthLabel(magazines[i]) in r
    ensures forall x :: x in r ==> exists i :: 0 <= i < |magazines| && MonthLabel(magazines[i]) == x
    ensures forall x :: x in r <==> x in Seqs.Map(magazines, MonthLabel)
    ensures forall i, j :: 0 <= i < j < |r| ==>
              FirstIndex(Seqs.Map(magazines, MonthLabel), r[i]) < FirstIndex(Seqs.Map(magazines, MonthLabel), r[j])
  {
    var labels := Seqs.Map(magazines, MonthLabel);
    DistinctInFirstOccurrenceOrder(labels);
    Distinct(labels)
  }

  /** The magazines shown: those of the chosen month, in order; with no choice, the
      first two. */
  function Shown(all: seq<Magazine>, selectedMonth: string): (r: seq<Magazine>)
    ensures selectedMonth != "" ==> Seqs.IsSubsequence(r, all)
    ensures selectedMonth != "" ==> forall i :: 0 <= i < |r| ==> MonthLabel(r[i]) == selectedMonth
    ensures selectedMonth != "" ==> forall i :: 0 <= i < |all| && MonthLabel(all[i]) == selectedMonth ==> all[i] in r
    ensures selectedMonth != "" ==> r == Seqs.Filter(all, (m: Magazine) => MonthLabel(m) == selectedMonth)
    ensures selectedMonth == "" ==> |r| == (if |all| < 2 then |all| else 2) && r == all[..|r|]
  {
    if selectedMonth != "" then
      Seqs.FilterIsSubsequence(all, (m: Magazine) => MonthLabel(m) == selectedMonth);
      Seqs.Filter(all, (m: Magazine) => MonthLabel(m) == selectedMonth)
    else all[..if |all| < 2 then |all| else 2]
  }

  // ---------------------------------------------------------------- pairs

  /** `all.find(...)`: the first magazine in the given language of that month and year. */
  function FindEdition(all: seq<Magazine>, language: string, month: string, year: string): (r: Option<Magazine>)
    ensures r.Some? ==> r.value in all && r.value.language == language && r.value.month == month && r.value.year == year
    ensures r.None? ==> forall i :: 0 <= i < |all| ==> !(all[i].language == language && all[i].month == month && all[i].year == year)
  {
    if all == [] then None
    else if all[0].language == language && all[0].month == month && all[0].year == year then Some(all[0])
    else FindEdition(all[1..], language, month, year)
  }

  datatype Group = Group(english: Magazine, hindi: Magazine)

  /** The month and year have both an English and a Hindi edition. */
  predicate HasBoth(all: seq<Magazine>, month: string, year: string) {
    FindEdition(all, "English", month, year).Some? && FindEdition(all, "Hindi", month, year).Some?
  }

  /** The pair is the first English and the first Hindi edition of its month and year. */
  predicate IsPairOf(all: seq<Magazine>, g: Group) {
    && FindEdition(all, "English", g.english.month, g.english.year) == Some(g.english)
    && FindEdition(all, "Hindi", g.english.month, g.english.year) == Some(g.hindi)
  }

  /** `groups.find(g => ...)`: some pair already has that month and year. */
  predicate HasGroupFor(groups: seq<Group>, month: string, year: string) {
    exists j :: 0 <= j < |groups| && groups[j].english.month == month && groups[j].english.year == year
  }

  /** The month and year of some entry at an even position below `bound`. */
  predicate SeededBelow(all: seq<Magazine>, g: Group, bound: int) {
    exists k :: 0 <= k < bound && k < |all| && k % 2 == 0 && all[k].month == g.english.month && all[k].year == g.english.year
  }

  /** What the pairs built from the entries below `i` satisfy: each is a first
      English and first Hindi edition of a month proposed at an even position below
      `i`, no month has two pairs, and every proposed month with both editions has one. */
  predicate GroupsInvariant(all: seq<Magazine>, groups: seq<Group>, i: int) {
    && (forall j :: 0 <= j < |groups| ==> IsPairOf(all, groups[j]) && SeededBelow(all, groups[j], i))
    && (forall j1, j2 :: 0 <= j1 < j2 < |groups| ==>
          !(groups[j1].english.month == groups[j2].english.month && groups[j1].english.year == groups[j2].english.year))
    && (forall k :: 0 <= k < i && k < |all| && k % 2 == 0 && HasBoth(all, all[k].month, all[k].year) ==>
          HasGroupFor(groups, all[k].month, all[k].year))
  }

  /** The `groupedMagazines` loop: every second entry, from the first, proposes its
      month and year; a pair is added when that month has both editions and no pair yet.
      Every pair is the first English and first Hindi edition of a month proposed at an
      even position, no month appears twice, and every proposed month with both
      editions gets a pair. */
  method GroupMagazines(all: seq<Magazine>) returns (groups: seq<Group>)
    ensures forall j :: 0 <= j < |groups| ==> IsPairOf(all, groups[j]) && SeededBelow(all, groups[j], |all|)
    ensures forall j :: 0 <= j < |groups| ==>
              groups[j].english.language == "English" && groups[j].hindi.language == "Hindi"
              && groups[j].hindi.month == groups[j].english.month && groups[j].hindi.year == groups[j].english.year
    ensures forall j1, j2 :: 0 <= j1 < j2 < |groups| ==>
              !(groups[j1].english.month == groups[j2].english.month && groups[j1].english.year == groups[j2].english.year)
    ensures forall k :: 0 <= k < |all| && k % 2 == 0 && HasBoth(all, all[k].month, all[k].year) ==>
              HasGroupFor(groups, all[k].month, all[k].year)
  {
    groups := [];
    var i := 0;
    while i < |all|
      invariant 0 <= i <= |all| + 1 && i % 2 == 0
      invariant GroupsInvariant(all, groups, i)
    {
      var seed := all[i];
      var english := FindEdition(all, "English", seed.month, seed.year);
      var hindi := FindEdition(all, "Hindi", seed.month, seed.year);
      StepKeepsInvariant(all, groups, i);
      if english.Some? && hindi.Some? && !HasGroupFor(groups, english.value.month, english.value.year) {
        groups := groups + [Group(english.value, hindi.value)];
      }
      i := i + 2;
    }
    GroupsComplete(all, groups, i);
  }

  /** One turn of the loop keeps the invariant, whether it adds a pair or not. */
  lemma StepKeepsInvariant(all: seq<Magazine>, groups: seq<Group>, i: int)
    requires 0 <= i < |all| && i % 2 == 0 && GroupsInvariant(all, groups, i)
    ensures var english := FindEdition(all, "English", all[i].month, all[i].year);
            var hindi := FindEdition(all, "Hindi", all[i].month, all[i].year);
            if english.Some? && hindi.Some? && !HasGroupFor(groups, english.value.month, english.value.year)
            then GroupsInvariant(all, groups + [Group(english.value, hindi.value)], i + 2)
            else GroupsInvariant(all, groups, i + 2)
  {
    var english := FindEdition(all, "English", all[i].month, all[i].year);
    var hindi := FindEdition(all, "Hindi", all[i].month, all[i].year);
    if english.Some? && hindi.Some? && !HasGroupFor(groups, english.value.month, english.value.year) {
      StepAdds(all, groups, i, Group(english.value, hindi.value));
    } else {
      StepSkips(all, groups, i);
    }
  }

  /** A turn that adds the pair of the month proposed at `i` keeps the invariant. */
  lemma StepAdds(all: seq<Magazine>, groups: seq<Group>, i: int, g: Group)
    requires 0 <= i < |all| && i % 2 == 0 && GroupsInvariant(all, groups, i)
    requires FindEdition(all, "English", all[i].month, all[i].year) == Some(g.english)
    requires FindEdition(all, "Hindi", all[i].month, all[i].year) == Some(g.hindi)
    requires !HasGroupFor(groups, g.english.month, g.english.year)
    ensures GroupsInvariant(all, groups + [g], i + 2)
  {
    var gs := groups + [g];
    FoundEditionMonth(all, all[i].month, all[i].year, g.english);
    assert SeededBelow(all, g, i + 2) by {
      assert all[i].month == g.english.month && all[i].year == g.english.year;
    }
    ExtendGroups(all, groups, g, i);
    forall j | 0 <= j < |gs| ensures IsPairOf(all, gs[j]) {
      if j < |groups| {
        assert gs[j] == groups[j];
      }
    }
    forall k | 0 <= k < i + 2 && k < |all| && k % 2 == 0 && HasBoth(all, all[k].month, all[k].year)
      ensures HasGroupFor(gs, all[k].month, all[k].year)
    {
      if k < i {
        assert HasGroupFor(groups, all[k].month, all[k].year);
      } else {
        NextEven(i, k);
        assert all[k].month == g.english.month && all[k].year == g.english.year;
      }
    }
    forall j1, j2 | 0 <= j1 < j2 < |gs|
      ensures !(gs[j1].english.month == gs[j2].english.month && gs[j1].english.year == gs[j2].english.year)
    {
      assert gs[j1] == groups[j1];
      if j2 == |groups| {
        assert !(groups[j1].english.month == g.english.month && groups[j1].english.year == g.english.year);
      } else {
        assert gs[j2] == groups[j2];
      }
    }
  }

  /** Between two consecutive even positions there is no other even one. */
  lemma NextEven(i: int, k: int)
    requires i % 2 == 0 && k % 2 == 0 && i <= k < i + 2
    ensures k == i
  {
  }

  /** An edition found for a month and year has that month and year. */
  lemma FoundEditionMonth(all: seq<Magazine>, month: string, year: string, e: Magazine)
    requires FindEdition(all, "English", month, year) == Some(e)
    ensures e.month == month && e.year == year
  {
  }

  /** A turn that adds nothing keeps the invariant: its month lacks an edition or
      already has a pair. */
  lemma StepSkips(all: seq<Magazine>, groups: seq<Group>, i: int)
    requires 0 <= i < |all| && i % 2 == 0 && GroupsInvariant(all, groups, i)
    requires HasBoth(all, all[i].month, all[i].year) ==> HasGroupFor(groups, all[i].month, all[i].year)
    ensures GroupsInvariant(all, groups, i + 2)
  {
    forall j | 0 <= j < |groups| ensures SeededBelow(all, groups[j], i + 2) {
      SeededWider(all, groups[j], i, i + 2);
    }
  }

  lemma SeededWider(all: seq<Magazine>, g: Group, bound: int, wider: int)
    requires SeededBelow(all, g, bound) && (bound <= wider || |all| <= wider)
    ensures SeededBelow(all, g, wider)
  {
  }

  /** At the end of the loop the invariant gives the method's promises. */
  lemma GroupsComplete(all: seq<Magazine>, groups: seq<Group>, i: int)
    requires |all| <= i && GroupsInvariant(all, groups, i)
    ensures forall j :: 0 <= j < |groups| ==> IsPairOf(all, groups[j]) && SeededBelow(all, groups[j], |all|)
    ensures forall j :: 0 <= j < |groups| ==>
              groups[j].english.language == "English" && groups[j].hindi.language == "Hindi"
              && groups[j].hindi.month == groups[j].english.month && groups[j].hindi.year == groups[j].english.year
    ensures forall k :: 0 <= k < |all| && k % 2 == 0 && HasBoth(all, all[k].month, all[k].year) ==>
              HasGroupFor(groups, all[k].month, all[k].year)
  {
    forall j | 0 <= j < |groups|
      ensures groups[j].english.language == "English" && groups[j].hindi.language == "Hindi"
      ensures groups[j].hindi.month == groups[j].english.month && groups[j].hindi.year == groups[j].english.year
      ensures SeededBelow(all, groups[j], |all|)
    {
      assert IsPairOf(all, groups[j]) && SeededBelow(all, groups[j], i);
      SeededWider(all, groups[j], i, |all|);
    }
  }

  /** Adding a pair for a month without one keeps the loop's facts about the earlier pairs. */
  lemma ExtendGroups(all: seq<Magazine>, groups: seq<Group>, g: Group, i: int)
    requires !HasGroupFor(groups, g.english.month, g.english.year)
    requires forall j :: 0 <= j < |groups| ==> SeededBelow(all, groups[j], i)
    ensures forall j :: 0 <= j < |groups| ==> SeededBelow(all, (groups + [g])[j], i + 2)
    ensures forall m, y :: HasGroupFor(groups, m, y) ==> HasGroupFor(groups + [g], m, y)
    ensures HasGroupFor(groups + [g], g.english.month, g.english.year)
  {
    var gs := groups + [g];
    forall j | 0 <= j < |groups| ensures SeededBelow(all, gs[j], i + 2) {
      assert gs[j] == groups[j];
      SeededWider(all, groups[j], i, i + 2);
    }
    forall m, y | HasGroupFor(groups, m, y) ensures HasGroupFor(gs, m, y) {
      var j :| 0 <= j < |groups| && groups[j].english.month == m && groups[j].english.year == y;
      assert gs[j] == groups[j];
    }
    assert gs[|groups|] == g;
  }

  // ---------------------------------------------------------------- page state

  /** The page: the signed-in user, the loaded magazines, the chosen month and the
      preview dialog. */
  class MagazineView {
    const user: Option<string>
    const all: seq<Magazine>
    var selectedMonth: string
    var selectedMagazine: Option<Magazine>
    var showPreviewModal: bool

    constructor (u: Option<string>, loaded: seq<Magazine>)
      ensures user == u && all == loaded && selectedMonth == ""
      ensures selectedMagazine == None && !showPreviewModal
    {
      user := u;
      all := loaded;
      selectedMonth := "";
      selectedMagazine := None;
      showPreviewModal := false;
    }

    /** The magazines on screen. */
    function Displayed(): seq<Magazine>
      reads this
    {
      Shown(all, selectedMonth)
    }

    method SelectMonth(month: string)
      modifies this
      ensures selectedMonth == month && Displayed() == Shown(all, month)
      ensures selectedMagazine == old(selectedMagazine) && showPreviewModal == old(showPreviewModal)
    {
      selectedMonth := month;
    }

    /** `handlePreview`: refused without a signed-in user; otherwise opens the dialog
      on the magazine. */
    method HandlePreview(m: Magazine)
      modifies this
      ensures user.None? ==> selectedMagazine == old(selectedMagazine) && showPreviewModal == old(showPreviewModal)
      ensures user.Some? ==> selectedMagazine == Some(m) && showPreviewModal
      ensures selectedMonth == old(selectedMonth)
    {
      if user.Some? {
        selectedMagazine := Some(m);
        showPreviewModal := true;
      }
    }

    /** `handleDownload`: refused without a signed-in user; otherwise the Drive link
      is opened. */
    method HandleDownload(m: Magazine) returns (link: Option<string>)
      ensures link.Some? <==> user.Some?
      ensures link.Some? ==> link.value == m.googleDriveLink
    {
      link := if user.Some? then Some(m.googleDriveLink) else None;
    }
  }
}

=== FILE: pdf_form.dfy ===
/** The PDF editor: its defaults, the form filled from an edited PDF, the topic
    option labels, and the checks and normalisation of the saved row. */
module PdfForm {
  import opened Text
  import opened PdfAdmin

  datatype PdfFormData = PdfFormData(
    title: string,
    description: string,
    topic: string,
    googleDriveLink: string,
    previewLink: string,
    fileSize: string,
    isActive: bool)

  /** A new PDF: topic `quants`, active, everything else empty. */
  function DefaultForm(): (f: PdfFormData)
    ensures f.topic == "quants" && f.topic == Topics[0] && f.isActive
    ensures f.title == "" && f.description == "" && f.googleDriveLink == "" && f.previewLink == "" && f.fileSize == ""
  {
    PdfFormData("", "", "quants", "", "", "", true)
  }

  /** The form for an edited PDF: missing texts become empty, a missing or empty topic
      becomes `quants`, and a missing `is_active` counts as active. */
  function FormFromPdf(p: Pdf): (f: PdfFormData)
    ensures f.topic != "" && (p.topic != "" ==> f.topic == p.topic)
    ensures p.isActive.None? ==> f.isActive
    ensures p.isActive.Some? ==> f.isActive == p.isActive.value
    ensures p.description.None? ==> f.description == ""
    ensures p.previewLink.None? ==> f.previewLink == ""
    ensures p.fileSize.None? ==> f.fileSize == ""
    ensures f.title == p.title && f.googleDriveLink == p.googleDriveLink
    ensures p.description.Some? ==> f.description == p.description.value
    ensures p.previewLink.Some? ==> f.previewLink == p.previewLink.value
    ensures p.fileSize.Some? ==> f.fileSize == p.fileSize.value
  {
    PdfFormData(p.title, p.description.GetOr(""), if p.topic == "" then "quants" else p.topic,
                p.googleDriveLink, p.previewLink.GetOr(""), p.fileSize.GetOr(""), p.isActive.GetOr(true))
  }

  /** The inputs: the text fields, and the `is_active` checkbox. */
  datatype TextField = Title | Description | Topic | DriveLink | PreviewLink | FileSize
  datatype Input = TextInput(field: TextField, value: string) | ActiveBox(checked: bool)

  /** `handleChange`: a text input stores its value in its field, the checkbox its
      checked state; nothing else changes. */
  function Changed(f: PdfFormData, input: Input): (g: PdfFormData)
    ensures input.ActiveBox? ==> g == f.(isActive := input.checked)
    ensures input.TextInput? && input.field == Title ==> g == f.(title := input.value)
    ensures input.TextInput? && input.field == Description ==> g == f.(description := input.value)
    ensures input.TextInput? && input.field == Topic ==> g == f.(topic := input.value)
    ensures input.TextInput? && input.field == DriveLink ==> g == f.(googleDriveLink := input.value)
    ensures input.TextInput? && input.field == PreviewLink ==> g == f.(previewLink := input.value)
    ensures input.TextInput? && input.field == FileSize ==> g == f.(fileSize := input.value)
  {
    match input
    case ActiveBox(c) => f.(isActive := c)
    case TextInput(k, v) =>
      match k
      case Title => f.(title := v)
      case Description => f.(description := v)
      case Topic => f.(topic := v)
      case DriveLink => f.(googleDriveLink := v)
      case PreviewLink => f.(previewLink := v)
      case FileSize => f.(fileSize := v)
  }

  /** The label of a topic option: the first `_` becomes a space, then the first
      character is upper-cased. */
  function OptionLabel(topic: string): (r: string)
    ensures |r| == |topic|
    ensures topic != "" ==> r[0] == UpperChar(TopicBadge(topic)[0]) && r[1..] == TopicBadge(topic)[1..]
    ensures '_' !in topic && topic != "" ==> r[0] == UpperChar(topic[0]) && r[1..] == topic[1..]
  {
    Capitalize(TopicBadge(topic))
  }

  /** A code `a_b` whose non-empty first part has no underscore is offered as `a b`
      with its first letter upper-cased. */
  lemma OptionLabelOfCode(a: string, b: string)
    requires '_' !in a && a != ""
    ensures OptionLabel(a + "_" + b) == [UpperChar(a[0])] + a[1..] + " " + b
  {
    BadgeOfCode(a, b);
    assert (a + " " + b)[0] == a[0] && (a + " " + b)[1..] == a[1..] + " " + b;
  }

  /** `general_awareness` is offered as `General awareness`. */
  lemma GeneralAwarenessLabel(topic: string)
    requires topic == Topics[3]
    ensures OptionLabel(topic) == "General awareness"
  {
    GeneralAwarenessBadge(topic);
    CapitalizedText(TopicBadge(topic));
  }

  lemma CapitalizedText(s: string)
    requires s == "general awareness"
    ensures Capitalize(s) == "General awareness"
  {
    assert s == "g" + "eneral awareness";
    assert UpperChar('g') == 'G';
  }

  const TopicImageDirectory := "/assets/topics/"

  /** The topic picture shown beside the select: the topic code under the topic
      directory, as a `.png`. */
  function TopicImagePath(topic: string): (p: string)
    ensures |p| == |TopicImageDirectory| + |topic| + 4
    ensures p[..|TopicImageDirectory|] == TopicImageDirectory && p[|p| - 4..] == ".png"
    ensures p[|TopicImageDirectory|..|p| - 4] == topic
  {
    TopicImageDirectory + topic + ".png"
  }

  /** Different topics show different pictures. */
  lemma TopicImagesDistinct(t1: string, t2: string)
    requires TopicImagePath(t1) == TopicImagePath(t2)
    ensures t1 == t2
  {
    var p := TopicImagePath(t1);
    assert t1 == p[|TopicImageDirectory|..|p| - 4];
  }

  datatype PdfError = TitleRequired | TopicRequired | DriveLinkRequired

  /** The `dataToSave` row. */
  datatype PdfRow = PdfRow(
    title: string,
    description: string,
    topic: string,
    googleDriveLink: string,
    previewLink: Option<string>,
    fileSize: Option<string>,
    isActive: bool)

  /** `validateForm` then `dataToSave`: the checks in order (title after trimming,
      topic, Drive link after trimming); on success the texts trimmed, a blank
      description kept as an empty text, and blank preview link and file size null. */
  function Validate(f: PdfFormData): (r: Result<PdfRow, PdfError>)
    ensures r == Err(TitleRequired) <==> IsBlank(f.title)
    ensures r == Err(TopicRequired) <==> !IsBlank(f.title) && f.topic == ""
    ensures r == Err(DriveLinkRequired) <==> !IsBlank(f.title) && f.topic != "" && IsBlank(f.googleDriveLink)
    ensures r.Ok? ==> r.value.title == Trim(f.title) && r.value.title != ""
    ensures r.Ok? ==> r.value.googleDriveLink == Trim(f.googleDriveLink) && r.value.googleDriveLink != ""
    ensures r.Ok? ==> r.value.description == Trim(f.description) && (IsBlank(f.description) ==> r.value.description == "")
    ensures r.Ok? ==> r.value.previewLink == BlankToNull(f.previewLink) && r.value.fileSize == BlankToNull(f.fileSize)
    ensures r.Ok? ==> r.value.topic == f.topic && r.value.isActive == f.isActive
  {
    if IsBlank(f.title) then Err(TitleRequired)
    else if f.topic == "" then Err(TopicRequired)
    else if IsBlank(f.googleDriveLink) then Err(DriveLinkRequired)
    else Ok(PdfRow(Trim(f.title), Trim(f.description), f.topic, Trim(f.googleDriveLink),
                   BlankToNull(f.previewLink), BlankToNull(f.fileSize), f.isActive))
  }

  /** A PDF record holding the fields of a saved row, in the shape the editor loads;
      the model does not say which table such a record is read back from. */
  function StoredPdf(id: string, row: PdfRow, downloads: Option<int>): Pdf
  {
    Pdf(id, row.title, Some(row.description), row.topic, row.googleDriveLink,
        row.previewLink, row.fileSize, downloads, Some(row.isActive))
  }

  /** `Validate` is a fixed point through `FormFromPdf`: a valid form's row, loaded
      into the editor as a record of that row's fields, validates to the same row. */
  lemma SaveEditSave(f: PdfFormData, id: string, downloads: Option<int>)
    requires Validate(f).Ok?
    ensures Validate(FormFromPdf(StoredPdf(id, Validate(f).value, downloads))) == Validate(f)
  {
    TrimNotBlank(f.title);
    TrimNotBlank(f.googleDriveLink);
    TrimIdempotent(f.description);
    BlankToNullAgain(f.previewLink);
    BlankToNullAgain(f.fileSize);
  }

  /** The write the modal issues: an update of the edited PDF or an insert. */
  datatype PdfWrite = InsertPdf(row: PdfRow) | UpdatePdf(id: string, row: PdfRow)

  function SubmitWrite(editing: Option<Pdf>, f: PdfFormData): (r: Result<PdfWrite, PdfError>)
    ensures r.Err? <==> Validate(f).Err?
    ensures r.Err? ==> r.error == Validate(f).error
    ensures r.Ok? && editing.None? ==> r.value == InsertPdf(Validate(f).value)
    ensures r.Ok? && editing.Some? ==> r.value == UpdatePdf(editing.value.id, Validate(f).value)
  {
    match Validate(f)
    case Err(e) => Err(e)
    case Ok(row) => if editing.None? then Ok(InsertPdf(row)) else Ok(UpdatePdf(editing.value.id, row))
  }
}

=== FILE: pdf_management.dfy ===
/** The admin list of PDFs: the search box, the status toggle, the dashboard totals
    and the topic badge. */
module PdfAdmin {
  import opened Text
  import Seqs

  /** A row of the PDF table; ids are uuids. */
  datatype Pdf = Pdf(
    id: string,
    title: string,
    description: Option<string>,
    topic: string,
    googleDriveLink: string,
    previewLink: Option<string>,
    fileSize: Option<string>,
    downloadCount: Option<int>,
    isActive: Option<bool>)

  /** The topic codes the editor offers. */
  const Topics: seq<string> := ["quants", "english", "reasoning", "general_awareness",
                                "prelims", "mains", "po", "clerk", "insurance", "other"]

  /** The search box: title and topic match ignoring case; the description matches
      only when there is one. */
  predicate PdfMatches(p: Pdf, term: string) {
    || ContainsIgnoreCase(p.title, term)
    || (p.description.Some? && ContainsIgnoreCase(p.description.value, term))
    || ContainsIgnoreCase(p.topic, term)
  }

  function Search(pdfs: seq<Pdf>, term: string): (r: seq<Pdf>)
    ensures term == "" ==> r == pdfs
    ensures Seqs.IsSubsequence(r, pdfs)
    ensures forall i :: 0 <= i < |r| ==> PdfMatches(r[i], term)
    ensures forall i :: 0 <= i < |pdfs| && PdfMatches(pdfs[i], term) ==> pdfs[i] in r
    ensures term != "" ==> r == Seqs.Filter(pdfs, p => PdfMatches(p, term))
  {
    if term == "" then
      Seqs.SubsequenceRefl(pdfs);
      assert forall i :: 0 <= i < |pdfs| ==> PdfMatches(pdfs[i], term) by {
        forall i | 0 <= i < |pdfs| ensures PdfMatches(pdfs[i], term) {
          ContainsEmpty(pdfs[i].title);
        }
      }
      pdfs
    else
      Seqs.FilterIsSubsequence(pdfs, p => PdfMatches(p, term));
      Seqs.Filter(pdfs, p => PdfMatches(p, term))
  }

  /** `pdf.is_active` as a condition: a missing flag is false. */
  predicate Active(p: Pdf) {
    p.isActive == Some(true)
  }

  /** The write `toggleStatus` issues. */
  datatype StatusWrite = StatusWrite(id: string, isActive: bool)

  function ToggleStatus(p: Pdf): (w: StatusWrite)
    ensures w.id == p.id && w.isActive == !Active(p)
  {
    StatusWrite(p.id, !Active(p))
  }

  /** The stored list after a status write to the rows with that id. */
  function ApplyStatus(pdfs: seq<Pdf>, w: StatusWrite): (r: seq<Pdf>)
    ensures |r| == |pdfs|
    ensures forall i :: 0 <= i < |r| ==>
              r[i] == (if pdfs[i].id == w.id then pdfs[i].(isActive := Some(w.isActive)) else pdfs[i])
  {
    Seqs.Map(pdfs, (p: Pdf) => if p.id == w.id then p.(isActive := Some(w.isActive)) else p)
  }

  /** A toggle flips the PDF it was issued for, leaves the others, and a second toggle
      restores the original status. */
  lemma ToggleFlips(pdfs: seq<Pdf>, i: int)
    requires 0 <= i < |pdfs|
    ensures var r := ApplyStatus(pdfs, ToggleStatus(pdfs[i]));
      && Active(r[i]) == !Active(pdfs[i])
      && (forall j :: 0 <= j < |pdfs| && pdfs[j].id != pdfs[i].id ==> r[j] == pdfs[j])
      && Active(ApplyStatus(r, ToggleStatus(r[i]))[i]) == Active(pdfs[i])
  {
  }

  /** `download_count || 0`. */
  function Downloads(p: Pdf): int {
    p.downloadCount.GetOr(0)
  }

  /** The "Total Downloads" figure. */
  function TotalDownloads(pdfs: seq<Pdf>): int {
    Seqs.Sum(pdfs, Downloads)
  }

  /** The "Active PDFs" figure. */
  function ActiveCount(pdfs: seq<Pdf>): (n: nat)
    ensures n <= |pdfs|
  {
    Seqs.Count(pdfs, Active)
  }

  /** With no negative counter the total is never negative. */
  lemma TotalDownloadsNonNegative(pdfs: seq<Pdf>)
    requires forall i :: 0 <= i < |pdfs| ==> Downloads(pdfs[i]) >= 0
    ensures TotalDownloads(pdfs) >= 0
  {
    if pdfs != [] {
      TotalDownloadsNonNegative(pdfs[1..]);
    }
  }

  /** The topic badge: only the first `_` becomes a space. */
  function TopicBadge(topic: string): (r: string)
    ensures |r| == |topic|
    ensures '_' !in topic ==> r == topic
    ensures forall k :: 0 <= k < |topic| && topic[k] == '_' && '_' !in topic[..k] ==>
              r == topic[..k] + " " + topic[k + 1..]
  {
    ReplaceFirstSpec(topic, '_', ' ');
    ReplaceFirst(topic, '_', ' ')
  }

  /** A code `a_b` whose first part has no underscore is shown as `a b`, whatever `b`
      holds: a second underscore survives. */
  lemma {:induction false} BadgeOfCode(a: string, b: string)
    requires '_' !in a
    ensures TopicBadge(a + "_" + b) == a + " " + b
  {
    var t := a + "_" + b;
    assert t[..|a|] == a && t[|a|] == '_' && t[|a| + 1..] == b;
  }

  lemma SecondUnderscoreKept()
    ensures TopicBadge("a_b_c") == "a b_c"
  {
    BadgeOfCode("a", "b_c");
  }

  /** The one topic code with an underscore is shown with a space. */
  lemma GeneralAwarenessBadge(topic: string)
    requires topic == Topics[3]
    ensures TopicBadge(topic) == "general awareness"
  {
    var a, b := "general", "awareness";
    CodeParts(topic, a, b);
    BadgeOfCode(a, b);
    JoinedWithSpace(a, b);
  }

  lemma CodeParts(topic: string, a: string, b: string)
    requires topic == Topics[3] && a == "general" && b == "awareness"
    ensures topic == a + "_" + b && '_' !in a
  {
  }

  lemma JoinedWithSpace(a: string, b: string)
    requires a == "general" && b == "awareness"
    ensures a + " " + b == "general awareness"
  {
  }
}

=== FILE: pdfs_page.dfy ===
/** The public PDF library: the active PDFs it loads, the topic buttons and search
    box that filter them, and preview and download, both kept for signed-in users. */
module PdfsPage {
  import opened Text
  import Seqs
  import opened PdfAdmin

  /** The topic buttons, in page order. */
  const DisplayTopics: seq<string> := ["All", "Quants", "English", "Reasoning", "General Awareness",
                                       "Prelims", "Mains", "PO", "Clerk", "Insurance", "Other"]

  /** The button label to stored topic code lookup; `All` has no entry. */
  const TopicMapping: map<string, string> := map[
    "Quants" := "quants", "English" := "english", "Reasoning" := "reasoning",
    "General Awareness" := "general_awareness", "Prelims" := "prelims", "Mains" := "mains",
    "PO" := "po", "Clerk" := "clerk", "Insurance" := "insurance", "Other" := "other"]

  /** The code a selected label stands for; a label without an entry has none. */
  function TopicCode(selected: string): (c: Option<string>)
    ensures c.Some? <==> selected in TopicMapping
    ensures c.Some? ==> c.value == TopicMapping[selected]
  {
    if selected in TopicMapping then Some(TopicMapping[selected]) else None
  }

  /** Every button but `All` stands for one of the codes the editor offers, in the
      editor's order, and `All` stands for none. */
  lemma ButtonsMatchEditorTopics()
    ensures |DisplayTopics| == |Topics| + 1 && DisplayTopics[0] == "All"
    ensures TopicCode(DisplayTopics[0]).None?
    ensures forall i :: 1 <= i < |DisplayTopics| ==> TopicCode(DisplayTopics[i]) == Some(Topics[i - 1])
  {
  }

  /** `loadPdfs`: the active rows the backend returned, none after an error or an
      empty answer. */
  function LoadedPdfs(answer: Option<seq<Pdf>>): (r: seq<Pdf>)
    ensures answer.None? ==> r == []
    ensures answer.Some? ==> Seqs.IsSubsequence(r, answer.value)
    ensures forall i :: 0 <= i < |r| ==> Active(r[i])
    ensures answer.Some? ==> forall i :: 0 <= i < |answer.value| && Active(answer.value[i]) ==> answer.value[i] in r
    ensures answer.Some? ==> r == Seqs.Filter(answer.value, Active)
  {
    match answer
    case None => []
    case Some(rows) =>
      Seqs.FilterIsSubsequence(rows, Active);
      Seqs.Filter(rows, Active)
  }

  /** The topic condition: `All` passes everything; otherwise the PDF's topic is the
      selected label's code. */
  predicate TopicShown(p: Pdf, selected: string) {
    selected == "All" || TopicCode(selected) == Some(p.topic)
  }

  /** The search condition: an empty term passes everything; otherwise the title
      contains the term, ignoring case. */
  predicate SearchShown(p: Pdf, term: string) {
    term == "" || ContainsIgnoreCase(p.title, term)
  }

  predicate Shown(p: Pdf, selected: string, term: string) {
    TopicShown(p, selected) && SearchShown(p, term)
  }

  function TopicTest(code: Option<string>): Pdf -> bool {
    (p: Pdf) => code == Some(p.topic)
  }

  function TitleTest(term: string): Pdf -> bool {
    (p: Pdf) => ContainsIgnoreCase(p.title, term)
  }

  function ShownTest(selected: string, term: string): Pdf -> bool {
    (p: Pdf) => Shown(p, selected, term)
  }

  /** `filterPdfs`: first the topic filter unless `All` is selected, then the title
      search when the term is not empty. */
  function FilterPdfs(pdfs: seq<Pdf>, selected: string, term: string): (r: seq<Pdf>)
    ensures forall i :: 0 <= i < |r| ==> r[i] in pdfs && Shown(r[i], selected, term)
    ensures forall i :: 0 <= i < |pdfs| && Shown(pdfs[i], selected, term) ==> pdfs[i] in r
    ensures selected == "All" && term == "" ==> r == pdfs
    ensures selected != "All" && TopicCode(selected).None? ==> r == []
  {
    var byTopic := if selected == "All" then pdfs else Seqs.Filter(pdfs, TopicTest(TopicCode(selected)));
    assert forall x :: x in byTopic ==> x in pdfs && TopicShown(x, selected);
    assert selected != "All" && TopicCode(selected).None? ==> byTopic == [] by {
      if TopicCode(selected).None? {
        Seqs.FilterNone(pdfs, TopicTest(TopicCode(selected)));
      }
    }
    if term == "" then byTopic else Seqs.Filter(byTopic, TitleTest(term))
  }

  /** The two filters in a row are one filter by both conditions, so the shown PDFs
      keep the loaded order. */
  lemma {:induction false} FilterPdfsIsOneFilter(pdfs: seq<Pdf>, selected: string, term: string)
    ensures FilterPdfs(pdfs, selected, term) == Seqs.Filter(pdfs, ShownTest(selected, term))
    ensures Seqs.IsSubsequence(FilterPdfs(pdfs, selected, term), pdfs)
  {
    var shown := ShownTest(selected, term);
    if selected == "All" && term == "" {
      Seqs.FilterAll(pdfs, shown);
    } else if selected == "All" {
      Seqs.FilterSame(pdfs, TitleTest(term), shown);
    } else if term == "" {
      Seqs.FilterSame(pdfs, TopicTest(TopicCode(selected)), shown);
    } else {
      Seqs.FilterFilter(pdfs, TopicTest(TopicCode(selected)), TitleTest(term), shown);
    }
    Seqs.FilterIsSubsequence(pdfs, shown);
  }

  function IdTest(id: string): Pdf -> bool {
    (p: Pdf) => p.id == id
  }

  function CountedDownload(id: string): Pdf -> Pdf {
    (p: Pdf) => if p.id == id then p.(downloadCount := Some(Downloads(p) + 1)) else p
  }

  /** The local update after a download: the rows with that id count one more
      download (a missing count being 0); every other row is unchanged. */
  function RecordDownload(pdfs: seq<Pdf>, id: string): (r: seq<Pdf>)
    ensures |r| == |pdfs|
    ensures forall i :: 0 <= i < |r| && pdfs[i].id == id ==>
              r[i] == pdfs[i].(downloadCount := Some(Downloads(pdfs[i]) + 1))
    ensures forall i :: 0 <= i < |r| && pdfs[i].id != id ==> r[i] == pdfs[i]
  {
    Seqs.Map(pdfs, CountedDownload(id))
  }

  /** A download raises the total by the number of rows with that id. */
  lemma {:induction false} DownloadRaisesTotal(pdfs: seq<Pdf>, id: string)
    ensures TotalDownloads(RecordDownload(pdfs, id)) == TotalDownloads(pdfs) + Seqs.Count(pdfs, IdTest(id))
  {
    if pdfs != [] {
      var r := RecordDownload(pdfs, id);
      assert r[1..] == RecordDownload(pdfs[1..], id);
      DownloadRaisesTotal(pdfs[1..], id);
    }
  }

  /** A download changes no title or topic, so the list on screen is the old one
      with the same download recorded. */
  lemma DownloadKeepsSelection(pdfs: seq<Pdf>, id: string, selected: string, term: string)
    ensures FilterPdfs(RecordDownload(pdfs, id), selected, term) == RecordDownload(FilterPdfs(pdfs, selected, term), id)
  {
    FilterPdfsIsOneFilter(pdfs, selected, term);
    FilterPdfsIsOneFilter(RecordDownload(pdfs, id), selected, term);
    Seqs.FilterMap(pdfs, ShownTest(selected, term), CountedDownload(id));
  }

  /** The page's state; `user` is the signed-in user's id, if any. */
  class PdfsView {
    const user: Option<string>
    var pdfs: seq<Pdf>
    var searchTerm: string
    var selectedTopic: string
    var selectedPdf: Option<Pdf>
    var showPreviewModal: bool

    /** The page after loading: the active PDFs, the `All` topic, an empty search. */
    constructor (user: Option<string>, answer: Option<seq<Pdf>>)
      ensures this.user == user && pdfs == LoadedPdfs(answer)
      ensures searchTerm == "" && selectedTopic == "All"
      ensures selectedPdf.None? && !showPreviewModal
      ensures Displayed() == pdfs
    {
      this.user := user;
      pdfs := LoadedPdfs(answer);
      searchTerm := "";
      selectedTopic := "All";
      selectedPdf := None;
      showPreviewModal := false;
    }

    /** `filteredPdfs`, recomputed whenever the term, the topic or the list change. */
    function Displayed(): seq<Pdf>
      reads this
    {
      FilterPdfs(pdfs, selectedTopic, searchTerm)
    }

    method SelectTopic(topic: string)
      modifies this
      ensures selectedTopic == topic
      ensures pdfs == old(pdfs) && searchTerm == old(searchTerm)
      ensures selectedPdf == old(selectedPdf) && showPreviewModal == old(showPreviewModal)
    {
      selectedTopic := topic;
    }

    method SetSearchTerm(term: string)
      modifies this
      ensures searchTerm == term
      ensures pdfs == old(pdfs) && selectedTopic == old(selectedTopic)
      ensures selectedPdf == old(selectedPdf) && showPreviewModal == old(showPreviewModal)
    {
      searchTerm := term;
    }

    /** `handlePreview`: a guest is refused and nothing changes; a user gets the
        preview of that PDF. */
    method HandlePreview(p: Pdf)
      modifies this
      ensures user.None? ==> selectedPdf == old(selectedPdf) && showPreviewModal == old(showPreviewModal)
      ensures user.Some? ==> selectedPdf == Some(p) && showPreviewModal
      ensures pdfs == old(pdfs) && searchTerm == old(searchTerm) && selectedTopic == old(selectedTopic)
    {
      if user.Some? {
        selectedPdf := Some(p);
        showPreviewModal := true;
      }
    }

    /** `handleDownload`: a guest is refused and nothing changes; a user gets the
        drive link opened, and the local counter is raised only when tracking did not
        throw (`tracked`). */
    method HandleDownload(p: Pdf, tracked: bool) returns (link: Option<string>)
      modifies this
      ensures link.Some? <==> user.Some?
      ensures link.Some? ==> link.value == p.googleDriveLink
      ensures user.Some? && tracked ==> pdfs == RecordDownload(old(pdfs), p.id)
      ensures user.None? || !tracked ==> pdfs == old(pdfs)
      ensures searchTerm == old(searchTerm) && selectedTopic == old(selectedTopic)
      ensures selectedPdf == old(selectedPdf) && showPreviewModal == old(showPreviewModal)
    {
      if user.None? {
        return None;
      }
      if tracked {
        pdfs := RecordDownload(pdfs, p.id);
      }
      link := Some(p.googleDriveLink);
    }
  }
}

=== FILE: request_form.dfy ===
/** The public request form: its initial contents from the signed-in user, field
    edits, the submit check and the record inserted with status `pending`. */
module RequestForm {
  import opened Text
  import RequestReview

  /** The signed-in user's profile fields the form reads (`user?.id`, `user?.full_name`,
      `user?.email`). */
  datatype User = User(id: string, fullName: Option<string>, email: Option<string>)

  datatype RequestFormData = RequestFormData(
    name: string,
    email: string,
    requestType: string,
    subject: string,
    message: string,
    examType: string)

  /** The request types of the selector, in order. */
  const RequestTypes: seq<string> := ["pdf_request", "feedback", "suggestion", "bug_report", "other"]

  /** The form for a user (also the form after a successful submit): name and email
      from the user, empty subject and message, `pdf_request` and `SBI PO`. */
  function InitialForm(user: Option<User>): (f: RequestFormData)
    ensures f.subject == "" && f.message == ""
    ensures f.requestType == "pdf_request" && f.requestType == RequestTypes[0] && f.examType == "SBI PO"
    ensures user.None? ==> f.name == "" && f.email == ""
    ensures user.Some? ==> f.name == user.value.fullName.GetOr("") && f.email == user.value.email.GetOr("")
  {
    if user.None? then RequestFormData("", "", "pdf_request", "", "", "SBI PO")
    else RequestFormData(user.value.fullName.GetOr(""), user.value.email.GetOr(""), "pdf_request", "", "", "SBI PO")
  }

  /** The inputs `handleChange` writes by name. */
  datatype Field = Name | Email | RequestType | Subject | Message | ExamType

  /** `{...prev, [name]: value}`: the named field takes the value, every other is kept. */
  function WithField(f: RequestFormData, k: Field, v: string): (g: RequestFormData)
    ensures k == Name ==> g == f.(name := v)
    ensures k == Email ==> g == f.(email := v)
    ensures k == RequestType ==> g == f.(requestType := v)
    ensures k == Subject ==> g == f.(subject := v)
    ensures k == Message ==> g == f.(message := v)
    ensures k == ExamType ==> g == f.(examType := v)
  {
    match k
    case Name => f.(name := v)
    case Email => f.(email := v)
    case RequestType => f.(requestType := v)
    case Subject => f.(subject := v)
    case Message => f.(message := v)
    case ExamType => f.(examType := v)
  }

  /** The exam selector is shown only for PDF requests. */
  predicate ShowsExamSelector(f: RequestFormData) {
    f.requestType == "pdf_request"
  }

  /** The record inserted into `user_requests`. */
  datatype NewRequest = NewRequest(
    userId: Option<string>,
    name: string,
    email: string,
    requestType: string,
    subject: string,
    message: string,
    examType: string,
    status: string)

  /** The submit check: name, email, subject and message must be non-empty (nothing
      is trimmed). */
  predicate Complete(f: RequestFormData) {
    f.name != "" && f.email != "" && f.subject != "" && f.message != ""
  }

  /** `handleSubmit`'s record: `user_id` is the user's id or null, `exam_type` is sent
      for every request type, and the status is `pending`. */
  function NewRecord(user: Option<User>, f: RequestFormData): (r: Option<NewRequest>)
    ensures r.Some? <==> Complete(f)
    ensures r.Some? ==> r.value.status == "pending"
    ensures r.Some? ==> r.value.examType == f.examType && r.value.requestType == f.requestType
    ensures r.Some? ==> r.value.name == f.name && r.value.email == f.email
    ensures r.Some? ==> r.value.subject == f.subject && r.value.message == f.message
    ensures r.Some? ==> (r.value.userId.Some? <==> user.Some? && user.value.id != "")
    ensures r.Some? && r.value.userId.Some? ==> r.value.userId.value == user.value.id
  {
    if !Complete(f) then None
    else
      var uid := if user.Some? && user.value.id != "" then Some(user.value.id) else None;
      Some(NewRequest(uid, f.name, f.email, f.requestType, f.subject, f.message, f.examType, "pending"))
  }

  /** A new request starts in `pending`, a status for which the review page offers
      no action, so it can never be moved on from there. */
  lemma NewRequestsAreStuck(user: Option<User>, f: RequestFormData, to: string)
    requires Complete(f)
    ensures RequestReview.Actions(NewRecord(user, f).value.status) == []
    ensures !RequestReview.CanMove(NewRecord(user, f).value.status, to)
  {
    RequestReview.Transitions("pending", to);
  }

  /** White space alone passes the check, since nothing is trimmed. */
  lemma BlankFieldsAccepted(user: Option<User>)
    ensures NewRecord(user, RequestFormData(" ", " ", "feedback", " ", " ", "SBI PO")).Some?
  {
  }

  /** `exam_type` is sent even for request types whose form hides the selector. */
  lemma ExamTypeSentWhenHidden(user: Option<User>, f: RequestFormData)
    requires Complete(f) && f.requestType == "feedback"
    ensures !ShowsExamSelector(f) && NewRecord(user, f).value.examType == f.examType
  {
  }

  /** The request page: the fixed signed-in user and the form. */
  class RequestPage {
    const user: Option<User>
    var form: RequestFormData

    constructor (u: Option<User>)
      ensures user == u && form == InitialForm(u)
    {
      user := u;
      form := InitialForm(u);
    }

    method Change(k: Field, v: string)
      modifies this
      ensures form == WithField(old(form), k, v)
    {
      form := WithField(form, k, v);
    }

    /** `handleSubmit`; `inserted` is whether the backend accepted the insert. An
        incomplete form sends nothing; after a successful insert the form is reset
        from the user; after a failed one it is kept. */
    method Submit(inserted: bool) returns (sent: Option<NewRequest>)
      modifies this
      ensures sent == NewRecord(user, old(form))
      ensures sent.Some? && inserted ==> form == InitialForm(user)
      ensures sent.None? || !inserted ==> form == old(form)
    {
      sent := NewRecord(user, form);
      if sent.Some? && inserted {
        form := InitialForm(user);
      }
    }
  }
}

=== FILE: request_review.dfy ===
/** The admin review of user requests: the actions each status offers (a small state
    machine `review -> approved -> completed`, `review -> completed`), the status
    filter, the status badge, and the page state that issues status updates and replies. */
module RequestReview {
  import opened Text
  import Seqs

  /** A row of `user_requests`. */
  datatype Request = Request(
    id: int,
    name: string,
    email: string,
    requestType: string,
    subject: string,
    message: string,
    examType: string,
    status: string,
    adminResponse: Option<string>)

  /** The buttons a request card offers. */
  datatype Action = Approve | ReplyAndComplete | SendResponse

  /** The buttons shown for a status: two for `review`, one for `approved`, none otherwise. */
  function Actions(status: string): (r: seq<Action>)
    ensures status == "review" ==> r == [Approve, ReplyAndComplete]
    ensures status == "approved" ==> r == [SendResponse]
    ensures status != "review" && status != "approved" ==> r == []
  {
    if status == "review" then [Approve, ReplyAndComplete]
    else if status == "approved" then [SendResponse]
    else []
  }

  /** The status an action leads to: Approve writes `approved` directly; the two reply
      buttons open the reply form, whose submission writes `completed`. */
  function Target(a: Action): string
  {
    match a
    case Approve => "approved"
    case ReplyAndComplete => "completed"
    case SendResponse => "completed"
  }

  /** Some button of a request in status `from` leads to status `to`. */
  predicate CanMove(from: string, to: string) {
    exists i :: 0 <= i < |Actions(from)| && Target(Actions(from)[i]) == to
  }

  /** The transitions are exactly review -> approved, review -> completed and
      approved -> completed. */
  lemma Transitions(from: string, to: string)
    ensures CanMove(from, to) <==>
      || (from == "review" && (to == "approved" || to == "completed"))
      || (from == "approved" && to == "completed")
  {
    if from == "review" && to == "approved" {
      assert Target(Actions(from)[0]) == to;
    } else if from == "review" && to == "completed" {
      assert Target(Actions(from)[1]) == to;
    } else if from == "approved" && to == "completed" {
      assert Target(Actions(from)[0]) == to;
    }
  }

  /** The position of a status in the order review < approved < completed. */
  function Rank(status: string): int
  {
    if status == "review" then 0 else if status == "approved" then 1 else if status == "completed" then 2 else -1
  }

  /** `completed` is terminal and every transition moves forward in that order, so no
      status is ever revisited. */
  lemma TransitionsMoveForward(from: string, to: string)
    requires CanMove(from, to)
    ensures Rank(from) < Rank(to) && from != "completed"
  {
    Transitions(from, to);
  }

  /** The filter of the list: `all` keeps every request, any other value keeps the
      requests whose status equals it, in order. */
  function FilterByStatus(requests: seq<Request>, filter: string): (r: seq<Request>)
    ensures filter == "all" ==> r == requests
    ensures filter != "all" ==> Seqs.IsSubsequence(r, requests)
    ensures filter != "all" ==> forall i :: 0 <= i < |r| ==> r[i].status == filter
    ensures filter != "all" ==> forall i :: 0 <= i < |requests| && requests[i].status == filter ==> requests[i] in r
    ensures filter != "all" ==> r == Seqs.Filter(requests, (q: Request) => q.status == filter)
  {
    if filter == "all" then requests
    else
      Seqs.FilterIsSubsequence(requests, (q: Request) => q.status == filter);
      Seqs.Filter(requests, (q: Request) => q.status == filter)
  }

  /** The icon of a status badge. */
  datatype Icon = EyeIcon | CheckCircleIcon | ClockIcon

  /** `getStatusColor` and `getStatusIcon`: unknown statuses get grey and the clock. */
  datatype StatusStyle = StatusStyle(badge: string, icon: Icon, iconColor: string)

  function StatusStyleOf(status: string): (s: StatusStyle)
    ensures status == "review" ==> s == StatusStyle("bg-orange-100 text-orange-800", EyeIcon, "text-orange-500")
    ensures status == "approved" ==> s == StatusStyle("bg-green-100 text-green-800", CheckCircleIcon, "text-green-500")
    ensures status == "completed" ==> s == StatusStyle("bg-blue-100 text-blue-800", CheckCircleIcon, "text-blue-500")
    ensures status != "review" && status != "approved" && status != "completed" ==>
              s == StatusStyle("bg-gray-100 text-gray-800", ClockIcon, "text-gray-500")
  {
    match status
    case "review" => StatusStyle("bg-orange-100 text-orange-800", EyeIcon, "text-orange-500")
    case "approved" => StatusStyle("bg-green-100 text-green-800", CheckCircleIcon, "text-green-500")
    case "completed" => StatusStyle("bg-blue-100 text-blue-800", CheckCircleIcon, "text-blue-500")
    case _ => StatusStyle("bg-gray-100 text-gray-800", ClockIcon, "text-gray-500")
  }

  /** The badge text: only the first character of the status is upper-cased. */
  function StatusLabel(status: string): (r: string)
    ensures |r| == |status|
    ensures status != "" ==> r[0] == UpperChar(status[0]) && r[1..] == status[1..]
  {
    Capitalize(status)
  }

  lemma StatusLabels()
    ensures StatusLabel("review") == "Review" && StatusLabel("pending") == "Pending"
  {
    assert StatusLabel("review") == ['R'] + "eview";
    assert StatusLabel("pending") == ['P'] + "ending";
  }

  /** The request-type line: the first `_` becomes a space, then everything is upper-cased. */
  function RequestTypeLabel(t: string): (r: string)
    ensures |r| == |t|
    ensures '_' !in t ==> r == Upper(t)
    ensures forall k :: 0 <= k < |t| && t[k] == '_' && '_' !in t[..k] ==>
              r == Upper(t[..k] + " " + t[k + 1..])
  {
    ReplaceFirstSpec(t, '_', ' ');
    Upper(ReplaceFirst(t, '_', ' '))
  }

  /** `pdf_request` is shown as `PDF REQUEST`. */
  lemma PdfRequestLabel(t: string)
    requires t == "pdf_request"
    ensures RequestTypeLabel(t) == "PDF REQUEST"
  {
    var a, b := "pdf", "request";
    PdfRequestParts(t, a, b);
    LabelOfCode(a, b);
  }

  lemma PdfRequestParts(t: string, a: string, b: string)
    requires t == "pdf_request" && a == "pdf" && b == "request"
    ensures t == a + "_" + b && '_' !in a
    ensures Upper(a + " " + b) == "PDF REQUEST"
  {
  }

  /** A type `a_b` whose first part has no underscore is shown as `a b` upper-cased. */
  lemma LabelOfCode(a: string, b: string)
    requires '_' !in a
    ensures RequestTypeLabel(a + "_" + b) == Upper(a + " " + b)
  {
    var t := a + "_" + b;
    assert t[|a|] == '_' && t[..|a|] == a && t[|a| + 1..] == b;
  }

  /** The update `updateRequestStatus` sends: the status, and the response only when
      one is given and non-empty. */
  datatype StatusUpdate = StatusUpdate(status: string, adminResponse: Option<string>)

  function UpdateData(newStatus: string, adminResponse: Option<string>): (u: StatusUpdate)
    ensures u.status == newStatus
    ensures u.adminResponse.Some? <==> adminResponse.Some? && adminResponse.value != ""
    ensures u.adminResponse.Some? ==> u.adminResponse == adminResponse
  {
    if adminResponse.Some? && adminResponse.value != "" then StatusUpdate(newStatus, adminResponse)
    else StatusUpdate(newStatus, None)
  }

  /** A request after an update: the status is replaced; the stored response is
      replaced only when the update carries one. */
  function Applied(q: Request, u: StatusUpdate): (r: Request)
    ensures r.status == u.status
    ensures u.adminResponse.None? ==> r.adminResponse == q.adminResponse
    ensures u.adminResponse.Some? ==> r.adminResponse == u.adminResponse
    ensures r.(status := q.status, adminResponse := q.adminResponse) == q
  {
    if u.adminResponse.Some? then q.(status := u.status, adminResponse := u.adminResponse)
    else q.(status := u.status)
  }

  /** Approving keeps an existing response. */
  lemma ApproveKeepsResponse(q: Request)
    ensures Applied(q, UpdateData("approved", None)) == q.(status := "approved")
  {
  }

  /** The review page: the stored requests by id, the request whose reply form is
      open, and the reply text. */
  class ReviewPage {
    var requests: map<int, Request>
    var selected: Option<Request>
    var response: string

    /** The reply form is open only on a request as it is stored, and only on one
        whose buttons lead to `completed`. */
    predicate Valid()
      reads this
    {
      selected.Some? ==>
        selected.value.id in requests && requests[selected.value.id] == selected.value &&
        CanMove(selected.value.status, "completed")
    }

    constructor (stored: map<int, Request>)
      ensures Valid()
      ensures requests == stored && selected == None && response == ""
    {
      requests := stored;
      selected := None;
      response := "";
    }

    /** `updateRequestStatus`; `ok` is whether the backend accepted the update. On
        success the row with that id (if any) is updated and the reply form closes;
        on failure nothing changes. */
    method UpdateStatus(id: int, newStatus: string, adminResponse: Option<string>, ok: bool)
      requires Valid()
      modifies this
      ensures Valid()
      ensures var u := UpdateData(newStatus, adminResponse);
        ok ==> requests == (if id in old(requests) then old(requests)[id := Applied(old(requests)[id], u)] else old(requests))
      ensures ok ==> selected == None && response == ""
      ensures !ok ==> requests == old(requests) && selected == old(selected) && response == old(response)
    {
      if ok {
        var u := UpdateData(newStatus, adminResponse);
        if id in requests {
          requests := requests[id := Applied(requests[id], u)];
        }
        selected := None;
        response := "";
      }
    }

    /** The Approve button, shown only on a request whose buttons lead to `approved`;
        the status it writes is one of the `Transitions`. */
    method Approve(id: int, ok: bool)
      requires Valid() && id in requests && CanMove(requests[id].status, "approved")
      modifies this
      ensures Valid()
      ensures ok ==> requests == old(requests)[id := old(requests)[id].(status := "approved")]
      ensures ok ==> CanMove(old(requests)[id].status, requests[id].status)
      ensures !ok ==> requests == old(requests) && selected == old(selected) && response == old(response)
    {
      UpdateStatus(id, "approved", None, ok);
    }

    /** The reply buttons open the form for a listed request whose buttons lead to
        `completed`. */
    method Select(q: Request)
      requires Valid() && q.id in requests && requests[q.id] == q && CanMove(q.status, "completed")
      modifies this
      ensures Valid()
      ensures selected == Some(q) && requests == old(requests) && response == old(response)
    {
      selected := Some(q);
    }

    method TypeResponse(v: string)
      requires Valid()
      modifies this
      ensures Valid()
      ensures response == v && requests == old(requests) && selected == old(selected)
    {
      response := v;
    }

    method Cancel()
      requires Valid()
      modifies this
      ensures Valid()
      ensures selected == None && response == "" && requests == old(requests)
    {
      selected := None;
      response := "";
    }

    /** `handleResponse` (the form exists only while a request is selected): a blank
        reply is refused and nothing is sent; otherwise the request is completed with
        the reply stored exactly as typed, a move that is one of the `Transitions`.
        `issued` says whether an update was sent. */
    method HandleResponse(ok: bool) returns (issued: bool)
      requires Valid() && selected.Some?
      modifies this
      ensures Valid()
      ensures issued <==> !IsBlank(old(response))
      ensures !issued ==> requests == old(requests) && selected == old(selected) && response == old(response)
      ensures issued && ok ==>
        var id := old(selected).value.id;
        requests == old(requests)[id := old(requests)[id].(status := "completed", adminResponse := Some(old(response)))]
      ensures issued && ok ==>
        var id := old(selected).value.id;
        CanMove(old(requests)[id].status, requests[id].status)
      ensures issued && ok ==> selected == None && response == ""
    {
      if IsBlank(response) {
        issued := false;
      } else {
        issued := true;
        assert response != "";
        UpdateStatus(selected.value.id, "completed", Some(response), ok);
      }
    }
  }
}

=== FILE: seqs.dfy ===
/** `Array.prototype.filter`, `map`, `reduce` and the `filter(...).length` counts the
    pages compute over the lists they load. */
module Seqs {

  /** `s.filter(p)`: the elements satisfying `p`, in their original order. */
  function Filter<T(==)>(s: seq<T>, p: T -> bool): (r: seq<T>)
    ensures |r| <= |s|
    ensures forall i :: 0 <= i < |r| ==> r[i] in s && p(r[i])
    ensures forall i :: 0 <= i < |s| && p(s[i]) ==> s[i] in r
  {
    if s == [] then [] else (if p(s[0]) then [s[0]] else []) + Filter(s[1..], p)
  }

  /** `r` can be obtained from `s` by deleting elements, keeping the order of the rest. */
  predicate IsSubsequence<T(==)>(r: seq<T>, s: seq<T>)
    decreases |s|
  {
    || r == []
    || (s != [] && ((r[0] == s[0] && IsSubsequence(r[1..], s[1..])) || IsSubsequence(r, s[1..])))
  }

  /** A common prefix keeps a subsequence a subsequence. */
  lemma {:induction false} SubsequencePrefix<T>(a: seq<T>, r: seq<T>, s: seq<T>)
    requires IsSubsequence(r, s)
    ensures IsSubsequence(a + r, a + s)
  {
    if a == [] {
      assert a + r == r && a + s == s;
    } else {
      SubsequencePrefix(a[1..], r, s);
      assert (a + r)[0] == (a + s)[0] && (a + r)[1..] == a[1..] + r && (a + s)[1..] == a[1..] + s;
    }
  }

  /** Elements put in front of the longer list can be skipped. */
  lemma {:induction false} SubsequenceSkip<T>(a: seq<T>, r: seq<T>, s: seq<T>)
    requires IsSubsequence(r, s)
    ensures IsSubsequence(r, a + s)
  {
    if a == [] {
      assert a + s == s;
    } else {
      SubsequenceSkip(a[1..], r, s);
      assert (a + s)[1..] == a[1..] + s;
    }
  }

  /** Every element of a subsequence is an element of the list. */
  lemma {:induction false} SubsequenceMembers<T>(r: seq<T>, s: seq<T>)
    requires IsSubsequence(r, s)
    ensures forall x :: x in r ==> x in s
    decreases |s|
  {
    if r != [] {
      if r[0] == s[0] && IsSubsequence(r[1..], s[1..]) {
        SubsequenceMembers(r[1..], s[1..]);
        assert forall x :: x in r ==> x == r[0] || x in r[1..];
      } else {
        SubsequenceMembers(r, s[1..]);
      }
    }
  }

  /** A subsequence of a list without repeats has no repeats. */
  lemma {:induction false} SubsequenceNoDuplicates<T>(r: seq<T>, s: seq<T>)
    requires IsSubsequence(r, s) && NoDuplicates(s)
    ensures NoDuplicates(r)
    decreases |s|
  {
    if r != [] {
      assert NoDuplicates(s[1..]);
      if r[0] == s[0] && IsSubsequence(r[1..], s[1..]) {
        SubsequenceNoDuplicates(r[1..], s[1..]);
        SubsequenceMembers(r[1..], s[1..]);
        assert s[0] !in s[1..];
        assert forall j :: 1 <= j < |r| ==> r[j] in r[1..];
      } else {
        SubsequenceNoDuplicates(r, s[1..]);
      }
    }
  }

  /** Filtering keeps the original order: the result is a subsequence of the input. */
  lemma {:induction false} FilterIsSubsequence<T>(s: seq<T>, p: T -> bool)
    ensures IsSubsequence(Filter(s, p), s)
  {
    if s != [] {
      FilterIsSubsequence(s[1..], p);
      if p(s[0]) {
        assert Filter(s, p) == [s[0]] + Filter(s[1..], p);
        assert Filter(s, p)[1..] == Filter(s[1..], p);
      } else {
        assert Filter(s, p) == Filter(s[1..], p);
      }
    }
  }

  /** Every list is a subsequence of itself. */
  lemma {:induction false} SubsequenceRefl<T>(s: seq<T>)
    ensures IsSubsequence(s, s)
  {
    if s != [] {
      SubsequenceRefl(s[1..]);
    }
  }

  /** A filter whose condition every element meets returns the list unchanged. */
  lemma {:induction false} FilterAll<T>(s: seq<T>, p: T -> bool)
    requires forall i :: 0 <= i < |s| ==> p(s[i])
    ensures Filter(s, p) == s
  {
    if s != [] {
      FilterAll(s[1..], p);
      assert s == [s[0]] + s[1..];
    }
  }

  /** Filters that agree on every element give the same result. */
  lemma {:induction false} FilterSame<T>(s: seq<T>, p: T -> bool, q: T -> bool)
    requires forall i :: 0 <= i < |s| ==> p(s[i]) == q(s[i])
    ensures Filter(s, p) == Filter(s, q)
  {
    if s != [] {
      FilterSame(s[1..], p, q);
    }
  }

  /** A condition nothing satisfies keeps nothing. */
  lemma {:induction false} FilterNone<T>(s: seq<T>, p: T -> bool)
    requires forall x :: !p(x)
    ensures Filter(s, p) == []
  {
    if s != [] {
      FilterNone(s[1..], p);
    }
  }

  /** Two filters in a row are one filter by both conditions. */
  lemma {:induction false} FilterFilter<T>(s: seq<T>, p: T -> bool, q: T -> bool, both: T -> bool)
    requires forall x :: both(x) == (p(x) && q(x))
    ensures Filter(Filter(s, p), q) == Filter(s, both)
  {
    if s != [] {
      FilterFilter(s[1..], p, q, both);
      var fp := Filter(s, p);
      if p(s[0]) {
        assert fp == [s[0]] + Filter(s[1..], p);
        assert fp[0] == s[0] && fp[1..] == Filter(s[1..], p);
        assert Filter(fp, q) == (if q(s[0]) then [s[0]] else []) + Filter(Filter(s[1..], p), q);
      } else {
        assert fp == Filter(s[1..], p);
      }
    }
  }

  /** Filtering a concatenation filters each part. */
  lemma {:induction false} FilterAppend<T>(a: seq<T>, b: seq<T>, p: T -> bool)
    ensures Filter(a + b, p) == Filter(a, p) + Filter(b, p)
  {
    if a != [] {
      FilterAppend(a[1..], b, p);
      assert (a + b)[0] == a[0] && (a + b)[1..] == a[1..] + b;
      var head := if p(a[0]) then [a[0]] else [];
      assert Filter(a + b, p) == head + Filter(a[1..] + b, p);
      assert Filter(a, p) == head + Filter(a[1..], p);
    } else {
      assert a + b == b;
    }
  }

  /** Filtering a list without repeats leaves a list without repeats. */
  lemma {:induction false} FilterNoDuplicates<T>(s: seq<T>, p: T -> bool)
    requires NoDuplicates(s)
    ensures NoDuplicates(Filter(s, p))
  {
    if s != [] {
      FilterNoDuplicates(s[1..], p);
      assert s[0] !in s[1..];
      assert s[0] !in Filter(s[1..], p);
    }
  }

  /** `s.filter(p).length`. */
  function Count<T(==)>(s: seq<T>, p: T -> bool): nat
  {
    |Filter(s, p)|
  }

  /** A condition and its negation split the list: the two counts add up to its length. */
  lemma {:induction false} CountComplement<T>(s: seq<T>, p: T -> bool, q: T -> bool)
    requires forall x :: q(x) == !p(x)
    ensures Count(s, p) + Count(s, q) == |s|
  {
    if s != [] {
      CountComplement(s[1..], p, q);
    }
  }

  /** A stronger condition never counts more elements. */
  lemma {:induction false} CountMonotone<T>(s: seq<T>, p: T -> bool, q: T -> bool)
    requires forall x :: q(x) ==> p(x)
    ensures Count(s, q) <= Count(s, p)
  {
    if s != [] {
      CountMonotone(s[1..], p, q);
    }
  }

  /** Three pairwise exclusive conditions count at most every element once. */
  lemma {:induction false} CountDisjoint3<T>(s: seq<T>, p: T -> bool, q: T -> bool, u: T -> bool)
    requires forall x :: !(p(x) && q(x)) && !(p(x) && u(x)) && !(q(x) && u(x))
    ensures Count(s, p) + Count(s, q) + Count(s, u) <= |s|
  {
    if s != [] {
      CountDisjoint3(s[1..], p, q, u);
    }
  }

  /** `s.map(f)`. */
  function Map<T, U>(s: seq<T>, f: T -> U): (r: seq<U>)
    ensures |r| == |s| && forall i :: 0 <= i < |s| ==> r[i] == f(s[i])
  {
    seq(|s|, i requires 0 <= i < |s| => f(s[i]))
  }

  /** Mapping by a function that keeps the condition commutes with filtering. */
  lemma {:induction false} FilterMap<T>(s: seq<T>, p: T -> bool, f: T -> T)
    requires forall x :: p(f(x)) == p(x)
    ensures Filter(Map(s, f), p) == Map(Filter(s, p), f)
  {
    if s != [] {
      FilterMap(s[1..], p, f);
      var m := Map(s, f);
      assert m[1..] == Map(s[1..], f);
      var head := if p(s[0]) then [s[0]] else [];
      assert Filter(s, p) == head + Filter(s[1..], p);
      assert p(m[0]) == p(s[0]) && m[0] == f(s[0]);
      assert Map(head, f) == if p(m[0]) then [m[0]] else [];
      assert Filter(m, p) == (if p(m[0]) then [m[0]] else []) + Filter(m[1..], p);
      MapAppend(head, Filter(s[1..], p), f);
    }
  }

  lemma MapAppend<T, U>(a: seq<T>, b: seq<T>, f: T -> U)
    ensures Map(a + b, f) == Map(a, f) + Map(b, f)
  {
  }

  /** `s.reduce((sum, x) => sum + f(x), 0)`. */
  function Sum<T>(s: seq<T>, f: T -> int): int
  {
    if s == [] then 0 else f(s[0]) + Sum(s[1..], f)
  }

  /** Sums of non-negative terms are non-negative. */
  lemma {:induction false} SumNonNegative<T>(s: seq<T>, f: T -> int)
    requires forall x :: f(x) >= 0
    ensures Sum(s, f) >= 0
  {
    if s != [] {
      SumNonNegative(s[1..], f);
    }
  }

  /** `s` holds no element twice. */
  predicate NoDuplicates<T(==)>(s: seq<T>) {
    forall i, j :: 0 <= i < j < |s| ==> s[i] != s[j]
  }
}

=== FILE: sidebar.dfy ===
/** The navigation sidebar: which sections are expanded, the links each expanded
    section shows, and which link is highlighted for the current path. */
module Sidebar {
  import Seqs

  /** A navigation entry: a single link, or a titled section of links. */
  datatype NavLink = NavLink(name: string, path: string)
  datatype Section =
    | Single(id: string, title: string, path: string)
    | Group(id: string, title: string, children: seq<NavLink>)

  const Navigation: seq<Section> := [
    Single("home", "Home", "/"),
    Group("study", "Study Materials", [NavLink("Download PDFs", "/PDFs"),
                                       NavLink("Current Affairs Magazines", "/magazine")]),
    Group("exam", "Exam Management", [NavLink("Exam Calendar", "/calendar"),
                                      NavLink("Notifications", "/notifications")]),
    Group("support", "Support", [NavLink("Request Form", "/request"),
                                 NavLink("Terms & Conditions", "/termandconditions")])]

  /** Every section starts expanded. */
  const InitialExpanded: seq<string> := ["study", "exam", "support"]

  function NotId(id: string): string -> bool {
    (x: string) => x != id
  }

  /** `toggleSection`: an expanded section is removed from the list, keeping the order
      of the others; a collapsed one is appended. */
  function Toggled(prev: seq<string>, id: string): (r: seq<string>)
    ensures id in prev ==> id !in r && Seqs.IsSubsequence(r, prev)
    ensures id !in prev ==> r == prev + [id]
    ensures forall x :: x != id ==> (x in r <==> x in prev)
  {
    if id in prev then
      Seqs.FilterIsSubsequence(prev, NotId(id));
      Seqs.Filter(prev, NotId(id))
    else prev + [id]
  }

  /** Collapsing and expanding again restores the same sections, with the section at
      the end; expanding and collapsing again restores the list exactly. */
  lemma {:induction false} ToggleTwice(prev: seq<string>, id: string)
    ensures id in prev ==> Toggled(Toggled(prev, id), id) == Seqs.Filter(prev, NotId(id)) + [id]
    ensures id !in prev ==> Toggled(Toggled(prev, id), id) == prev
    ensures forall x :: x in Toggled(Toggled(prev, id), id) <==> x in prev
  {
    if id !in prev {
      Seqs.FilterAppend(prev, [id], NotId(id));
      Seqs.FilterAll(prev, NotId(id));
      assert Seqs.Filter([id], NotId(id)) == [];
    }
  }

  /** A toggle never lists a section twice. */
  lemma ToggleKeepsDistinct(prev: seq<string>, id: string)
    requires Seqs.NoDuplicates(prev)
    ensures Seqs.NoDuplicates(Toggled(prev, id))
  {
    if id in prev {
      Seqs.FilterNoDuplicates(prev, NotId(id));
    }
  }

  lemma InitialDistinct()
    ensures Seqs.NoDuplicates(InitialExpanded)
  {
  }

  /** `isActive`: a link is highlighted when it is the current path. */
  predicate IsActive(pathname: string, path: string) {
    pathname == path
  }

  function ChildPaths(children: seq<NavLink>): seq<string> {
    Seqs.Map(children, (c: NavLink) => c.path)
  }

  /** Every link path, sections in order, each section's links in order. */
  function Paths(sections: seq<Section>): seq<string>
  {
    if sections == [] then []
    else
      (match sections[0]
       case Single(_, _, p) => [p]
       case Group(_, _, cs) => ChildPaths(cs))
      + Paths(sections[1..])
  }

  /** The section puts a link to `x` on screen: it is the single link `x`, or it is
      expanded and one of its links goes to `x`. */
  predicate Shows(section: Section, expanded: seq<string>, x: string) {
    match section
    case Single(_, _, p) => p == x
    case Group(id, _, cs) => id in expanded && x in ChildPaths(cs)
  }

  /** The link paths on screen: the single links, and the links of the expanded
      sections, in sidebar order. */
  function ShownPaths(sections: seq<Section>, expanded: seq<string>): (ps: seq<string>)
    ensures Seqs.IsSubsequence(ps, Paths(sections))
    ensures forall x :: x in ps <==> exists i :: 0 <= i < |sections| && Shows(sections[i], expanded, x)
  {
    if sections == [] then []
    else
      var rest := ShownPaths(sections[1..], expanded);
      var later := Paths(sections[1..]);
      assert forall x :: (exists i :: 0 <= i < |sections| && Shows(sections[i], expanded, x)) <==>
                         Shows(sections[0], expanded, x) || x in rest by {
        forall x ensures (exists i :: 0 <= i < |sections| && Shows(sections[i], expanded, x)) <==>
                         Shows(sections[0], expanded, x) || x in rest {
          if x in rest {
            var i :| 0 <= i < |sections[1..]| && Shows(sections[1..][i], expanded, x);
            assert Shows(sections[i + 1], expanded, x);
          }
          if exists i :: 0 <= i < |sections| && Shows(sections[i], expanded, x) {
            var i :| 0 <= i < |sections| && Shows(sections[i], expanded, x);
            if i > 0 {
              assert Shows(sections[1..][i - 1], expanded, x);
            }
          }
        }
      }
      match sections[0]
      case Single(_, _, p) =>
        Seqs.SubsequencePrefix([p], rest, later);
        [p] + rest
      case Group(id, _, cs) =>
        if id in expanded then
          Seqs.SubsequencePrefix(ChildPaths(cs), rest, later);
          ChildPaths(cs) + rest
        else
          Seqs.SubsequenceSkip(ChildPaths(cs), rest, later);
          rest
  }

  /** The sidebar's link paths, in order. */
  lemma NavigationPaths()
    ensures Paths(Navigation) == ["/", "/PDFs", "/magazine", "/calendar", "/notifications",
                                  "/request", "/termandconditions"]
  {
  }

  /** No two links of the sidebar share a path. */
  lemma NavigationPathsDistinct()
    ensures Seqs.NoDuplicates(Paths(Navigation))
  {
    NavigationPaths();
    PathListDistinct(Paths(Navigation));
  }

  lemma PathListDistinct(ps: seq<string>)
    requires ps == ["/", "/PDFs", "/magazine", "/calendar", "/notifications", "/request", "/termandconditions"]
    ensures Seqs.NoDuplicates(ps)
  {
  }

  /** So at most one link on screen is highlighted, whichever sections are expanded. */
  lemma AtMostOneActive(pathname: string, expanded: seq<string>)
    ensures var ps := ShownPaths(Navigation, expanded);
      forall i, j :: 0 <= i < j < |ps| ==> !(IsActive(pathname, ps[i]) && IsActive(pathname, ps[j]))
  {
    NavigationPathsDistinct();
    Seqs.SubsequenceNoDuplicates(ShownPaths(Navigation, expanded), Paths(Navigation));
  }

  /** The links of a collapsed section are not on screen. */
  lemma CollapsedSectionHidden(expanded: seq<string>, i: int, k: int)
    requires 0 <= i < |Navigation| && Navigation[i].Group? && Navigation[i].id !in expanded
    requires 0 <= k < |Navigation[i].children|
    ensures Navigation[i].children[k].path !in ShownPaths(Navigation, expanded)
  {
    var x := Navigation[i].children[k].path;
    forall j | 0 <= j < |Navigation| ensures !Shows(Navigation[j], expanded, x) {
      if j != i && Navigation[j].Group? {
        assert x !in ChildPaths(Navigation[j].children);
      }
    }
  }

  /** The sidebar's expanded sections. */
  class SidebarState {
    var expandedSections: seq<string>

    constructor ()
      ensures expandedSections == InitialExpanded
    {
      expandedSections := InitialExpanded;
    }

    method ToggleSection(id: string)
      modifies this
      ensures expandedSections == Toggled(old(expandedSections), id)
    {
      expandedSections := Toggled(expandedSections, id);
    }
  }
}

=== FILE: text.dfy ===
/** String and option helpers with the semantics of the JavaScript built-ins the
    portal's components call: `trim`, `toLowerCase`, `includes`, `split`, `join`,
    `replace` with a one-character pattern, `parseInt` and number printing. */
module Text {

  /** A value that may be missing (`null` / `undefined` in the source). */
  datatype Option<+T> = None | Some(value: T) {
    /** `x ?? d` and `x || d` for a present-or-missing value. */
    function GetOr(d: T): T {
      if Some? then value else d
    }
  }

  /** The outcome of a handler that either proceeds with a value or stops with an error. */
  datatype Result<+T, +E> = Ok(value: T) | Err(error: E)

  /** The characters JavaScript's `String.prototype.trim` removes and the regular
      expression class `\s` matches: WhiteSpace and LineTerminator of ECMA-262. */
  predicate IsSpace(c: char) {
    || c == ' ' || c == '\t' || c == '\n' || c == '\r'
    || c == '\U{000B}' || c == '\U{000C}' || c == '\U{00A0}' || c == '\U{1680}'
    || ('\U{2000}' <= c <= '\U{200A}')
    || c == '\U{2028}' || c == '\U{2029}' || c == '\U{202F}' || c == '\U{205F}'
    || c == '\U{3000}' || c == '\U{FEFF}'
  }

  predicate NoSpace(s: string) {
    forall i :: 0 <= i < |s| ==> !IsSpace(s[i])
  }

  /** The number of white-space characters `s` starts with. */
  function LeadingSpaces(s: string): (n: nat)
    ensures n <= |s| && (forall i :: 0 <= i < n ==> IsSpace(s[i]))
    ensures n < |s| ==> !IsSpace(s[n])
  {
    if s == [] || !IsSpace(s[0]) then 0 else 1 + LeadingSpaces(s[1..])
  }

  /** The length of `s` without the white space it ends with. */
  function TrailingStart(s: string): (n: nat)
    ensures n <= |s| && (forall i :: n <= i < |s| ==> IsSpace(s[i]))
    ensures n > 0 ==> !IsSpace(s[n - 1])
  {
    if s == [] || !IsSpace(s[|s| - 1]) then |s| else TrailingStart(s[..|s| - 1])
  }

  /** `s.trim()`: the longest slice of `s` that neither starts nor ends with white space. */
  function Trim(s: string): (r: string)
    ensures var a := LeadingSpaces(s);
      && a + |r| <= |s| && r == s[a..a + |r|]
      && (forall i :: 0 <= i < a ==> IsSpace(s[i]))
      && (forall i :: a + |r| <= i < |s| ==> IsSpace(s[i]))
    ensures r == [] || (!IsSpace(r[0]) && !IsSpace(r[|r| - 1]))
  {
    var a := LeadingSpaces(s);
    var e := TrailingStart(s);
    if e <= a then [] else s[a..e]
  }

  /** Trimming twice is trimming once. */
  lemma TrimIdempotent(s: string)
    ensures Trim(Trim(s)) == Trim(s)
  {
    TrimNoEndSpace(Trim(s));
  }

  /** A string that neither starts nor ends with white space is its own trim. */
  lemma TrimNoEndSpace(t: string)
    requires t == [] || (!IsSpace(t[0]) && !IsSpace(t[|t| - 1]))
    ensures LeadingSpaces(t) == 0 && TrailingStart(t) == |t| && Trim(t) == t
  {
    assert t[0..|t|] == t;
  }

  /** Trimming never introduces a character. */
  lemma TrimKeepsAbsent(s: string, c: char)
    requires c !in s
    ensures c !in Trim(s)
  {
    var a := LeadingSpaces(s);
    var r := Trim(s);
    forall j | 0 <= j < |r| ensures r[j] != c {
      assert r[j] == s[a + j];
    }
  }

  /** JavaScript's `!s.trim()`: the string is empty or only white space. */
  predicate IsBlank(s: string) {
    Trim(s) == []
  }

  /** `s.trim() || null`. */
  function BlankToNull(s: string): (r: Option<string>)
    ensures r == None <==> IsBlank(s)
    ensures r.Some? ==> r.value == Trim(s) && r.value != ""
  {
    if IsBlank(s) then None else Some(Trim(s))
  }

  lemma TrimNotBlank(s: string)
    requires !IsBlank(s)
    ensures !IsBlank(Trim(s)) && Trim(Trim(s)) == Trim(s)
  {
    TrimIdempotent(s);
  }

  /** Trimming again and nulling again change nothing. */
  lemma BlankToNullAgain(s: string)
    ensures BlankToNull(BlankToNull(s).GetOr("")) == BlankToNull(s)
  {
    if !IsBlank(s) {
      TrimNotBlank(s);
    }
  }

  /** Trimming a string that holds no white space at all changes nothing. */
  lemma TrimNoSpace(s: string)
    requires NoSpace(s)
    ensures Trim(s) == s
  {
    TrimNoEndSpace(s);
  }

  /** A string is blank exactly when every one of its characters is white space. */
  lemma BlankIffAllSpace(s: string)
    ensures IsBlank(s) <==> forall i :: 0 <= i < |s| ==> IsSpace(s[i])
  {
    if !IsBlank(s) {
      var r := Trim(s);
      assert r[0] == s[LeadingSpaces(s)];
    }
  }

  /** Adding a leading white-space character does not change the trimmed value of a
      string that is already trimmed. */
  lemma TrimAfterSpace(c: char, t: string)
    requires IsSpace(c) && Trim(t) == t
    ensures Trim([c] + t) == t
  {
    var s := [c] + t;
    assert s[1..] == t;
    TrimNoEndSpace(t);
    assert LeadingSpaces(s) == 1;
    if t != [] {
      assert s[..|s| - 1] == [c] + t[..|t| - 1];
      assert TrailingStart(s) == |s|;
      assert s[1..|s|] == t;
    }
  }

  /** ASCII case folding; other characters are unchanged. */
  function LowerChar(c: char): (r: char)
    ensures 'A' <= c <= 'Z' ==> 'a' <= r <= 'z'
    ensures !('A' <= r <= 'Z')
  {
    if 'A' <= c <= 'Z' then (c as int + 32) as char else c
  }

  function UpperChar(c: char): (r: char)
    ensures 'a' <= c <= 'z' ==> 'A' <= r <= 'Z'
    ensures !('a' <= r <= 'z')
  {
    if 'a' <= c <= 'z' then (c as int - 32) as char else c
  }

  /** `s.toLowerCase()` restricted to ASCII letters. */
  function Lower(s: string): (r: string)
    ensures |r| == |s|
    ensures forall i :: 0 <= i < |s| ==> r[i] == LowerChar(s[i])
  {
    seq(|s|, i requires 0 <= i < |s| => LowerChar(s[i]))
  }

  /** `s.toUpperCase()` restricted to ASCII letters. */
  function Upper(s: string): (r: string)
    ensures |r| == |s|
    ensures forall i :: 0 <= i < |s| ==> r[i] == UpperChar(s[i])
  {
    seq(|s|, i requires 0 <= i < |s| => UpperChar(s[i]))
  }

  /** `s.charAt(0).toUpperCase() + s.slice(1)`. */
  function Capitalize(s: string): (r: string)
    ensures |r| == |s| && (s != [] ==> r[0] == UpperChar(s[0]) && r[1..] == s[1..])
  {
    if s == [] then [] else [UpperChar(s[0])] + s[1..]
  }

  /** `s.includes(t)`: `t` occurs in `s` as a contiguous piece. */
  predicate Contains(s: string, t: string)
    decreases |s|
  {
    t <= s || (s != [] && Contains(s[1..], t))
  }

  /** `s.toLowerCase().includes(t.toLowerCase())`. */
  predicate ContainsIgnoreCase(s: string, t: string) {
    Contains(Lower(s), Lower(t))
  }

  /** `t` occurs in `s` starting at position `i`. */
  predicate OccursAt(s: string, t: string, i: int) {
    0 <= i <= |s| - |t| && s[i..i + |t|] == t
  }

  /** `Contains` is exactly "`t` occurs in `s` at some position". */
  lemma {:induction false} ContainsIffOccurs(s: string, t: string)
    ensures Contains(s, t) <==> exists i :: OccursAt(s, t, i)
    decreases |s|
  {
    if t <= s {
      assert OccursAt(s, t, 0);
    } else if s == [] {
    } else {
      ContainsIffOccurs(s[1..], t);
      if Contains(s[1..], t) {
        var i :| OccursAt(s[1..], t, i);
        assert s[i + 1..i + 1 + |t|] == s[1..][i..i + |t|];
        assert OccursAt(s, t, i + 1);
      }
      if exists i :: OccursAt(s, t, i) {
        var i :| OccursAt(s, t, i);
        if i != 0 {
          assert s[1..][i - 1..i - 1 + |t|] == s[i..i + |t|];
          assert OccursAt(s[1..], t, i - 1);
        }
      }
    }
  }

  /** Every character of a contained string is a character of the container. */
  lemma ContainsCharsOf(s: string, t: string, j: int)
    requires Contains(s, t) && 0 <= j < |t|
    ensures t[j] in s
  {
    ContainsIffOccurs(s, t);
    var i :| OccursAt(s, t, i);
    assert s[i..i + |t|][j] == s[i + j];
  }

  lemma ContainsEmpty(s: string)
    ensures Contains(s, "") && ContainsIgnoreCase(s, "")
  {
  }

  /** `xs.join(sep)`. */
  function Join(xs: seq<string>, sep: string): string
  {
    if |xs| == 0 then "" else if |xs| == 1 then xs[0] else xs[0] + sep + Join(xs[1..], sep)
  }

  /** Number of occurrences of `c` in `s`. */
  function Occurrences(s: string, c: char): nat
  {
    if s == [] then 0 else (if s[0] == c then 1 else 0) + Occurrences(s[1..], c)
  }

  /** `s.split(c)` for a one-character separator: one piece more than there are
      separators, none of the pieces containing the separator. */
  function Split(s: string, c: char): (r: seq<string>)
    ensures |r| == Occurrences(s, c) + 1
    ensures forall i :: 0 <= i < |r| ==> c !in r[i]
  {
    if s == [] then [""]
    else
      var rest := Split(s[1..], c);
      if s[0] == c then [""] + rest else [[s[0]] + rest[0]] + rest[1..]
  }

  lemma {:induction false} JoinConsHead(a: string, x: string, ys: seq<string>, sep: string)
    ensures Join([a + x] + ys, sep) == a + Join([x] + ys, sep)
  {
    if ys != [] {
      assert ([a + x] + ys)[1..] == ys == ([x] + ys)[1..];
    }
  }

  /** Joining the pieces of a split restores the string. */
  lemma {:induction false} JoinSplit(s: string, c: char)
    ensures Join(Split(s, c), [c]) == s
  {
    if s != [] {
      var rest := Split(s[1..], c);
      JoinSplit(s[1..], c);
      if s[0] == c {
        assert ([""] + rest)[1..] == rest;
        assert s == [c] + s[1..];
      } else {
        JoinConsHead([s[0]], rest[0], rest[1..], [c]);
        assert [rest[0]] + rest[1..] == rest;
        assert s == [s[0]] + s[1..];
      }
    }
  }

  lemma {:induction false} SplitPrefix(x: string, t: string, c: char)
    requires c !in x
    ensures Split(x + t, c) == [x + Split(t, c)[0]] + Split(t, c)[1..]
  {
    if x != [] {
      assert (x + t)[1..] == x[1..] + t;
      SplitPrefix(x[1..], t, c);
      var S := Split(t, c);
      var rest := Split(x[1..] + t, c);
      assert rest[0] == x[1..] + S[0] && rest[1..] == S[1..];
      assert (x + t)[0] == x[0] != c;
      assert Split(x + t, c) == [[x[0]] + rest[0]] + rest[1..];
      assert [x[0]] + (x[1..] + S[0]) == x + S[0];
    } else {
      var S := Split(t, c);
      assert x + t == t && x + S[0] == S[0];
      assert S == [S[0]] + S[1..];
    }
  }

  /** Splitting a join restores the pieces, provided there is at least one piece and
      no piece contains the separator. */
  lemma {:induction false} SplitJoin(xs: seq<string>, c: char)
    requires xs != []
    requires forall i :: 0 <= i < |xs| ==> c !in xs[i]
    ensures Split(Join(xs, [c]), c) == xs
  {
    if |xs| == 1 {
      SplitPrefix(xs[0], "", c);
      assert xs[0] + "" == xs[0];
    } else {
      SplitJoin(xs[1..], c);
      var t := [c] + Join(xs[1..], [c]);
      assert Join(xs, [c]) == xs[0] + t;
      SplitPrefix(xs[0], t, c);
      assert t[1..] == Join(xs[1..], [c]);
      assert t != [] && t[0] == c;
      assert Split(t, c) == [""] + xs[1..];
      assert Split(t, c)[0] == "" && Split(t, c)[1..] == xs[1..];
      assert xs[0] + "" == xs[0];
      assert xs == [xs[0]] + xs[1..];
    }
  }

  /** `s.replace(a, b)` with a one-character string pattern: only the FIRST
      occurrence of `a` is replaced. */
  function ReplaceFirst(s: string, a: char, b: char): (r: string)
    ensures |r| == |s|
  {
    if s == [] then [] else if s[0] == a then [b] + s[1..] else [s[0]] + ReplaceFirst(s[1..], a, b)
  }

  /** `ReplaceFirst` changes exactly one position, the first occurrence of `a`, and
      none when `a` does not occur. */
  lemma ReplaceFirstSpec(s: string, a: char, b: char)
    ensures a !in s ==> ReplaceFirst(s, a, b) == s
    ensures forall k :: 0 <= k < |s| && s[k] == a && a !in s[..k] ==>
              ReplaceFirst(s, a, b) == s[..k] + [b] + s[k + 1..]
  {
    if a !in s {
      ReplaceFirstAbsent(s, a, b);
    }
    forall k | 0 <= k < |s| && s[k] == a && a !in s[..k]
      ensures ReplaceFirst(s, a, b) == s[..k] + [b] + s[k + 1..]
    {
      ReplaceFirstAt(s, a, b, k);
    }
  }

  lemma {:induction false} ReplaceFirstAbsent(s: string, a: char, b: char)
    requires a !in s
    ensures ReplaceFirst(s, a, b) == s
  {
    if s != [] {
      assert a !in s[1..];
      ReplaceFirstAbsent(s[1..], a, b);
      assert s == [s[0]] + s[1..];
    }
  }

  lemma {:induction false} ReplaceFirstAt(s: string, a: char, b: char, k: int)
    requires 0 <= k < |s| && s[k] == a && a !in s[..k]
    ensures ReplaceFirst(s, a, b) == s[..k] + [b] + s[k + 1..]
  {
    if k > 0 {
      assert s[0] in s[..k];
      assert s[1..][..k - 1] == s[1..k];
      ReplaceFirstAt(s[1..], a, b, k - 1);
      assert s[..k] == [s[0]] + s[1..k];
    }
  }

  predicate IsDigit(c: char) {
    '0' <= c <= '9'
  }

  function DigitChar(d: int): (c: char)
    requires 0 <= d < 10
    ensures IsDigit(c)
  {
    ('0' as int + d) as char
  }

  /** The decimal text of a natural number, as JavaScript prints it in a template
      literal: no sign, no leading zeros. */
  function NatToString(n: nat): (r: string)
    ensures r != [] && forall i :: 0 <= i < |r| ==> IsDigit(r[i])
    decreases n
  {
    if n < 10 then [DigitChar(n)] else NatToString(n / 10) + [DigitChar(n % 10)]
  }

  /** The length of the longest prefix of `s` made of decimal digits. */
  function DigitPrefixLength(s: string): (k: nat)
    ensures k <= |s|
    ensures forall i :: 0 <= i < k ==> IsDigit(s[i])
    ensures k < |s| ==> !IsDigit(s[k])
  {
    if s != [] && IsDigit(s[0]) then 1 + DigitPrefixLength(s[1..]) else 0
  }

  /** The value of a string of decimal digits. */
  function DigitsValue(s: string): nat
    requires forall i :: 0 <= i < |s| ==> IsDigit(s[i])
  {
    if s == [] then 0
    else
      assert IsDigit(s[|s| - 1]);
      DigitsValue(s[..|s| - 1]) * 10 + (s[|s| - 1] as int - '0' as int)
  }

  /** `parseInt(s)` for text without a sign or leading white space: the value of the
      leading digits, or `None` (NaN) when there are none. */
  function ParseLeadingNat(s: string): Option<nat>
  {
    var k := DigitPrefixLength(s);
    if k == 0 then None else Some(DigitsValue(s[..k]))
  }

  lemma {:induction false} DigitsValueOfNat(n: nat)
    ensures DigitsValue(NatToString(n)) == n
    decreases n
  {
    if n >= 10 {
      DigitsValueOfNat(n / 10);
      var r := NatToString(n);
      assert r[..|r| - 1] == NatToString(n / 10);
    }
  }

  lemma {:induction false} DigitPrefixOfDigits(d: string, t: string)
    requires forall i :: 0 <= i < |d| ==> IsDigit(d[i])
    requires t == [] || !IsDigit(t[0])
    ensures DigitPrefixLength(d + t) == |d|
  {
    if d != [] {
      assert (d + t)[1..] == d[1..] + t;
      DigitPrefixOfDigits(d[1..], t);
    }
  }

  /** `parseInt` reads back a printed number followed by a non-digit suffix. */
  lemma ParseNatToString(n: nat, suffix: string)
    requires suffix == [] || !IsDigit(suffix[0])
    ensures ParseLeadingNat(NatToString(n) + suffix) == Some(n)
  {
    var d := NatToString(n);
    DigitPrefixOfDigits(d, suffix);
    assert (d + suffix)[..|d|] == d;
    DigitsValueOfNat(n);
  }
}

=== FILE: user_management.dfy ===
/** The admin user list: the search and status filters, the block/unblock toggle on
    the `users` store, the dashboard counts and the CSV export. */
module UserAdmin {
  import opened Text
  import Seqs

  /** A row of the `users` store. */
  datatype UserRow = UserRow(
    id: string,
    fullName: Option<string>,
    email: Option<string>,
    mobileNumber: Option<string>,
    examPreparingFor: Option<string>,
    createdAt: string,
    isBlocked: bool,
    emailConfirmedAt: Option<string>,
    lastSignInAt: Option<string>)

  // ---------------------------------------------------------------------------
  // Search and status filter
  // ---------------------------------------------------------------------------

  /** `field?.toLowerCase().includes(term.toLowerCase())`: a missing field never matches. */
  predicate FieldMatches(field: Option<string>, term: string) {
    field.Some? && ContainsIgnoreCase(field.value, term)
  }

  /** The search predicate; the mobile number is compared case-sensitively. */
  predicate UserMatches(u: UserRow, term: string) {
    || FieldMatches(u.fullName, term)
    || FieldMatches(u.email, term)
    || (u.mobileNumber.Some? && Contains(u.mobileNumber.value, term))
    || FieldMatches(u.examPreparingFor, term)
  }

  /** `filteredUsers`. */
  function SearchUsers(users: seq<UserRow>, term: string): (r: seq<UserRow>)
    ensures Seqs.IsSubsequence(r, users)
    ensures forall i :: 0 <= i < |r| ==> UserMatches(r[i], term)
    ensures forall i :: 0 <= i < |users| && UserMatches(users[i], term) ==> users[i] in r
    ensures r == Seqs.Filter(users, (u: UserRow) => UserMatches(u, term))
  {
    Seqs.FilterIsSubsequence(users, (u: UserRow) => UserMatches(u, term));
    Seqs.Filter(users, (u: UserRow) => UserMatches(u, term))
  }

  /** With an empty search every user is listed except those whose four searched
      fields are all missing: optional chaining yields `undefined`, which is falsy. */
  lemma EmptySearch(u: UserRow)
    ensures UserMatches(u, "") <==>
      u.fullName.Some? || u.email.Some? || u.mobileNumber.Some? || u.examPreparingFor.Some?
  {
    if u.fullName.Some? { ContainsEmpty(u.fullName.value); }
    if u.email.Some? { ContainsEmpty(u.email.value); }
    if u.mobileNumber.Some? { ContainsEmpty(u.mobileNumber.value); }
    if u.examPreparingFor.Some? { ContainsEmpty(u.examPreparingFor.value); }
  }

  /** The status filter of the query: `blocked`, `active`, or anything else for all. */
  function FilterStatus(users: seq<UserRow>, status: string): (r: seq<UserRow>)
    ensures status != "blocked" && status != "active" ==> r == users
    ensures Seqs.IsSubsequence(r, users)
    ensures status == "blocked" ==> forall i :: 0 <= i < |r| ==> r[i].isBlocked
    ensures status == "active" ==> forall i :: 0 <= i < |r| ==> !r[i].isBlocked
    ensures status == "blocked" ==> forall i :: 0 <= i < |users| && users[i].isBlocked ==> users[i] in r
    ensures status == "active" ==> forall i :: 0 <= i < |users| && !users[i].isBlocked ==> users[i] in r
    ensures status == "blocked" ==> r == Seqs.Filter(users, BlockedTest())
    ensures status == "active" ==> r == Seqs.Filter(users, ActiveTest())
  {
    if status == "blocked" then
      Seqs.FilterIsSubsequence(users, BlockedTest());
      Seqs.Filter(users, BlockedTest())
    else if status == "active" then
      Seqs.FilterIsSubsequence(users, ActiveTest());
      Seqs.Filter(users, ActiveTest())
    else
      Seqs.SubsequenceRefl(users);
      users
  }

  function BlockedTest(): UserRow -> bool
  {
    (u: UserRow) => u.isBlocked
  }

  function ActiveTest(): UserRow -> bool
  {
    (u: UserRow) => !u.isBlocked
  }

  /** The Active and Blocked cards add up to the Total card. */
  lemma ActivePlusBlockedIsTotal(users: seq<UserRow>)
    ensures Seqs.Count(users, ActiveTest()) + Seqs.Count(users, BlockedTest()) == |users|
  {
    Seqs.CountComplement(users, ActiveTest(), BlockedTest());
  }

  // ---------------------------------------------------------------------------
  // Block toggle
  // ---------------------------------------------------------------------------

  /** The rows whose email equals `key` exactly (`.eq('email', key)`). */
  function Matches(users: seq<UserRow>, key: string): (r: seq<UserRow>)
    ensures |r| <= |users|
    ensures forall i :: 0 <= i < |r| ==> r[i].email == Some(key)
  {
    if users == [] then []
    else (if users[0].email == Some(key) then [users[0]] else []) + Matches(users[1..], key)
  }

  /** `update({ is_blocked: b }).eq('email', key)`. */
  function SetBlocked(users: seq<UserRow>, key: string, b: bool): (r: seq<UserRow>)
    ensures |r| == |users|
    ensures forall i :: 0 <= i < |users| ==>
              r[i] == (if users[i].email == Some(key) then users[i].(isBlocked := b) else users[i])
  {
    if users == [] then []
    else [if users[0].email == Some(key) then users[0].(isBlocked := b) else users[0]]
         + SetBlocked(users[1..], key, b)
  }

  /** The outcome of a toggle request. */
  datatype BlockOutcome =
    | EmptyEmail        // refused before any lookup
    | NotFound          // the lookup failed or `.single()` did not find exactly one row
    | UpdateFailed      // the update was refused; nothing changed
    | Toggled(nowBlocked: bool)

  /** The lookup and toggle shared by both handlers, for the lower-cased key.
      `lookupError`/`updateError` are the backend's answers. */
  function Toggle(users: seq<UserRow>, key: string, lookupError: bool, updateError: bool): (r: (BlockOutcome, seq<UserRow>))
    ensures r.0 == NotFound <==> lookupError || |Matches(users, key)| != 1
    ensures r.0.Toggled? ==>
      && |Matches(users, key)| == 1
      && r.0.nowBlocked == !Matches(users, key)[0].isBlocked
      && r.1 == SetBlocked(users, key, r.0.nowBlocked)
    ensures !r.0.Toggled? ==> r.1 == users
    ensures r.0 == UpdateFailed <==> !lookupError && |Matches(users, key)| == 1 && updateError
    ensures r.0.Toggled? <==> !lookupError && |Matches(users, key)| == 1 && !updateError
    ensures r.0 != EmptyEmail
  {
    var found := Matches(users, key);
    if lookupError || |found| != 1 then (NotFound, users)
    else if updateError then (UpdateFailed, users)
    else
      var b := !found[0].isBlocked;
      (Toggled(b), SetBlocked(users, key, b))
  }

  lemma {:induction false} MatchesAfterSet(users: seq<UserRow>, key: string, b: bool)
    ensures |Matches(SetBlocked(users, key, b), key)| == |Matches(users, key)|
    ensures forall i :: 0 <= i < |Matches(users, key)| ==>
              Matches(SetBlocked(users, key, b), key)[i] == Matches(users, key)[i].(isBlocked := b)
  {
    if users != [] {
      MatchesAfterSet(users[1..], key, b);
      assert SetBlocked(users, key, b)[1..] == SetBlocked(users[1..], key, b);
    }
  }

  lemma {:induction false} SetBlockedTwice(users: seq<UserRow>, key: string, b: bool, c: bool)
    ensures SetBlocked(SetBlocked(users, key, b), key, c) == SetBlocked(users, key, c)
  {
    if users != [] {
      SetBlockedTwice(users[1..], key, b, c);
      assert SetBlocked(users, key, b)[1..] == SetBlocked(users[1..], key, b);
    }
  }

  lemma {:induction false} SetBlockedUnchanged(users: seq<UserRow>, key: string, b: bool)
    requires forall i :: 0 <= i < |Matches(users, key)| ==> Matches(users, key)[i].isBlocked == b
    ensures SetBlocked(users, key, b) == users
  {
    if users != [] {
      var m := Matches(users, key);
      if users[0].email == Some(key) {
        assert m[0] == users[0];
        assert Matches(users[1..], key) == m[1..];
      } else {
        assert Matches(users[1..], key) == m;
      }
      SetBlockedUnchanged(users[1..], key, b);
      assert users == [users[0]] + users[1..];
    }
  }

  /** A successful toggle flips the one matching row; toggling the same email again
      restores the store exactly. */
  lemma ToggleTwiceRestores(users: seq<UserRow>, key: string)
    requires Toggle(users, key, false, false).0.Toggled?
    ensures var (o1, us1) := Toggle(users, key, false, false);
      && Toggle(us1, key, false, false).0 == Toggled(!o1.nowBlocked)
      && Toggle(us1, key, false, false).1 == users
  {
    var (o1, us1) := Toggle(users, key, false, false);
    var m := Matches(users, key);
    MatchesAfterSet(users, key, o1.nowBlocked);
    var m1 := Matches(us1, key);
    assert |m1| == 1 && m1[0].isBlocked == o1.nowBlocked;
    SetBlockedTwice(users, key, o1.nowBlocked, !o1.nowBlocked);
    SetBlockedUnchanged(users, key, !o1.nowBlocked);
  }

  /** The page state: the `users` store and the email box. */
  class UserAdminPage {
    var users: seq<UserRow>
    var blockEmail: string

    constructor (stored: seq<UserRow>)
      ensures users == stored && blockEmail == ""
    {
      users := stored;
      blockEmail := "";
    }

    /** `handleBlockUser`: a blank box is refused; otherwise the row is looked up by
        the lower-cased (untrimmed) text; on success the box is cleared. */
    method BlockUser(lookupError: bool, updateError: bool) returns (o: BlockOutcome)
      modifies this
      ensures IsBlank(old(blockEmail)) ==> o == EmptyEmail && users == old(users) && blockEmail == old(blockEmail)
      ensures !IsBlank(old(blockEmail)) ==>
        var r := Toggle(old(users), Lower(old(blockEmail)), lookupError, updateError);
        o == r.0 && users == r.1 && blockEmail == (if o.Toggled? then "" else old(blockEmail))
    {
      if IsBlank(blockEmail) {
        return EmptyEmail;
      }
      var r := Toggle(users, Lower(blockEmail), lookupError, updateError);
      o := r.0;
      users := r.1;
      if o.Toggled? {
        blockEmail := "";
      }
    }

    /** `handleBlockUserWithEmail` (the button of a row): an empty email is refused;
        the box is left as it is. */
    method BlockUserWithEmail(email: string, lookupError: bool, updateError: bool) returns (o: BlockOutcome)
      modifies this
      ensures email == "" ==> o == EmptyEmail && users == old(users)
      ensures email != "" ==>
        var r := Toggle(old(users), Lower(email), lookupError, updateError);
        o == r.0 && users == r.1
      ensures blockEmail == old(blockEmail)
    {
      if email == "" {
        return EmptyEmail;
      }
      var r := Toggle(users, Lower(email), lookupError, updateError);
      o := r.0;
      users := r.1;
    }
  }

  // ---------------------------------------------------------------------------
  // CSV export
  // ---------------------------------------------------------------------------

  const Headers: seq<string> := ["ID", "Full Name", "Email", "Mobile Number", "Exam Preparing For",
                                 "Registration Date", "Status", "Email Verified", "Last Sign In"]

  /** A row of the export; `date` is the locale date formatter. */
  function CsvRow(u: UserRow, date: string -> string): (r: seq<string>)
    ensures |r| == |Headers| == 9
    ensures r[0] == u.id && r[1] == u.fullName.GetOr("") && r[2] == u.email.GetOr("")
    ensures r[3] == u.mobileNumber.GetOr("") && r[4] == u.examPreparingFor.GetOr("")
    ensures r[5] == date(u.createdAt)
    ensures r[6] == (if u.isBlocked then "Blocked" else "Active")
    ensures r[7] == (if u.emailConfirmedAt.Some? && u.emailConfirmedAt.value != "" then "Yes" else "No")
    ensures r[8] == (if u.lastSignInAt.Some? && u.lastSignInAt.value != "" then date(u.lastSignInAt.value) else "Never")
  {
    [u.id, u.fullName.GetOr(""), u.email.GetOr(""), u.mobileNumber.GetOr(""), u.examPreparingFor.GetOr(""),
     date(u.createdAt),
     if u.isBlocked then "Blocked" else "Active",
     if u.emailConfirmedAt.Some? && u.emailConfirmedAt.value != "" then "Yes" else "No",
     if u.lastSignInAt.Some? && u.lastSignInAt.value != "" then date(u.lastSignInAt.value) else "Never"]
  }

  /** `"${field}"`: wrapped in double quotes, with embedded quotes left as they are. */
  function Quote(field: string): (r: string)
    ensures |r| == |field| + 2 && r[0] == '"' && r[|r| - 1] == '"' && r[1..|r| - 1] == field
  {
    "\"" + field + "\""
  }

  function CsvLine(fields: seq<string>): string
  {
    Join(Seqs.Map(fields, Quote), ",")
  }

  /** The lines of the export: the header line, then one line per user in order. */
  function CsvLines(users: seq<UserRow>, date: string -> string): (r: seq<string>)
    ensures |r| == |users| + 1 && r[0] == CsvLine(Headers)
    ensures forall i :: 0 <= i < |users| ==> r[i + 1] == CsvLine(CsvRow(users[i], date))
  {
    [CsvLine(Headers)] + Seqs.Map(users, (u: UserRow) => CsvLine(CsvRow(u, date)))
  }

  /** The exported text. */
  function Csv(users: seq<UserRow>, date: string -> string): string
  {
    Join(CsvLines(users, date), "\n")
  }

  lemma QuoteKeepsAbsent(field: string, c: char)
    requires c !in field && c != '"'
    ensures c !in Quote(field)
  {
    assert Quote(field) == ['"'] + field + ['"'];
  }

  /** When no field contains a comma, splitting a line at the commas gives back the
      quoted fields, so every line of the export has exactly as many fields as its row. */
  lemma CsvLineFields(fields: seq<string>)
    requires fields != []
    requires forall i :: 0 <= i < |fields| ==> ',' !in fields[i]
    ensures Split(CsvLine(fields), ',') == Seqs.Map(fields, Quote)
    ensures |Split(CsvLine(fields), ',')| == |fields|
  {
    var q := Seqs.Map(fields, Quote);
    forall i | 0 <= i < |q| ensures ',' !in q[i] {
      QuoteKeepsAbsent(fields[i], ',');
    }
    SplitJoin(q, ',');
  }

  /** Strips the first and last character of a quoted field. */
  function Unquote(s: string): string
  {
    if |s| >= 2 then s[1..|s| - 1] else s
  }

  /** Unquoting the pieces of a line gives back the fields: without commas in the
      fields the line determines the row. */
  lemma CsvLineDecodes(fields: seq<string>)
    requires fields != []
    requires forall i :: 0 <= i < |fields| ==> ',' !in fields[i]
    ensures Seqs.Map(Split(CsvLine(fields), ','), Unquote) == fields
  {
    CsvLineFields(fields);
  }

  /** No field of the list holds a line break. */
  predicate NoBreaks(fields: seq<string>) {
    forall j :: 0 <= j < |fields| ==> '\n' !in fields[j]
  }

  lemma HeadersNoBreaks()
    ensures NoBreaks(Headers)
  {
    forall j | 0 <= j < |Headers| ensures '\n' !in Headers[j] {
      assert Headers[j] in Headers;
    }
  }

  lemma LinesNoBreaks(users: seq<UserRow>, date: string -> string)
    requires forall i :: 0 <= i < |users| ==> NoBreaks(CsvRow(users[i], date))
    ensures forall k :: 0 <= k < |users| + 1 ==> '\n' !in CsvLines(users, date)[k]
  {
    var lines := CsvLines(users, date);
    HeadersNoBreaks();
    NoBreakInLine(Headers);
    forall k | 1 <= k < |lines| ensures '\n' !in lines[k] {
      NoBreakInLine(CsvRow(users[k - 1], date));
    }
  }

  /** When no field of any row contains a line break, splitting the export at line
      breaks gives back the header line and one line per user, in order. */
  lemma CsvSplitsIntoLines(users: seq<UserRow>, date: string -> string)
    requires forall i :: 0 <= i < |users| ==> NoBreaks(CsvRow(users[i], date))
    ensures Split(Csv(users, date), '\n') == CsvLines(users, date)
  {
    LinesNoBreaks(users, date);
    SplitJoin(CsvLines(users, date), '\n');
  }

  lemma NoBreakInLine(fields: seq<string>)
    requires NoBreaks(fields)
    ensures '\n' !in CsvLine(fields)
  {
    var q := Seqs.Map(fields, Quote);
    forall j | 0 <= j < |q| ensures '\n' !in q[j] {
      QuoteKeepsAbsent(fields[j], '\n');
    }
    NoBreakInJoin(q, ",");
  }

  lemma {:induction false} NoBreakInJoin(xs: seq<string>, sep: string)
    requires '\n' !in sep
    requires forall j :: 0 <= j < |xs| ==> '\n' !in xs[j]
    ensures '\n' !in Join(xs, sep)
  {
    if |xs| > 1 {
      NoBreakInJoin(xs[1..], sep);
      assert Join(xs, sep) == xs[0] + sep + Join(xs[1..], sep);
    }
  }

  /** Embedded quotes are not doubled (as section 2, item 7 of RFC 4180 asks), so
      two different rows can produce the same line: a single field `a","b` reads
      back as the two fields `a` and `b`. */
  lemma QuotesNotEscaped()
    ensures CsvLine(["a\",\"b"]) == CsvLine(["a", "b"])
  {
    var one := Seqs.Map(["a\",\"b"], Quote);
    assert one[0] == Quote("a\",\"b") == "\"a\",\"b\"";
    assert one == ["\"a\",\"b\""];
    var two := Seqs.Map(["a", "b"], Quote);
    assert two[0] == Quote("a") == "\"a\"" && two[1] == Quote("b") == "\"b\"";
    assert two == ["\"a\"", "\"b\""];
    assert Join(["\"a\"", "\"b\""], ",") == "\"a\"" + "," + Join(["\"b\""], ",");
  }
}
